=== FILE: README.md ===
# Outcomex anomaly pipeline — a Dafny model

Outcomex watches air-quality and vibration sensors. It has two halves:

- **The ML service** (`ml-service/`). It holds one anomaly detector per sensor:
  - a rolling z-score detector;
  - an STL seasonal-decomposition detector;
  - an LSTM forecaster.
  
  `MLDetector` chooses a detector for each sensor, trains it, predicts with it and applies a confidence floor. It can also vote several detectors in an ensemble. `TrainingManager` projects database rows into training series and records model metadata. The `/detect` endpoint runs every present field of a reading through the manager. It then gates which results are saved, finds cross-sensor correlations and computes an overall assessment.
- **The consumer** (`consumer/`). It takes sensor messages from a queue. It normalises and range-checks each record and detects anomalies from three sources: validation issues, fixed thresholds and the ML service's answer. It then runs an escalation ladder of actions (log, alert, escalate, emergency). It keeps bounded histories of recent data and anomalies, and stores one attributed row per anomaly.

Each source file is one Dafny module:

| Module | File | Models |
|---|---|---|
| `Common` | common.dfy | Python values, `dict.get`, string helpers, slicing, deques, statistics |
| `MlTypes` | mltypes.dfy | categories, predictions, the numeric library as a value |
| `BaseDetector` | base.dfy | `models/base.py` |
| `ZScore` | zscore.dfy | `models/zscore_detector.py` |
| `Stl` | stl.dfy | `models/stl_detector.py` |
| `Lstm` | lstm.dfy | `models/lstm_detector.py` |
| `Orchestrator` | orchestrator.dfy | `models/ml_detector.py` |
| `Training` | training.dfy | `training.py` |
| `Service` | service.dfy | the `/detect` path of `main.py` |
| `Preprocess` | preprocess.dfy | `consumer/core/preprocess.py` |
| `ConsumerDetect` | detect.dfy | `consumer/core/detect.py` |
| `Actions` | actions.dfy | `consumer/core/actions.py` |
| `Consumer` | consumer.dfy | `consumer/consumer.py` |

Some source objects update their fields in place. These become classes:
- the three detectors;
- `MLDetector`;
- `TrainingManager`;
- `ActionHandler`;
- `SmartSensorConsumer`.

Their methods are proved against specification functions: `PredictOutcome`, `Outcome`, `Handled`, `Normalized`, `ThresholdOutcome` and so on. The properties the code promises are then proved about those functions.

Python's dynamically typed values are one datatype, `Common.Value`. Dictionaries whose keys the code fixes become datatypes.

### Where the model follows the code rather than its documentation

- `detect_basic_thresholds` (`consumer/core/detect.py:24-58`) sits outside its loop, so its severity ladder runs once:
  - it takes the value of the last threshold key present in the record;
  - it always uses the vibration thresholds (0.3 / 0.4 / 0.5);
  - a record with none of the four keys raises `UnboundLocalError`.
  
  The model keeps all of this: `ConsumerDetect.ThresholdsUseVibration`, `HighPmAloneNotDetected` and `PmJudgedByVibrationLevels`.
- `validate_sensor_data` checks the sign of `pm2_5`, `pm10` and `dBA` but not `vibration` (`ConsumerDetect.VibrationNotValidated`).
- Valid JSON that is not an object makes `record.get` raise. The message is then nack-ed with requeue (`Consumer.SmartSensorConsumer.Callback`).
- Text that is not JSON raises `JSONDecodeError` and is ack-ed. Bytes that do not decode in the detected Unicode encoding raise `UnicodeDecodeError`, which is a different exception, so they are nack-ed with requeue and never counted.
- After an STL model is loaded from disk, the base class's `load_model` replaces the sensor's model with `True`. Every later STL prediction for that sensor therefore falls back (`Stl.PredictAfterLoadFallsBack`).
- In `MLDetector.predict`, the branch that loads a detector is unreachable: every configured sensor's detector kind has already been initialised. That is an invariant of `Orchestrator.MLDetector.Valid`.
- `MIN_TRAINING_DATA` gates training twice: once on the whole history and once on the projected series (`Training.TrainingManager.TrainSensorModels`, `TrainSingleModel`).

## Model

| member | source | states |
|---|---|---|
| Common.Get | consumer/consumer.py:113-116 | `dict.get`: the stored value when the key is present, the default otherwise |
| Common.Strip | consumer/core/actions.py:164 | the result neither starts nor ends with whitespace |
| Common.StripIsSlice | consumer/core/actions.py:164 | the stripped text is the contiguous slice of the input that starts at `StripOffset(s)`, and every character before that slice and after it is whitespace |
| Common.FloatOf | ml-service/models/base.py:102 | `float()` of a number is that number; of None, a time, a list or a dict it fails |
| Common.Lower | consumer/consumer.py:183 | lower-casing keeps the length and maps every character |
| Common.LastN | ml-service/models/zscore_detector.py:154-155 | keeps the newest `n` elements in order: a suffix of length `min(len, n)` |
| Common.PyTail | consumer/consumer.py:308-314 | Python's `s[-limit:]` for positive, zero and negative `limit` |
| Common.DequeAppend | consumer/consumer.py:50-51 | `deque(maxlen=cap).append(x)`: the newest `cap` elements of `q + [x]`, with `x` last |
| Common.DequeAppendKeepsNewest | consumer/consumer.py:50-51 | appending a sequence one element at a time to a bounded deque keeps the newest `cap` elements of the whole |
| Common.LastNOfAppend | ml-service/models/stl_detector.py:201-214 | truncating early and truncating late to the newest `n` give the same window |
| Common.WithKey | ml-service/models/ml_detector.py:125 | inserting a dict key: membership grows by exactly that key; order and distinctness are kept |
| Common.Without | ml-service/models/ml_detector.py:391 | deleting a dict key: membership shrinks by exactly that key; distinctness is kept |
| Common.MinOf | ml-service/models/zscore_detector.py:86 | `np.min`: a lower bound attained by some element |
| Common.MaxOf | ml-service/models/zscore_detector.py:87 | `np.max`: an upper bound attained by some element |
| Common.SumBounds | ml-service/main.py:280 | a sum of `n` terms within `[lo, hi]` lies in `[n*lo, n*hi]` |
| Common.MeanBounds | ml-service/main.py:280 | a mean of terms within `[lo, hi]` lies in `[lo, hi]` |
| Common.MeanBetweenMinAndMax | ml-service/models/zscore_detector.py:79-87 | the mean lies between the minimum and the maximum |
| Common.FractionValue | consumer/core/preprocess.py:27 | the digits after a decimal point denote a value in `[0, 1)` |
| Common.ParseDecimalExample | consumer/core/preprocess.py:27 | `float("12.5")` parses to 12.5 |
| MlTypes.FallbackPrediction | ml-service/models/zscore_detector.py:207-217 | the fallback answer: normal, confidence 0.1, score 0, carrying its reason |
| BaseDetector.AllWellFormed | ml-service/models/base.py:84-109 | true exactly when every reading has a parseable timestamp and a numeric value |
| BaseDetector.ValidateInput | ml-service/models/base.py:70-111 | accepted exactly when non-empty and every reading is well formed |
| BaseDetector.ExtractTimeSeries | ml-service/models/base.py:113-136 | on success, one timestamp and one value per reading, each value that reading's `float(value)` |
| BaseDetector.ValidInputExtracts | ml-service/models/base.py:113-136 | extraction cannot fail on readings that validate |
| BaseDetector.ValuesOf | ml-service/models/base.py:123-136 | the value series of validated input is non-empty and matches the readings one to one |
| BaseDetector.GetModelInfo | ml-service/models/base.py:194-212 | None exactly when the sensor is not registered; otherwise info for that sensor and detector, marked trained, carrying the detector's configuration dictionary |
| ZScore.TrainedStats | ml-service/models/zscore_detector.py:76-91 | fitted statistics: the newest `window_size` values, the reading count, `min <= mean <= max` |
| ZScore.ZScoreOf | ml-service/models/zscore_detector.py:124 | the z-score is non-negative and 0 when the standard deviation is not positive |
| ZScore.Classify | ml-service/models/zscore_detector.py:164-205 | the full ladder as if-and-only-ifs: alert/0.9 exactly when `z > 2t`; noise/0.7 exactly when `t < z <= 2t`; below both, drift/0.6 exactly when at least ten values give a drift ratio above the drift threshold (reported as `drift_ratio`); otherwise noise/0.5 exactly when at least five values have a deviation above `std * (1 + noise_threshold)` (reported as `noise_std`); normal/0.8 in the remaining case; `z_score` always reported |
| ZScore.ConfigDict | ml-service/models/zscore_detector.py:39-45 | the configuration dictionary has exactly the five keys `window_size`, `z_threshold`, `drift_threshold`, `noise_threshold`, `min_readings`, each holding its setting |
| ZScore.ConfigDictInjective | ml-service/models/base.py:211 | the dictionary determines the configuration, so the info record carries all of it |
| ZScore.ZScoreDetector.constructor | ml-service/models/zscore_detector.py:28-53 | a detector with the given configuration and no sensors |
| ZScore.ZScoreDetector.Fit | ml-service/models/zscore_detector.py:55-99 | succeeds exactly on valid input with at least `min_readings` readings; then registers the sensor with its trained statistics; otherwise nothing changes |
| ZScore.ZScoreDetector.Store | ml-service/models/zscore_detector.py:93 | records a sensor's statistics and registers it |
| ZScore.ZScoreDetector.UpdateStats | ml-service/models/zscore_detector.py:145-162 | replaces exactly that sensor's statistics with the slid window |
| ZScore.ZScoreDetector.Predict | ml-service/models/zscore_detector.py:101-143 | the answer and the new statistics are `PredictOutcome` of the old state |
| ZScore.ZScoreDetector.SaveModel | ml-service/models/base.py:138-159 | writes only for a registered sensor; succeeds when it has statistics and the write succeeds |
| ZScore.ZScoreDetector.LoadModel | ml-service/models/zscore_detector.py:240-262 | a readable file registers the sensor and installs its statistics; an unreadable one changes nothing |
| ZScore.ZScoreDetector.Unregister | ml-service/models/ml_detector.py:386-388 | removes exactly that sensor from the registered set |
| ZScore.ZScoreDetector.ModelInfo | ml-service/models/base.py:194-212 | info exists exactly for registered sensors, and its `config` is the detector's configuration dictionary |
| ZScore.WindowSlides | ml-service/models/zscore_detector.py:145-162 | an update keeps the window within `window_size`, appends the new value last and counts one more reading |
| ZScore.UntrainedFallsBack | ml-service/models/zscore_detector.py:113-114 | an unknown sensor gets the fallback and the state is unchanged |
| ZScore.Score | ml-service/models/zscore_detector.py:137 | `min(z / z_threshold, 1.0)` lies in `[0, 1]`, is 1 exactly when `z` reaches the threshold and 0 exactly when `z` is 0 |
| ZScore.ScoreInUnitInterval | ml-service/models/zscore_detector.py:137 | the anomaly score lies in `[0, 1]` |
| ZScore.ZeroDeviationNeverOutlier | ml-service/models/zscore_detector.py:124-137 | with zero standard deviation the score is 0, and the reading is never an alert or a z-outlier |
| ZScore.ClassifyMonotone | ml-service/models/zscore_detector.py:164-205 | a larger z-score never yields a less severe category |
| Stl.ComponentStatsOf | ml-service/models/stl_detector.py:191-199 | component statistics satisfy `min <= mean <= max` |
| Stl.TrainedStats | ml-service/models/stl_detector.py:107-126 | fitted statistics: the overall mean and standard deviation are those of the series; the trend, seasonal and residual entries are `ComponentStatsOf` the matching component of the series' decomposition, each with `min <= mean <= max` |
| Stl.TrainedEntry | ml-service/models/stl_detector.py:113-118 | the stored window holds the newest `period` values and the reading count |
| Stl.ZOf | ml-service/models/stl_detector.py:245-246 | a component z-score is non-negative |
| Stl.Analyze | ml-service/models/stl_detector.py:216-292 | normal/0.5 without an anomaly score for a window shorter than a period; normal/0.3 without one when decomposition fails; fails exactly when the decomposition has no residual; the `value` detail is always reported; the score lies in `[0, 1]` |
| Stl.AnalyzeLadder | ml-service/models/stl_detector.py:241-292 | for a decomposed window, with `rz` the latest residual's z-score and `rt` the residual threshold: alert/0.9 exactly when `rz > 2rt`, noise/0.7 exactly when `rt < rz <= 2rt`, drift/0.6 exactly when `rz <= rt` and at least ten trend values change faster than the trend threshold, noise/0.5 exactly when neither holds and the latest seasonal value is beyond `rt`, normal/0.8 with score 0 otherwise; `anomaly_score` equals the score and `residual_z_score` is reported |
| Stl.AnalyzeDetails | ml-service/models/stl_detector.py:261-284 | for a decomposed window that reaches the trend step, `trend_slope` and `trend_change` are reported whenever it runs on ten values; `seasonal` and `seasonal_z_score` whenever the seasonal step runs on a period of values |
| Stl.ConfigDict | ml-service/models/stl_detector.py:51-60 | the configuration dictionary has exactly the eight keys `period`, `seasonal_window`, `trend_window`, `low_pass_window`, `residual_threshold`, `trend_threshold`, `min_readings`, `seasonal_periods`, each holding its setting |
| Stl.ConfigDictInjective | ml-service/models/base.py:211 | the dictionary determines the configuration, so the info record carries all of it |
| Stl.StlDetector.constructor | ml-service/models/stl_detector.py:33-69 | a detector with the given configuration and no sensors |
| Stl.StlDetector.Fit | ml-service/models/stl_detector.py:71-132 | succeeds exactly when the input is accepted (enough readings, `period * seasonal_periods` values, a decomposition); then stores the window and the statistics; otherwise nothing changes |
| Stl.StlDetector.Predict | ml-service/models/stl_detector.py:134-174 | the answer and the new windows are `PredictOutcome` of the old state, whose answer carries the analysis's category, confidence, score and details; no sensor is added or removed |
| Stl.StlDetector.SaveModel | ml-service/models/stl_detector.py:306-329 | writes only for a known sensor; succeeds only with a real window, statistics and a successful write |
| Stl.StlDetector.LoadModel | ml-service/models/base.py:161-182 | a readable file installs statistics and leaves the sensor's model as the `True` marker |
| Stl.StlDetector.Unregister | ml-service/models/ml_detector.py:386-388 | removes exactly that sensor's model |
| Stl.StlDetector.ModelInfo | ml-service/models/base.py:194-212 | info exists exactly for known sensors, and its `config` is the detector's configuration dictionary |
| Stl.WindowSlides | ml-service/models/stl_detector.py:201-214 | an update keeps the newest `2 * period` values and counts one more reading |
| Stl.ScoreIsAllOrNothing | ml-service/models/stl_detector.py:251-292 | the score is 0 for a normal answer and 1 for any other: every non-normal branch's ratio already exceeds 1 |
| Stl.RatioAboveOne | ml-service/models/stl_detector.py:257-258 | `min(x / t, 1)` saturates once `x` exceeds `t` |
| Stl.PredictAfterLoadFallsBack | ml-service/models/base.py:176 | once a model has been loaded from disk, every prediction for that sensor is the fallback |
| Stl.UntrainedFallsBack | ml-service/models/stl_detector.py:146-147 | an unknown sensor gets the fallback and the windows are unchanged |
| Lstm.Windows | ml-service/models/lstm_detector.py:260-268 | the input windows: `len - L` of them, the i-th being `values[i..i+L]` |
| Lstm.Targets | ml-service/models/lstm_detector.py:260-268 | the targets: `len - L` of them, the i-th being `values[i+L]` |
| Lstm.PrepareSequences | ml-service/models/lstm_detector.py:260-268 | the loop builds exactly `Windows` and `Targets` |
| Lstm.SplitIndex | ml-service/models/lstm_detector.py:120 | `int(n * (1 - split))` never exceeds `n` |
| Lstm.TrainValidationSplit | ml-service/models/lstm_detector.py:120-122 | the two parts concatenate back to the inputs, and the training part has `SplitIndex` elements |
| Lstm.Errors | ml-service/models/lstm_detector.py:145-149 | one non-negative absolute error per training sequence (every window/target pair) |
| Lstm.Classify | ml-service/models/lstm_detector.py:292-321 | alert/0.9 exactly when `error > 2t`; noise/0.7 exactly when `t < error <= 2t`; drift/0.5 exactly when `t/2 < error <= t`; normal/0.8 exactly when `error` is at most both `t/2` and `2t`; the error and threshold are reported |
| Lstm.Score | ml-service/models/lstm_detector.py:232 | the score never exceeds 1 |
| Lstm.ConfigDict | ml-service/models/lstm_detector.py:57-68 | the configuration dictionary has exactly the ten keys `sequence_length`, `lstm_units`, `dropout_rate`, `learning_rate`, `epochs`, `batch_size`, `threshold_multiplier`, `min_readings`, `validation_split`, `early_stopping_patience`, each holding its setting |
| Lstm.ConfigDictInjective | ml-service/models/base.py:211 | the dictionary determines the configuration, so the info record carries all of it |
| Lstm.LstmDetector.constructor | ml-service/models/lstm_detector.py:38-78 | a detector with the given configuration and no sensors |
| Lstm.LstmDetector.Fit | ml-service/models/lstm_detector.py:80-168 | succeeds exactly when the input is accepted; then stores the forecaster, the error threshold and the newest `sequence_length` values; otherwise nothing changes |
| Lstm.LstmDetector.GetRecentValues | ml-service/models/lstm_detector.py:270-290 | the returned window is `RecentValues` of the old windows; it is stored back only for registered sensors |
| Lstm.LstmDetector.Predict | ml-service/models/lstm_detector.py:170-238 | the answer and the new windows are `PredictOutcome` of the old state |
| Lstm.LstmDetector.SaveModel | ml-service/models/lstm_detector.py:335-362 | writes only for a registered sensor; succeeds with a model, a threshold and a successful write |
| Lstm.LstmDetector.LoadModel | ml-service/models/lstm_detector.py:364-389 | readable files register the sensor with its forecaster and threshold; otherwise nothing changes |
| Lstm.LstmDetector.Unregister | ml-service/models/ml_detector.py:386-388 | removes exactly that sensor from the registered set |
| Lstm.LstmDetector.ModelInfo | ml-service/models/base.py:194-212 | info exists exactly for registered sensors, and its `config` is the detector's configuration dictionary |
| Lstm.AcceptedFitHasEnoughSequences | ml-service/models/lstm_detector.py:101-108 | an accepted fit has at least `L + 10` values, so the stored window is full |
| Lstm.RecentValuesKeepNewest | ml-service/models/lstm_detector.py:276-284 | the window is the newest `L` values of the old window plus the reading, which comes last |
| Lstm.ClassifyMonotone | ml-service/models/lstm_detector.py:292-321 | a larger error never yields a less severe category |
| Lstm.ScoreSaturatesAboveThreshold | ml-service/models/lstm_detector.py:232 | the score lies in `[0, 1]` and is 1 exactly when the error reaches the threshold |
| Lstm.UntrainedFallsBack | ml-service/models/lstm_detector.py:182-183 | an unknown sensor gets the fallback and the windows are unchanged |
| Orchestrator.KindOf | ml-service/models/ml_detector.py:78-83 | exactly "zscore", "stl" and "lstm" name a detector kind, and the name round-trips |
| Orchestrator.KindNameRoundTrip | ml-service/models/ml_detector.py:78-83 | every kind is found again from its name |
| Orchestrator.Deviations | ml-service/models/ml_detector.py:253-254 | each value minus the mean, one to one |
| Orchestrator.AnalyzeCharacteristics | ml-service/models/ml_detector.py:241-267 | seasonality only with at least 50 values; complex patterns exactly when `var > 0.1 * mean^2` |
| Orchestrator.SelectBestDetector | ml-service/models/ml_detector.py:213-239 | z-score below `min_data_for_advanced`; fails exactly when extraction fails; otherwise STL exactly when the series is seasonal with at least 100 values, LSTM exactly when it is not that and is complex with at least 200 values, z-score exactly when neither holds |
| Orchestrator.SmallHistoriesUseZScore | ml-service/models/ml_detector.py:109-113 | a short history trains z-score under auto-selection, the default detector otherwise |
| Orchestrator.ApplyConfidenceFloor | ml-service/models/ml_detector.py:170-173 | a confident answer is unchanged; otherwise normal at 0.1; score and details are kept |
| Orchestrator.ConfidenceFloorIdempotent | ml-service/models/ml_detector.py:170-173 | applying the floor twice is applying it once |
| Orchestrator.VoteWeights | ml-service/models/ml_detector.py:294-300 | each vote's weight is its category's total weight |
| Orchestrator.ArgMax | ml-service/models/ml_detector.py:307 | `max` over the categories: the first index of a largest weight |
| Orchestrator.TallyVotes | ml-service/models/ml_detector.py:294-304 | the voting loop computes `TallyOf` |
| Orchestrator.CountVote | ml-service/models/ml_detector.py:295-304 | one step of the loop adds one vote to the tally |
| Orchestrator.TallyComputesTotals | ml-service/models/ml_detector.py:302-304 | the tally's totals are the weighted sums of confidence and score and the total weight |
| Orchestrator.TallyComputesCategoryWeights | ml-service/models/ml_detector.py:298-300 | the tally's per-category entries are the category weights, and every voted category has one |
| Orchestrator.FirstHeaviest | ml-service/models/ml_detector.py:307 | the search loop finds `ArgMax` |
| Orchestrator.CombinePredictions | ml-service/models/ml_detector.py:285-322 | the method computes `Combine` |
| Orchestrator.CombineChoosesHeaviest | ml-service/models/ml_detector.py:307 | the chosen category has the largest weight, and no earlier-voted category weighs as much |
| Orchestrator.UnanimousVote | ml-service/models/ml_detector.py:285-322 | a unanimous vote keeps its category |
| Orchestrator.WeightedSumLower | ml-service/models/ml_detector.py:302-304 | with non-negative weights, the weighted confidence is at least `total weight * lo` |
| Orchestrator.WeightedSumUpper | ml-service/models/ml_detector.py:302-304 | with non-negative weights, the weighted confidence is at most `total weight * hi` |
| Orchestrator.PositiveTotalWeight | ml-service/models/ml_detector.py:310 | positive weights give a positive total, so the average is a true division |
| Orchestrator.EnsembleConfidenceWithinVotes | ml-service/models/ml_detector.py:310 | the ensemble confidence lies within the voters' confidences |
| Orchestrator.MLDetector.Outcome | ml-service/models/ml_detector.py:143-179 | an unconfigured sensor gets the "No trained model" fallback; a non-normal answer meets the confidence floor |
| Orchestrator.MLDetector.constructor | ml-service/models/ml_detector.py:37-73 | no sensors; only the default detector initialised (none if its name is unknown) |
| Orchestrator.MLDetector.InitializeDetector | ml-service/models/ml_detector.py:75-89 | succeeds exactly for a known name and installs a fresh, empty detector of that kind only |
| Orchestrator.MLDetector.TrainKind | ml-service/models/ml_detector.py:115-122 | initialises the kind if needed; succeeds exactly when that detector accepts the input, registering the sensor with it alone; that detector's new state is `FittedState` of its old one, and every other detector's state is unchanged |
| Orchestrator.MLDetector.Fit | ml-service/models/ml_detector.py:91-141 | succeeds exactly when the chosen kind exists and accepts the readings; then records the sensor's kind, time and count and registers it with that detector; on failure nothing is configured; the chosen kind's detector state becomes `FittedState` of its old one and all others are unchanged |
| Orchestrator.MLDetector.FitAs | ml-service/models/ml_detector.py:115-129 | `fit` once the kind is chosen: succeeds exactly when that detector accepts the readings; the sensor's configuration and insertion order, the detector's registrations and its `FittedState` are set, and no other detector changes |
| Orchestrator.MLDetector.RecordSensor | ml-service/models/ml_detector.py:125-129 | sets exactly that sensor's configuration, keeping insertion order |
| Orchestrator.MLDetector.KindPredict | ml-service/models/ml_detector.py:167-168 | the answer is that detector's prediction in the old state; its new state is `PredictedState` of the old one, and no other detector changes |
| Orchestrator.MLDetector.Predict | ml-service/models/ml_detector.py:143-179 | the answer is `Outcome` of the old state; the routed detector's state becomes `PredictedState` of its old one, every other detector's state is unchanged, and no sensor is added or removed |
| Orchestrator.RoutedPredictionMeetsFloor | ml-service/models/ml_detector.py:170-173 | every answer meets the floor or is normal at 0.1 |
| Orchestrator.UnconfiguredSensorFallsBack | ml-service/models/ml_detector.py:156-157 | an unconfigured sensor always gets the fallback |
| Orchestrator.MLDetector.ReadVotes | ml-service/models/ml_detector.py:199-203 | the votes are `EnsembleVotes` in initialisation order |
| Orchestrator.MLDetector.CollectVotes | ml-service/models/ml_detector.py:195-205 | the votes are those the detectors give in the state before the loop; each voting detector's state becomes `PredictedState` of its old one, the others are unchanged, and no sensor is added or removed |
| Orchestrator.MLDetector.AdvanceVoters | ml-service/models/ml_detector.py:199-205 | the loop runs `predict` once on each detector that has a weight and knows the sensor, taking it to `PredictedState`; every other detector is unchanged |
| Orchestrator.MLDetector.AdvanceVoter | ml-service/models/ml_detector.py:200-203 | one iteration: the kind predicts exactly when it votes, and no other detector changes |
| Orchestrator.MLDetector.PredictEnsemble | ml-service/models/ml_detector.py:181-211 | plain `Outcome` outside ensemble mode, with `predict`'s state change; otherwise the weighted combination of the votes, or the fallback when there are none, and exactly the voting detectors advance to `PredictedState` |
| Orchestrator.MLDetector.EnsemblePredict | ml-service/models/ml_detector.py:195-211 | the ensemble branch: the weighted combination of the votes of the old state, or the fallback when there are none; exactly the voting detectors advance to `PredictedState` |
| Orchestrator.MLDetector.StateOf | ml-service/models/ml_detector.py:75-89 | a kind's detector as a value: `NoDetector` exactly when the kind is not initialised, otherwise a state of that kind whose sensors are the detector's `sensor_models` |
| Orchestrator.FittedStateRegisters | ml-service/models/ml_detector.py:115-122 | after a fit the kind has a detector, which knows the sensor in addition exactly when it accepted the readings |
| Orchestrator.FittedFresh | ml-service/models/ml_detector.py:117-118 | fitting a kind that is not initialised is fitting a freshly created detector |
| Orchestrator.PredictedStateKeepsRegistered | ml-service/models/ml_detector.py:167-168 | a prediction keeps the detector and the sensors it knows |
| Orchestrator.MLDetector.DetectorInfo | ml-service/models/ml_detector.py:366-369 | detector info exists exactly when that detector knows the sensor |
| Orchestrator.MLDetector.GetSensorInfo | ml-service/models/ml_detector.py:350-371 | None exactly for unconfigured sensors; otherwise the configured kind, time and count, with detector info exactly when the detector knows the sensor |
| Orchestrator.MLDetector.ListTrainedSensors | ml-service/models/ml_detector.py:373-375 | exactly the configured sensors, without repetition |
| Orchestrator.MLDetector.RemoveSensor | ml-service/models/ml_detector.py:377-406 | forgets the sensor's configuration and its registration with its own detector; succeeds exactly for a configured sensor whose files can be removed |
| Training.SensorKey | ml-service/training.py:120 | the `device_sensor` id: device, underscore, sensor type |
| Training.SensorKeyInjective | ml-service/training.py:120 | distinct (device, known sensor type) pairs get distinct ids |
| Training.KeptRows | ml-service/training.py:109-110 | the rows kept for training are rows of the input whose field is present and not None |
| Training.Readings | ml-service/training.py:111-114 | one `{timestamp, value}` reading per kept row |
| Training.ProjectionSucceedsWhenTimestamped | ml-service/training.py:108-114 | the projection fails exactly when a kept row lacks a timestamp |
| Training.ProjectionIsFilterThenMap | ml-service/training.py:108-114 | the projection is the kept rows mapped to readings |
| Training.ProjectionShape | ml-service/training.py:108-114 | at most one reading per row, each a `{timestamp, value}` dict with a non-None value |
| Training.ProjectRows | ml-service/training.py:108-114 | the loop computes `Projected` |
| Training.ProjectionFailurePersists | ml-service/training.py:112 | once a row raises, the whole projection fails |
| Training.FieldsOutcomeEntries | ml-service/training.py:98-134 | every recorded metadata entry is for this device and a listed field, has accuracy 0.85, enough readings, and a successful fit behind it |
| Training.ErrorPrediction | ml-service/training.py:172-179 | the error answer: normal, confidence 0.1, score 0, with the error text |
| Training.TrainingManager.constructor | ml-service/training.py:12-15 | no detector, not running, no task, no metadata |
| Training.TrainingManager.Initialize | ml-service/training.py:17-35 | a fresh orchestrator with the given default detector, auto-selection, minimum data and floor |
| Training.TrainingManager.StartScheduler | ml-service/training.py:37-44 | running afterwards; a task is started only if not already running |
| Training.TrainingManager.StopScheduler | ml-service/training.py:46-57 | not running afterwards |
| Training.TrainingManager.TrainSingleModel | ml-service/training.py:106-141 | appends `SingleOutcome` to the metadata and configures the sensor exactly when a model is recorded |
| Training.TrainingManager.FitAndRecord | ml-service/training.py:120-134 | records metadata, with the chosen kind and the count, exactly when the fit succeeds |
| Training.TrainingManager.RecordMetadata | ml-service/training.py:126-134 | appends one entry with the configured detector type, accuracy 0.85 and the reading count exactly when the sensor is configured, and nothing otherwise |
| Training.TrainingManager.FitSensor | ml-service/training.py:123 | succeeds exactly when the orchestrator's fit succeeds, configuring the sensor with the chosen kind |
| Training.TrainingManager.TrainSensorModels | ml-service/training.py:90-104 | appends `DeviceOutcome`; with too little history nothing is configured |
| Training.TrainingManager.TrainFields | ml-service/training.py:98-101 | appends `FieldsOutcome` over the four sensor types |
| Training.TrainingManager.TrainField | ml-service/training.py:100-101 | one iteration extends the outcome by that field's `SingleOutcome` |
| Training.TrainingManager.TrainAllModels | ml-service/training.py:74-88 | appends `AllOutcome` over the devices in order |
| Training.TrainingManager.RetrainModel | ml-service/training.py:143-158 | true exactly when the history is long enough, then as `TrainSingleModel` |
| Training.TrainingManager.GetModelInfo | ml-service/training.py:160-166 | info exactly for configured `device_sensor` ids, for that id |
| Training.TrainingManager.Predict | ml-service/training.py:168-181 | the orchestrator's answer for the `device_sensor` id, or the error answer before initialisation |
| Service.Present | ml-service/main.py:179-184 | exactly the present fields with their values, in field order |
| Service.Results | ml-service/main.py:196-205 | one anomaly result per present field |
| Service.ResultsFollowFields | ml-service/main.py:196-205 | each result carries its field's name and its prediction's category and confidence |
| Service.SavedExactlyGated | ml-service/main.py:207-218 | every saved record is a non-normal one for this device, and every prediction passing the gate is saved |
| Service.GateUnderFloor | ml-service/main.py:207 | after routing through the floor, every non-normal answer above the floor is saved |
| Service.NothingSavedBeforeInitialize | ml-service/main.py:207 | before initialisation nothing is saved |
| Service.Correlations | ml-service/main.py:238-270 | the PM pair exactly when both are truthy and above 50 / 100; the noise pair exactly when above 80 dBA / 0.1; in that order |
| Service.CountCategory | ml-service/main.py:276-278 | the count is positive exactly when the category occurs |
| Service.Confidences | ml-service/main.py:280 | the confidences of the results, one to one |
| Service.OverallAssessment | ml-service/main.py:272-289 | normal at 0 for no results; else the most severe category present (alert, drift, noise, normal) with the mean confidence |
| Service.OverallConfidenceBetween | ml-service/main.py:280 | the overall confidence lies between the smallest and largest confidence |
| Service.AllFieldsPresent | ml-service/main.py:179-184 | a complete reading is examined in the order pm2_5, pm10, dBA, vibration |
| Service.PredictField | ml-service/main.py:190-194 | each answer is the manager's, meeting the floor once initialised |
| Service.PredictFields | ml-service/main.py:181-194 | one answer per present field |
| Service.RecordResults | ml-service/main.py:196-218 | the loop builds `Results` and `Saved` |
| Service.DetectAnomalies | ml-service/main.py:172-236 | the response holds the results, the correlations and the overall assessment; the saved records are the gated ones |
| Preprocess.RoundHalfEven | consumer/core/preprocess.py:32 | Python's `round`: nearest integer, ties to even |
| Preprocess.Round3 | consumer/core/preprocess.py:32 | `round(x, 3)` is within 0.0005 of `x` and has three decimals |
| Preprocess.Round3Idempotent | consumer/core/preprocess.py:32 | rounding twice is rounding once |
| Preprocess.Round3WithinRange | consumer/core/preprocess.py:27-32 | rounding a value in an integer range stays in that range |
| Preprocess.NamesUpTo | consumer/core/preprocess.py:9-14 | the names of the first `i` expected fields |
| Preprocess.Partial | consumer/core/preprocess.py:22-33 | the loop's dict after `i` fields: timestamp, device id and the first `i` cleaned fields |
| Preprocess.Normalized | consumer/core/preprocess.py:16-36 | accepted exactly when the record is acceptable; the result has exactly the six keys, the copied ids and each field cleaned |
| Preprocess.ValidateAndNormalize | consumer/core/preprocess.py:16-36 | the loop computes `Normalized` |
| Preprocess.CleanedInRange | consumer/core/preprocess.py:27-32 | every cleaned field is a number within its range with three decimals |
| Preprocess.CleanedFieldFixed | consumer/core/preprocess.py:27-32 | a cleaned field is cleaned again to itself |
| Preprocess.PartialOfFixed | consumer/core/preprocess.py:22-33 | the loop rebuilds a cleaned record exactly |
| Preprocess.NormalizeIdempotent | consumer/core/preprocess.py:16-36 | normalising a normalised record gives it back |
| Preprocess.BoundsInclusive | consumer/core/preprocess.py:10-13 | range ends are accepted; a value just below the range is rejected |
| ConsumerDetect.Numeric | consumer/core/detect.py:33-49 | a number compares as itself |
| ConsumerDetect.Ladder | consumer/core/detect.py:33-56 | fails exactly on a value that cannot be compared; a value at or above `severe` gives one critical result, one in `[critical, severe)` one high result, one in `[warning, critical)` one medium result, and one below all three levels none |
| ConsumerDetect.LastPresent | consumer/core/detect.py:27-31 | none exactly when no threshold key is present |
| ConsumerDetect.DetectBasicThresholds | consumer/core/detect.py:24-58 | the method computes `ThresholdOutcome` |
| ConsumerDetect.ThresholdsUseVibration | consumer/core/detect.py:24-58 | at most one result; vibration thresholds on the last present value; `UnboundLocalError` exactly when no key is present |
| ConsumerDetect.HighPmAloneNotDetected | consumer/core/detect.py:24-58 | a PM2.5 of 160 with low vibration gives no threshold anomaly |
| ConsumerDetect.PmJudgedByVibrationLevels | consumer/core/detect.py:24-58 | a lone PM2.5 reading of 0.5 or more is reported as a severe vibration |
| ConsumerDetect.MissingIssueInjective | consumer/core/detect.py:64-71 | distinct missing fields give distinct issues |
| ConsumerDetect.MissingIssues | consumer/core/detect.py:63-71 | a missing-field issue exactly for each required field absent |
| ConsumerDetect.ValidateSensorData | consumer/core/detect.py:60-85 | the method computes `ValidationOutcome` |
| ConsumerDetect.NegativeIssuesStayRaised | consumer/core/detect.py:73-83 | once a comparison raises, validation fails |
| ConsumerDetect.NegativeIssuesExact | consumer/core/detect.py:73-83 | fails exactly when a checked value is not comparable; otherwise a negative-value issue exactly for each checked negative field |
| ConsumerDetect.VibrationNotValidated | consumer/core/detect.py:73-83 | the vibration value never affects the sign check |
| ConsumerDetect.MlStepOf | consumer/core/detect.py:97-114 | a dict item with category "normal" is skipped; one with another hashable category and `reason`, `confidence` and `sensor_type` is emitted as an `ml_detection` with its category's severity, its confidence, sensor type and anomaly score (0 by default); anything else raises |
| ConsumerDetect.SeverityOf | consumer/core/detect.py:99-107 | alert gives critical, drift medium, noise low, any other hashable category medium; a list or dict category raises |
| ConsumerDetect.MlEntries | consumer/core/detect.py:97-114 | at most one entry per item (the exact entries are stated by `MlEntriesExact`) |
| ConsumerDetect.DetectMlAnomalies | consumer/core/detect.py:87-129 | the method computes `MlOutcome`, whose entries `MlEntriesExact` and `MlOverallRule` characterise |
| ConsumerDetect.MlEntriesStopAtRaise | consumer/core/detect.py:126-127 | once an item raises, the entries so far are the result |
| ConsumerDetect.MlEntriesNotNormal | consumer/core/detect.py:97-114 | every entry is an `ml_detection` coming from one of the items |
| ConsumerDetect.Emitted | consumer/core/detect.py:97-114 | every entry of an emitting item is included, and every included entry comes from an emitting item |
| ConsumerDetect.FirstRaise | consumer/core/detect.py:97-127 | the index of the first item that raises: no earlier item raises, and the item there does |
| ConsumerDetect.MlEntriesExact | consumer/core/detect.py:97-127 | the loop's entries are exactly those of the emitting items before the first raise, in order, and the loop raised exactly when some item raises |
| ConsumerDetect.MlOverallRule | consumer/core/detect.py:116-127 | one medium `ml_overall` entry is appended after the loop's entries exactly when the response is a non-empty dict, the loop did not raise, and the assessment is present and not "normal"; otherwise every entry is an `ml_detection` |
| ConsumerDetect.Detect | consumer/core/detect.py:131-149 | fails exactly when validation or thresholds raise; otherwise validation, threshold and ML anomalies in that order |
| ConsumerDetect.NoIssuesWhenComplete | consumer/core/detect.py:60-85 | a record with ids and non-negative readings has no validation issue |
| ConsumerDetect.CleanedRecordDetection | consumer/core/detect.py:131-149 | a normalised record validates cleanly and is judged by the vibration ladder alone |
| Actions.Ladder | consumer/core/actions.py:16-21 | the action ladder for a severity is a non-empty prefix of log, alert, escalate, emergency; unknown severities log only; unhashable ones raise |
| Actions.LaddersGrow | consumer/core/actions.py:16-21 | each severity level adds exactly one action to the previous ladder |
| Actions.SensorData | consumer/core/actions.py:236 | exactly the four sensor fields present in the record |
| Actions.Upper | consumer/core/actions.py:389 | upper-casing keeps the length and maps every character |
| Actions.FormatAlert | consumer/core/actions.py:378-402 | a message exactly when the severity is a string |
| Actions.AlertEntry | consumer/core/actions.py:253-288 | an alert is recorded exactly when the message can be formatted |
| Actions.AlertDespiteLlmFailure | consumer/core/actions.py:290-306 | the AI section only extends the plain alert text; it is present exactly when insights are used |
| Actions.ActionEntry | consumer/core/actions.py:211-227 | every action records itself, except an alert whose message cannot be formatted |
| Actions.HandledStaysRaised | consumer/core/actions.py:194-209 | once an anomaly raises, the actions before it are the result |
| Actions.LadderFullyRecorded | consumer/core/actions.py:204-207 | every ladder step leaves one history entry for that action and that anomaly |
| Actions.EveryLadderStepRecorded | consumer/core/actions.py:194-209 | for a handled anomaly, every step of its ladder is recorded in order |
| Actions.KeysOf | consumer/core/actions.py:434-436 | the action names of the counts, one to one |
| Actions.Bump | consumer/core/actions.py:434-436 | counting an action adds one to its count and one to the total |
| Actions.BumpKeys | consumer/core/actions.py:434-436 | counting adds the action's key at most once |
| Actions.CountsExact | consumer/core/actions.py:427-438 | the counts list each action once, with its number of occurrences, and sum to the history length |
| Actions.StatsSummarise | consumer/core/actions.py:425-438 | the total equals the sum of the counts; the recent actions are the last ten of the history |
| Actions.DigitPrefix | consumer/core/actions.py:174-176 | the leading digits of a string |
| Actions.FirstNumber | consumer/core/actions.py:174-176 | no number exactly when the line contains no digit |
| Actions.FirstNumberIsFirstRun | consumer/core/actions.py:174-176 | at the first digit index `k`, the number is the value of the digit run that starts at `k` |
| Actions.Step | consumer/core/actions.py:163-176 | a confidence line sets the confidence to its first number; others keep it |
| Actions.OrDefault | consumer/core/actions.py:179-181 | an empty section falls back to the non-empty default |
| Actions.Parsed | consumer/core/actions.py:153-192 | every section is non-empty; no response gives the defaults (the section contents are stated by `ParsedSections`) |
| Actions.BuffersAreBuckets | consumer/core/actions.py:163-176 | each text buffer is its bucket's stripped lines, in order, each followed by a space |
| Actions.ParsedSections | consumer/core/actions.py:157-183 | each section of the answer is its bucket's stripped lines joined by spaces and stripped, or its default when that is empty; the confidence is the scan's |
| Actions.ParseLlmResponse | consumer/core/actions.py:153-192 | the line loop computes `Parsed` |
| Actions.LastConfidenceWins | consumer/core/actions.py:163-176 | the last confidence line decides the confidence |
| Actions.ConfidenceDefault | consumer/core/actions.py:163-176 | without a confidence line the confidence is 50 |
| Actions.ActionHandler.constructor | consumer/core/actions.py:14-36 | an empty history |
| Actions.ActionHandler.LogAnomaly | consumer/core/actions.py:229-251 | appends the log entry |
| Actions.ActionHandler.SendAlert | consumer/core/actions.py:253-288 | appends the alert entry exactly when there is one |
| Actions.ActionHandler.EscalateAnomaly | consumer/core/actions.py:336-356 | appends the escalation entry |
| Actions.ActionHandler.EmergencyAction | consumer/core/actions.py:358-376 | appends the emergency entry |
| Actions.ActionHandler.ExecuteAction | consumer/core/actions.py:211-227 | computes `ActionEntry` and appends it when present |
| Actions.ActionHandler.HandleOne | consumer/core/actions.py:201-207 | runs one anomaly's ladder, or fails without recording anything |
| Actions.ActionHandler.RunLadder | consumer/core/actions.py:204-207 | appends exactly the ladder's entries |
| Actions.ActionHandler.HandleAnomalies | consumer/core/actions.py:194-209 | appends `Handled`; succeeds exactly when no anomaly raises, returning the new entries |
| Actions.ActionHandler.GetActionHistory | consumer/core/actions.py:421-423 | the whole history |
| Actions.ActionHandler.GetStats | consumer/core/actions.py:425-438 | the statistics of the history |
| Consumer.DetectedOnCleaned | consumer/consumer.py:125-135 | the consumer's anomalies are the vibration ladder's followed by the ML service's |
| Consumer.AttributedField | consumer/consumer.py:179-194 | one of the four fields or "unknown"; "unknown" exactly when no field name occurs in the lower-cased anomaly |
| Consumer.Row | consumer/consumer.py:176-206 | the stored row names the attributed field, with that field's value or 0 |
| Consumer.Rows | consumer/consumer.py:177-206 | one row per anomaly, in order |
| Consumer.Round2Percent | consumer/consumer.py:326 | rounding a percentage to two places keeps it within 0..100 |
| Consumer.AnomalyRate | consumer/consumer.py:326 | `round(detected / max(processed, 1) * 100, 2)`, which lies within 0..100 when no more messages had anomalies than were processed |
| Consumer.SmartSensorConsumer.constructor | consumer/consumer.py:43-51 | zero counters, empty histories, a fresh dispatcher, and the consumer's own LLM reasoner present or not |
| Consumer.Decision | consumer/consumer.py:137-148 | `llm_decision` is None whenever the consumer has no reasoner |
| Consumer.StoreAnomalies | consumer/consumer.py:174-203 | appends exactly the rows of the anomalies, in order, when the sensor row got an id, and nothing otherwise |
| Consumer.SmartSensorConsumer.HandleAndRemember | consumer/consumer.py:152-172 | the dispatcher history grows by the handled actions, the anomaly record (its `llm_decision` given by `Decision`, its `detected_at` a clock reading of its own) is appended to the deque bounded at 100, and the counters, the data deque and the stored rows are unchanged |
| Consumer.SmartSensorConsumer.React | consumer/consumer.py:140-206 | counts the anomaly event, runs the actions, remembers the record in the deque bounded at 100 and stores rows when the data row has an id; the processed count and the data deque are unchanged |
| Consumer.SmartSensorConsumer.Ingest | consumer/consumer.py:110-206 | the new state is `Ingested`: the processed record in the data deque, then the anomaly handling |
| Consumer.SmartSensorConsumer.Callback | consumer/consumer.py:94-236 | nack with requeue exactly for undecodable bytes and for non-object JSON, ack otherwise; counts every decoded message; changes nothing else for undecodable bytes, invalid JSON or rejected records |
| Consumer.SmartSensorConsumer.GetSensorData | consumer/consumer.py:308-310 | the newest `limit` records |
| Consumer.SmartSensorConsumer.GetAnomalies | consumer/consumer.py:312-314 | the newest `limit` anomaly records |
| Consumer.SmartSensorConsumer.GetStats | consumer/consumer.py:316-329 | the counters, deque sizes within their bounds, and the anomaly rate `AnomalyRate(anomalies_detected, messages_processed)`, within 0..100 |

## Left out

- I/O is not modelled. This covers asyncio scheduling and sleeping, the database, the HTTP and LLM clients, the webhook and email channels, log files and logging, and the RabbitMQ connection and retry loop. Their results enter as parameters: `Inputs`, `Env`, `rows`, `writeSucceeds`, `filesRemovable`, the database row id and the reasoner's decision.
- The data generator, the API server, `ml_client.py` and `llm_support.py` are not part of this model.
- Environment variables, `model_dir`, `os.makedirs` and the `detector_configs` merge are not modelled. The configuration enters as a value.
- ZScore.ZScoreDetector.LoadModel: does not model the configuration update from the saved file (`zscore_detector.py:254-255`), because the detector's configuration is fixed at construction. For the same reason it requires the saved statistics to fit the current window (`WindowOk`), so a file saved under a larger `window_size` is outside the model, although the source loads it.
- Stl.StlDetector.LoadModel: does not model the configuration update from the saved file (`stl_detector.py:353-354`), because the detector's configuration is fixed at construction. A loaded `period` would change the window bound (`EntryOk`) that every other sensor's stored window is kept within, so the update cannot be stated without dropping that invariant.
- Lstm.LstmDetector.LoadModel: does not model a partial load, where the model file is present and the scaler or threshold file is missing.
- numpy, statsmodels and keras numerics (standard deviation, slope, autocorrelation, decomposition, forecasters) are uninterpreted functions of a `Library` value. NaN, infinities and IEEE rounding are not modelled: numbers are exact reals.
- Common.FloatOf: parses only plain decimal strings. It does not accept exponents, `inf` or `nan`.
- Common.Lower and Actions.Upper: ASCII only. Python's Unicode case mapping is not modelled.
- Common.Strip: strips only the six characters space, tab, newline, carriage return, vertical tab and form feed. Python's `str.strip()` also strips `\x1c` to `\x1f`, `\x85` and the other Unicode whitespace characters.
- Actions.FirstNumber: ASCII digits only. Python's `\d` in `re.search(r'(\d+)', line)` also matches other Unicode decimal digits.
- Consumer.AttributedField: reads field names from the anomaly's structure, not from its `repr` text. The two differ only when an escape sequence in the `repr` (such as `\x1d` before "ba") forms a field name.
- Clocks are parameters: `stamp` and `detectedStamp` (the two clock readings of one delivery, for `processed_at` and `detected_at`), `trainedAt` and `now`. `processing_time`, uptime and `processing_rate` are not modelled.
- Exception messages are fixed texts. Numbers are not rendered inside reason texts. `Show` renders only strings, None and booleans. Alert texts omit emoji and units.
- The unknown-action branch of `_execute_action` cannot arise, because actions are a datatype.
- ZScore.ZScoreDetector.constructor, Stl.StlDetector.constructor, Lstm.LstmDetector.constructor: require a configuration with positive thresholds and windows. The defaults meet this requirement.
- Training.TrainingManager.FitAndRecord: the recorded metadata's `config` is always empty, as `get_sensor_info` supplies none. A metadata round trip is therefore not stated.
- Lstm.Score: with a zero threshold it gives 1 for a positive error, as numpy's `min(inf, 1.0)` does, and 0 for a zero error, where numpy's `0/0` gives NaN.
- Service.DetectAnomalies: asks the manager for every prediction before building results. Later predictions are characterised only by `Answer` (an answer of the manager meeting the floor), not by the detectors' evolving state.
- Pydantic request validation is not modelled.

=== FILE: actions.dfy ===
/**
 * The consumer's `ActionHandler`: every anomaly runs the action ladder of its
 * severity; each completed action appends one entry to the handler's history
 * and is returned; `get_stats` summarises the history; the LLM's free-text
 * answer is sorted line by line into insight fields.
 */
module Actions {
  import opened Common

  // ---------------------------------------------------------------------
  // Escalation

  /** An action of a ladder. */
  datatype Kind = Log | Alert | Escalate | Emergency

  /** The name an entry's `action` field carries. */
  function KindName(k: Kind): string
  {
    match k
    case Log => "log"
    case Alert => "alert"
    case Escalate => "escalate"
    case Emergency => "emergency"
  }

  /** The actions of the longest ladder, mildest first. */
  const ActionKinds: seq<Kind> := [Log, Alert, Escalate, Emergency]

  /** `escalation_levels.get(severity, ["log"])`; None where the lookup raises (an unhashable list or dict). */
  function Ladder(severity: Value): (r: Option<seq<Kind>>)
    ensures r.None? <==> severity.VList? || severity.VDict?
    ensures r.Some? ==> 1 <= |r.value| <= |ActionKinds| && r.value == ActionKinds[..|r.value|]
    ensures r.Some? && severity !in {VStr("low"), VStr("medium"), VStr("high"), VStr("critical")} ==> r.value == [Log]
  {
    match severity
    case VList(_) => None
    case VDict(_) => None
    case VStr(s) =>
      Some(if s == "low" then ActionKinds[..1] else if s == "medium" then ActionKinds[..2]
           else if s == "high" then ActionKinds[..3] else if s == "critical" then ActionKinds else [Log])
    case _ => Some([Log])
  }

  /** Each severity's ladder extends the milder one's by exactly one action. */
  lemma LaddersGrow()
    ensures Ladder(VStr("low")) == Some([Log])
    ensures Ladder(VStr("medium")) == Some(Ladder(VStr("low")).value + [Alert])
    ensures Ladder(VStr("high")) == Some(Ladder(VStr("medium")).value + [Escalate])
    ensures Ladder(VStr("critical")) == Some(Ladder(VStr("high")).value + [Emergency])
  {
    assert ActionKinds[..1] == [Log];
    assert ActionKinds[..2] == ActionKinds[..1] + [Alert];
    assert ActionKinds[..3] == ActionKinds[..2] + [Escalate];
    assert ActionKinds == ActionKinds[..3] + [Emergency];
  }

  /** The severity an anomaly is handled at: `anomaly.get("severity", "medium")`. */
  function SeverityOf(anomaly: Dict): Value
  {
    Get(anomaly, "severity", VStr("medium"))
  }

  // ---------------------------------------------------------------------
  // Action entries

  /**
   * What an action takes from outside: the ISO time stamped on entries, the
   * clock text of alert messages, and the LLM insights (None when disabled
   * or failed).
   */
  datatype Env = Env(stamp: string, time: string, insights: Option<Dict>)

  const SensorKeys: set<string> := {"pm2_5", "pm10", "dBA", "vibration"}

  /** The sensor readings a log entry copies from the record. */
  function SensorData(record: Dict): (d: Dict)
    ensures d.Keys == record.Keys * SensorKeys
    ensures forall k :: k in d ==> d[k] == record[k]
  {
    map k | k in record.Keys * SensorKeys :: record[k]
  }

  /** The field an entry adds to the shared ones, by action. */
  datatype Detail =
    | Readings(sensorData: Dict)                       // log: "sensor_data"
    | Message(text: string, llmInsights: Option<Dict>) // alert: "message", and "llm_insights" when present
    | EscalatedTo(level: Value)                        // escalate: "escalation_level"
    | CriticalLevel                                    // emergency: "emergency_level" is "critical"

  /** A history entry: the time stamp, the action that made it, the anomaly, the record's device id, and the action's own field. */
  datatype ActionRecord = ActionRecord(timestamp: string, action: Kind, anomaly: Dict, deviceId: Value, detail: Detail)

  function LogEntry(anomaly: Dict, record: Dict, env: Env): ActionRecord
  {
    ActionRecord(env.stamp, Log, anomaly, Get(record, "device_id", VNone), Readings(SensorData(record)))
  }

  function EscalateEntry(anomaly: Dict, record: Dict, env: Env): ActionRecord
  {
    ActionRecord(env.stamp, Escalate, anomaly, Get(record, "device_id", VNone), EscalatedTo(SeverityOf(anomaly)))
  }

  function EmergencyEntry(anomaly: Dict, record: Dict, env: Env): ActionRecord
  {
    ActionRecord(env.stamp, Emergency, anomaly, Get(record, "device_id", VNone), CriticalLevel)
  }

  function UpperChar(c: char): char
  {
    if 'a' <= c <= 'z' then (c as int - 32) as char else c
  }

  /** `str.upper()` for ASCII letters. */
  function Upper(s: string): (r: string)
    ensures |r| == |s| && forall i :: 0 <= i < |s| ==> r[i] == UpperChar(s[i])
  {
    if s == [] then [] else [UpperChar(s[0])] + Upper(s[1..])
  }

  /** `_format_alert_message` once the severity is known to be a string. */
  function AlertText(anomaly: Dict, record: Dict, severity: string, time: string): string
  {
    "SMART SENSOR ALERT\n\nDevice: " + Show(Get(record, "device_id", VStr("Unknown")))
    + "\nSeverity: " + Upper(severity)
    + "\nType: " + Show(Get(anomaly, "type", VStr("unknown")))
    + "\nReason: " + Show(Get(anomaly, "reason", VStr("Unknown anomaly")))
    + "\n\nCurrent Readings:\n- PM2.5: " + Show(Get(record, "pm2_5", VStr("N/A")))
    + "\n- PM10: " + Show(Get(record, "pm10", VStr("N/A")))
    + "\n- dBA: " + Show(Get(record, "dBA", VStr("N/A")))
    + "\n- Vibration: " + Show(Get(record, "vibration", VStr("N/A")))
    + "\n\nTime: " + time
  }

  /** `_format_alert_message`: None where `severity.upper()` raises because the severity is not a string. */
  function FormatAlert(anomaly: Dict, record: Dict, time: string): (m: Option<string>)
    ensures m.Some? <==> SeverityOf(anomaly).VStr?
  {
    match SeverityOf(anomaly)
    case VStr(s) => Some(AlertText(anomaly, record, s, time))
    case _ => None
  }

  /** `_enhance_message_with_ai`'s appended section. */
  function AiSection(insights: Dict): string
  {
    "\n\nAI ANALYSIS:\n" + Show(Get(insights, "analysis", VStr("Analysis unavailable")))
    + "\n\nRECOMMENDED ACTIONS:\n" + Show(Get(insights, "recommended_actions", VStr("Monitor closely")))
    + "\n\nPOTENTIAL RISKS:\n" + Show(Get(insights, "potential_risks", VStr("Standard monitoring required")))
    + "\n\nCONFIDENCE: " + Show(Get(insights, "confidence_level", VNum(50.0))) + "%\n        "
  }

  /** The insights an alert takes up: only when the LLM is enabled and returned a non-empty answer. */
  predicate UsesInsights(env: Env, llmEnabled: bool)
  {
    llmEnabled && env.insights.Some? && env.insights.value != map[]
  }

  /** What `_send_alert` records and returns; None where formatting the message raises. */
  function AlertEntry(anomaly: Dict, record: Dict, env: Env, llmEnabled: bool): (e: Option<ActionRecord>)
    ensures e.Some? <==> SeverityOf(anomaly).VStr?
    ensures e.Some? ==> e.value.action == Alert && e.value.anomaly == anomaly
  {
    match FormatAlert(anomaly, record, env.time)
    case None => None
    case Some(msg) =>
      var detail := if UsesInsights(env, llmEnabled) then Message(msg + AiSection(env.insights.value), env.insights)
                    else Message(msg, None);
      Some(ActionRecord(env.stamp, Alert, anomaly, Get(record, "device_id", VNone), detail))
  }

  /** What `_execute_action` returns for one action of a ladder; None where the action raised. */
  function ActionEntry(kind: Kind, anomaly: Dict, record: Dict, env: Env, llmEnabled: bool): (r: Option<ActionRecord>)
    ensures r.None? <==> kind == Alert && !SeverityOf(anomaly).VStr?
    ensures r.Some? ==> r.value.action == kind && r.value.anomaly == anomaly
  {
    match kind
    case Log => Some(LogEntry(anomaly, record, env))
    case Alert => AlertEntry(anomaly, record, env, llmEnabled)
    case Escalate => Some(EscalateEntry(anomaly, record, env))
    case Emergency => Some(EmergencyEntry(anomaly, record, env))
  }

  /** An alert is recorded whether or not the LLM answered; the insights only extend the message and are kept beside it. */
  lemma AlertDespiteLlmFailure(anomaly: Dict, record: Dict, env: Env, llmEnabled: bool)
    ensures AlertEntry(anomaly, record, env, llmEnabled).Some? == AlertEntry(anomaly, record, env.(insights := None), false).Some?
    ensures AlertEntry(anomaly, record, env, llmEnabled).Some? ==>
      var e := AlertEntry(anomaly, record, env, llmEnabled).value;
      var plain := AlertEntry(anomaly, record, env.(insights := None), false).value;
      e.(detail := plain.detail) == plain && plain.detail.Message? && e.detail.Message?
      && plain.detail.text <= e.detail.text
      && (e.detail.llmInsights.Some? <==> UsesInsights(env, llmEnabled))
  {
  }

  /** The entries the actions of one ladder return, in order. */
  function LadderEntries(kinds: seq<Kind>, anomaly: Dict, record: Dict, env: Env, llmEnabled: bool): seq<ActionRecord>
  {
    if kinds == [] then []
    else
      var last := ActionEntry(kinds[|kinds| - 1], anomaly, record, env, llmEnabled);
      LadderEntries(kinds[..|kinds| - 1], anomaly, record, env, llmEnabled) + (if last.Some? then [last.value] else [])
  }

  /** One iteration of `handle_anomalies`' outer loop: the anomaly's ladder entries, or None where the lookup raises. */
  function HandledOne(anomaly: Dict, record: Dict, env: Env, llmEnabled: bool): Option<seq<ActionRecord>>
  {
    match Ladder(SeverityOf(anomaly))
    case None => None
    case Some(kinds) => Some(LadderEntries(kinds, anomaly, record, env, llmEnabled))
  }

  /**
   * What `handle_anomalies` appends before it returns or raises, and whether
   * it raised (an unhashable severity).
   */
  function Handled(anomalies: seq<Dict>, record: Dict, env: Env, llmEnabled: bool): (seq<ActionRecord>, bool)
  {
    if anomalies == [] then ([], false)
    else
      var prev := Handled(anomalies[..|anomalies| - 1], record, env, llmEnabled);
      if prev.1 then prev
      else match HandledOne(anomalies[|anomalies| - 1], record, env, llmEnabled)
        case None => (prev.0, true)
        case Some(es) => (prev.0 + es, false)
  }

  /** The loop's next iteration handles one more anomaly. */
  lemma HandledOneMore(anomalies: seq<Dict>, record: Dict, env: Env, llmEnabled: bool, i: nat)
    requires i < |anomalies| && !Handled(anomalies[..i], record, env, llmEnabled).1
    ensures var prev := Handled(anomalies[..i], record, env, llmEnabled).0;
      var one := HandledOne(anomalies[i], record, env, llmEnabled);
      Handled(anomalies[..i + 1], record, env, llmEnabled) == if one.None? then (prev, true) else (prev + one.value, false)
  {
    assert anomalies[..i + 1][..i] == anomalies[..i];
  }

  /** Once an anomaly raises, later anomalies add nothing. */
  lemma {:induction false} HandledStaysRaised(anomalies: seq<Dict>, record: Dict, env: Env, llmEnabled: bool, j: nat)
    requires j <= |anomalies| && Handled(anomalies[..j], record, env, llmEnabled).1
    ensures Handled(anomalies, record, env, llmEnabled) == Handled(anomalies[..j], record, env, llmEnabled)
  {
    if j < |anomalies| {
      var init := anomalies[..|anomalies| - 1];
      assert init[..j] == anomalies[..j];
      HandledStaysRaised(init, record, env, llmEnabled, j);
    } else {
      assert anomalies[..j] == anomalies;
    }
  }

  /**
   * No action of a ladder fails: each action leaves exactly one entry naming
   * it, in ladder order (the alert only runs for the string severities
   * medium, high and critical).
   */
  lemma {:induction false} LadderFullyRecorded(kinds: seq<Kind>, anomaly: Dict, record: Dict, env: Env, llmEnabled: bool)
    requires SeverityOf(anomaly).VStr? || forall i :: 0 <= i < |kinds| ==> kinds[i] != Alert
    ensures var es := LadderEntries(kinds, anomaly, record, env, llmEnabled);
      |es| == |kinds| && forall i :: 0 <= i < |kinds| ==> es[i].action == kinds[i] && es[i].anomaly == anomaly
  {
    if kinds != [] {
      var init := kinds[..|kinds| - 1];
      LadderFullyRecorded(init, anomaly, record, env, llmEnabled);
      var last := ActionEntry(kinds[|kinds| - 1], anomaly, record, env, llmEnabled);
      var es := LadderEntries(kinds, anomaly, record, env, llmEnabled);
      var front := LadderEntries(init, anomaly, record, env, llmEnabled);
      assert es == front + [last.value];
      forall i | 0 <= i < |kinds|
        ensures es[i].action == kinds[i] && es[i].anomaly == anomaly
      {
        if i < |init| {
          assert es[i] == front[i] && init[i] == kinds[i];
        } else {
          assert es[i] == last.value;
        }
      }
    }
  }

  /** Every anomaly with a hashable severity gets one entry per action of its ladder. */
  lemma EveryLadderStepRecorded(anomaly: Dict, record: Dict, env: Env, llmEnabled: bool)
    requires Ladder(SeverityOf(anomaly)).Some?
    ensures var kinds := Ladder(SeverityOf(anomaly)).value;
      var es := LadderEntries(kinds, anomaly, record, env, llmEnabled);
      |es| == |kinds| && forall i :: 0 <= i < |kinds| ==> es[i].action == kinds[i] && es[i].anomaly == anomaly
  {
    var kinds := Ladder(SeverityOf(anomaly)).value;
    assert !SeverityOf(anomaly).VStr? ==> kinds == [Log];
    LadderFullyRecorded(kinds, anomaly, record, env, llmEnabled);
  }

  // ---------------------------------------------------------------------
  // Statistics over the history

  /** `action.get("action", "unknown")`: every entry names its action. */
  function ActionOf(entry: ActionRecord): string
  {
    KindName(entry.action)
  }

  /** The count stored for `k` in a counting dictionary kept as (key, count) pairs in insertion order. */
  function Lookup(counts: seq<(string, nat)>, k: string): nat
  {
    if counts == [] then 0 else if counts[0].0 == k then counts[0].1 else Lookup(counts[1..], k)
  }

  function KeysOf(counts: seq<(string, nat)>): (ks: seq<string>)
    ensures |ks| == |counts| && forall i :: 0 <= i < |counts| ==> ks[i] == counts[i].0
  {
    if counts == [] then [] else [counts[0].0] + KeysOf(counts[1..])
  }

  function Total(counts: seq<(string, nat)>): nat
  {
    if counts == [] then 0 else counts[0].1 + Total(counts[1..])
  }

  /** `counts[k] = counts.get(k, 0) + 1` on the insertion-ordered dictionary. */
  function Bump(counts: seq<(string, nat)>, k: string): (r: seq<(string, nat)>)
    ensures Total(r) == Total(counts) + 1
    ensures forall x :: Lookup(r, x) == Lookup(counts, x) + (if x == k then 1 else 0)
  {
    if counts == [] then [(k, 1)]
    else if counts[0].0 == k then [(k, counts[0].1 + 1)] + counts[1..]
    else [counts[0]] + Bump(counts[1..], k)
  }

  /** Bumping adds the key when it is new and keeps the keys distinct. */
  lemma {:induction false} BumpKeys(counts: seq<(string, nat)>, k: string)
    ensures forall x :: x in KeysOf(Bump(counts, k)) <==> x in KeysOf(counts) || x == k
    ensures Distinct(KeysOf(counts)) ==> Distinct(KeysOf(Bump(counts, k)))
  {
    if counts != [] && counts[0].0 != k {
      var ks := KeysOf(counts);
      assert ks == [counts[0].0] + KeysOf(counts[1..]);
      if Distinct(ks) {
        assert forall j :: 0 < j < |ks| ==> ks[0] != ks[j];
        assert counts[0].0 !in KeysOf(counts[1..]);
        var tail := KeysOf(counts[1..]);
        assert forall i :: 0 <= i < |tail| ==> tail[i] == ks[i + 1];
        assert Distinct(tail);
      }
      BumpKeys(counts[1..], k);
      var rest := Bump(counts[1..], k);
      assert Bump(counts, k) == [counts[0]] + rest;
      assert KeysOf([counts[0]] + rest) == [counts[0].0] + KeysOf(rest);
      assert KeysOf(counts) == [counts[0].0] + KeysOf(counts[1..]);
    } else if counts != [] {
      assert KeysOf(Bump(counts, k)) == [k] + KeysOf(counts[1..]);
      assert KeysOf(counts) == [k] + KeysOf(counts[1..]);
    }
  }

  /** The number of history entries whose action is `k`. */
  function Occurrences(h: seq<ActionRecord>, k: string): nat
  {
    if h == [] then 0 else Occurrences(h[..|h| - 1], k) + (if ActionOf(h[|h| - 1]) == k then 1 else 0)
  }

  /** The `actions_by_type` dictionary the counting loop builds. */
  function Counts(h: seq<ActionRecord>): seq<(string, nat)>
  {
    if h == [] then [] else Bump(Counts(h[..|h| - 1]), ActionOf(h[|h| - 1]))
  }

  /** What `get_stats` returns. */
  datatype Stats = Stats(totalActions: nat, actionsByType: seq<(string, nat)>, recentActions: seq<ActionRecord>)

  function StatsOf(h: seq<ActionRecord>): Stats
  {
    Stats(|h|, Counts(h), LastN(h, 10))
  }

  /** Each action type is counted once, with the number of its entries, and the counts add up to the history's length. */
  lemma {:induction false} CountsExact(h: seq<ActionRecord>)
    ensures Distinct(KeysOf(Counts(h)))
    ensures forall k :: Lookup(Counts(h), k) == Occurrences(h, k)
    ensures forall k :: k in KeysOf(Counts(h)) <==> Occurrences(h, k) > 0
    ensures Total(Counts(h)) == |h|
  {
    if h != [] {
      CountsExact(h[..|h| - 1]);
      BumpKeys(Counts(h[..|h| - 1]), ActionOf(h[|h| - 1]));
    }
  }

  /** `get_stats`: the total, the per-type counts and the ten most recent entries. */
  lemma StatsSummarise(h: seq<ActionRecord>)
    ensures StatsOf(h).totalActions == Total(StatsOf(h).actionsByType)
    ensures |StatsOf(h).recentActions| == if |h| < 10 then |h| else 10
    ensures StatsOf(h).recentActions == h[|h| - |StatsOf(h).recentActions|..]
  {
    CountsExact(h);
  }

  // ---------------------------------------------------------------------
  // The LLM's answer

  /** The insight fields `_parse_llm_response` returns. */
  datatype Insights = Insights(analysis: string, recommendedActions: string, potentialRisks: string, confidenceLevel: nat)

  const DefaultInsights := Insights("AI analysis unavailable", "Monitor closely", "Standard monitoring required", 50)

  /** Where a stripped line goes: the first of the four tests that matches. */
  datatype Bucket = AnalysisLine | ActionLine | RiskLine | ConfidenceLine | OtherLine

  function BucketOf(line: string): Bucket
  {
    var l := Lower(line);
    if Contains(l, "analysis") || Contains(l, "causing") then AnalysisLine
    else if Contains(l, "action") || Contains(l, "recommend") then ActionLine
    else if Contains(l, "risk") || Contains(l, "danger") then RiskLine
    else if Contains(l, "confidence") then ConfidenceLine
    else OtherLine
  }

  /** The leading run of digits. */
  function DigitPrefix(s: string): (r: string)
    ensures AllDigits(r) && r <= s
    ensures |r| < |s| ==> !IsDigit(s[|r|])
  {
    if s != [] && IsDigit(s[0]) then [s[0]] + DigitPrefix(s[1..]) else []
  }

  /** `re.search(r'(\d+)', line)` read with `int()`: the first run of digits; ASCII digits only. */
  function FirstNumber(s: string): (r: Option<nat>)
    ensures r.None? <==> forall i :: 0 <= i < |s| ==> !IsDigit(s[i])
  {
    if s == [] then None
    else if IsDigit(s[0]) then Some(DigitsValue(DigitPrefix(s)))
    else
      assert forall i :: 1 <= i < |s| ==> s[i] == s[1..][i - 1];
      FirstNumber(s[1..])
  }

  /** The number found is the value of the digit run that starts at the first digit `k`. */
  lemma {:induction false} FirstNumberIsFirstRun(s: string, k: nat)
    requires k < |s| && IsDigit(s[k]) && forall i :: 0 <= i < k ==> !IsDigit(s[i])
    ensures FirstNumber(s) == Some(DigitsValue(DigitPrefix(s[k..])))
  {
    if k == 0 {
      assert s[0..] == s;
    } else {
      assert forall i :: 0 <= i < k - 1 ==> s[1..][i] == s[i + 1];
      assert s[1..][k - 1..] == s[k..];
      FirstNumberIsFirstRun(s[1..], k - 1);
    }
  }

  /** The buffers and the confidence after the loop has seen `lines`. */
  datatype Scan = Scan(analysis: string, actions: string, risks: string, confidence: nat)

  /** A confidence line that carries a number. */
  predicate SetsConfidence(line: string)
  {
    BucketOf(line) == ConfidenceLine && FirstNumber(line).Some?
  }

  /** One iteration of the loop on an already stripped line. */
  function Step(b: Scan, line: string): (r: Scan)
    ensures r.confidence == if SetsConfidence(line) then FirstNumber(line).value else b.confidence
  {
    match BucketOf(line)
    case AnalysisLine => b.(analysis := b.analysis + line + " ")
    case ActionLine => b.(actions := b.actions + line + " ")
    case RiskLine => b.(risks := b.risks + line + " ")
    case ConfidenceLine => if FirstNumber(line).Some? then b.(confidence := FirstNumber(line).value) else b
    case OtherLine => b
  }

  function ScanLines(lines: seq<string>): Scan
  {
    if lines == [] then Scan("", "", "", 50)
    else Step(ScanLines(lines[..|lines| - 1]), Strip(lines[|lines| - 1]))
  }

  /** The stripped lines the loop puts into bucket `b`, in order. */
  function BucketLines(lines: seq<string>, b: Bucket): (ls: seq<string>)
    ensures |ls| <= |lines|
  {
    if lines == [] then []
    else
      var line := Strip(lines[|lines| - 1]);
      BucketLines(lines[..|lines| - 1], b) + (if BucketOf(line) == b then [line] else [])
  }

  /** Each line followed by one space, all concatenated. */
  function JoinSpaced(ls: seq<string>): (r: string)
    ensures |r| >= |ls|
  {
    if ls == [] then "" else JoinSpaced(ls[..|ls| - 1]) + ls[|ls| - 1] + " "
  }

  /** The three text buffers hold their buckets' lines, each followed by a space. */
  lemma {:induction false} BuffersAreBuckets(lines: seq<string>)
    ensures ScanLines(lines).analysis == JoinSpaced(BucketLines(lines, AnalysisLine))
    ensures ScanLines(lines).actions == JoinSpaced(BucketLines(lines, ActionLine))
    ensures ScanLines(lines).risks == JoinSpaced(BucketLines(lines, RiskLine))
  {
    if lines != [] {
      var init := lines[..|lines| - 1];
      var line := Strip(lines[|lines| - 1]);
      var prev := ScanLines(init);
      var b := BucketOf(line);
      BuffersAreBuckets(init);
      JoinStep(BucketLines(init, AnalysisLine), line, b == AnalysisLine);
      JoinStep(BucketLines(init, ActionLine), line, b == ActionLine);
      JoinStep(BucketLines(init, RiskLine), line, b == RiskLine);
      assert ScanLines(lines) == Step(prev, line);
      assert Step(prev, line).analysis == if b == AnalysisLine then prev.analysis + line + " " else prev.analysis;
      assert Step(prev, line).actions == if b == ActionLine then prev.actions + line + " " else prev.actions;
      assert Step(prev, line).risks == if b == RiskLine then prev.risks + line + " " else prev.risks;
    }
  }

  /** Appending a line to a bucket, or nothing, extends the joined text by that line and a space, or by nothing. */
  lemma JoinStep(prev: seq<string>, line: string, inBucket: bool)
    ensures inBucket ==> JoinSpaced(prev + [line]) == JoinSpaced(prev) + line + " "
    ensures !inBucket ==> JoinSpaced(prev + []) == JoinSpaced(prev)
  {
    var ls := prev + [line];
    assert ls[..|ls| - 1] == prev;
    assert prev + [] == prev;
  }

  /** `text.strip() or default`. */
  function OrDefault(text: string, default: string): (r: string)
    requires default != []
    ensures r != []
  {
    var t := Strip(text);
    if t == [] then default else t
  }

  /**
   * What `_parse_llm_response` returns: the defaults when the content is not
   * a string (the caught AttributeError), otherwise the stripped buffers
   * (or their defaults) and the confidence.
   */
  function Parsed(content: Option<string>): (r: Insights)
    ensures r.analysis != [] && r.recommendedActions != [] && r.potentialRisks != []
    ensures content.None? ==> r == DefaultInsights
  {
    match content
    case None => DefaultInsights
    case Some(c) =>
      var b := ScanLines(SplitLines(c));
      Insights(OrDefault(b.analysis, DefaultInsights.analysis), OrDefault(b.actions, DefaultInsights.recommendedActions),
               OrDefault(b.risks, DefaultInsights.potentialRisks), b.confidence)
  }

  /**
   * Each section of the answer is its bucket's stripped lines joined by
   * spaces and stripped, or the section's default when that is empty.
   */
  lemma ParsedSections(c: string)
    ensures var lines := SplitLines(c); var r := Parsed(Some(c));
      && r.analysis == OrDefault(JoinSpaced(BucketLines(lines, AnalysisLine)), DefaultInsights.analysis)
      && r.recommendedActions == OrDefault(JoinSpaced(BucketLines(lines, ActionLine)), DefaultInsights.recommendedActions)
      && r.potentialRisks == OrDefault(JoinSpaced(BucketLines(lines, RiskLine)), DefaultInsights.potentialRisks)
      && r.confidenceLevel == ScanLines(lines).confidence
  {
    BuffersAreBuckets(SplitLines(c));
  }

  /** The loop's next iteration is one more step of the scan. */
  lemma ScanOneMore(lines: seq<string>, i: nat)
    requires i < |lines|
    ensures ScanLines(lines[..i + 1]) == Step(ScanLines(lines[..i]), Strip(lines[i]))
    ensures i == |lines| - 1 ==> ScanLines(lines[..i + 1]) == ScanLines(lines)
  {
    assert lines[..i + 1][..i] == lines[..i];
    if i == |lines| - 1 {
      assert lines[..i + 1] == lines;
    }
  }

  /** `_parse_llm_response`: one pass over the lines, appending each to the first bucket it matches. */
  method ParseLlmResponse(content: Option<string>) returns (r: Insights)
    ensures r == Parsed(content)
  {
    if content.None? {
      return DefaultInsights;
    }
    var lines := SplitLines(content.value);
    var analysis, actions, risks, confidence := "", "", "", 50;
    for i := 0 to |lines|
      invariant ScanLines(lines[..i]) == Scan(analysis, actions, risks, confidence)
    {
      ScanOneMore(lines, i);
      var line := Strip(lines[i]);
      match BucketOf(line) {
        case AnalysisLine => analysis := analysis + line + " ";
        case ActionLine => actions := actions + line + " ";
        case RiskLine => risks := risks + line + " ";
        case ConfidenceLine =>
          var n := FirstNumber(line);
          if n.Some? {
            confidence := n.value;
          }
        case OtherLine =>
      }
    }
    ScanOneMore(lines, |lines| - 1);
    r := Insights(OrDefault(analysis, DefaultInsights.analysis), OrDefault(actions, DefaultInsights.recommendedActions),
                  OrDefault(risks, DefaultInsights.potentialRisks), confidence);
  }

  /** The last confidence line with a number decides the confidence. */
  lemma {:induction false} LastConfidenceWins(lines: seq<string>, i: nat)
    requires i < |lines| && SetsConfidence(Strip(lines[i]))
    requires forall j :: i < j < |lines| ==> !SetsConfidence(Strip(lines[j]))
    ensures ScanLines(lines).confidence == FirstNumber(Strip(lines[i])).value
  {
    var init := lines[..|lines| - 1];
    if i < |lines| - 1 {
      assert forall j :: i < j < |init| ==> init[j] == lines[j];
      LastConfidenceWins(init, i);
    }
  }

  /** Without a confidence line that carries a number, the confidence stays 50. */
  lemma {:induction false} ConfidenceDefault(lines: seq<string>)
    requires forall j :: 0 <= j < |lines| ==> !SetsConfidence(Strip(lines[j]))
    ensures ScanLines(lines).confidence == 50
  {
    if lines != [] {
      var init := lines[..|lines| - 1];
      assert forall j :: 0 <= j < |init| ==> init[j] == lines[j];
      ConfidenceDefault(init);
    }
  }

  // ---------------------------------------------------------------------
  // The handler

  class ActionHandler {
    /** `action_history`: every entry an action has recorded, oldest first. */
    var history: seq<ActionRecord>
    /** `config["llm_enabled"]` once the client has been set up. */
    const llmEnabled: bool

    constructor(llmEnabled: bool)
      ensures history == [] && this.llmEnabled == llmEnabled
    {
      history := [];
      this.llmEnabled := llmEnabled;
    }

    /** `_log_anomaly`; writing the log file is left out. */
    method LogAnomaly(anomaly: Dict, record: Dict, env: Env) returns (entry: ActionRecord)
      modifies this`history
      ensures entry == LogEntry(anomaly, record, env)
      ensures history == old(history) + [entry]
    {
      entry := ActionRecord(env.stamp, Log, anomaly, Get(record, "device_id", VNone), Readings(SensorData(record)));
      history := history + [entry];
    }

    /** `_send_alert`: the webhook and e-mail are left out; their failures are caught and change nothing. */
    method SendAlert(anomaly: Dict, record: Dict, env: Env) returns (entry: Option<ActionRecord>)
      modifies this`history
      ensures entry == AlertEntry(anomaly, record, env, llmEnabled)
      ensures history == old(history) + (if entry.Some? then [entry.value] else [])
    {
      var message := FormatAlert(anomaly, record, env.time);
      if message.None? {
        return None;
      }
      var detail := Message(message.value, None);
      if llmEnabled && env.insights.Some? && env.insights.value != map[] {
        detail := Message(message.value + AiSection(env.insights.value), env.insights);
      }
      var e := ActionRecord(env.stamp, Alert, anomaly, Get(record, "device_id", VNone), detail);
      history := history + [e];
      return Some(e);
    }

    method EscalateAnomaly(anomaly: Dict, record: Dict, env: Env) returns (entry: ActionRecord)
      modifies this`history
      ensures entry == EscalateEntry(anomaly, record, env)
      ensures history == old(history) + [entry]
    {
      entry := ActionRecord(env.stamp, Escalate, anomaly, Get(record, "device_id", VNone), EscalatedTo(SeverityOf(anomaly)));
      history := history + [entry];
    }

    method EmergencyAction(anomaly: Dict, record: Dict, env: Env) returns (entry: ActionRecord)
      modifies this`history
      ensures entry == EmergencyEntry(anomaly, record, env)
      ensures history == old(history) + [entry]
    {
      entry := ActionRecord(env.stamp, Emergency, anomaly, Get(record, "device_id", VNone), CriticalLevel);
      history := history + [entry];
    }

    /** `_execute_action`: a raised exception yields None and records nothing. */
    method ExecuteAction(kind: Kind, anomaly: Dict, record: Dict, env: Env) returns (r: Option<ActionRecord>)
      modifies this`history
      ensures r == ActionEntry(kind, anomaly, record, env, llmEnabled)
      ensures history == old(history) + (if r.Some? then [r.value] else [])
    {
      match kind {
        case Log =>
          var e := LogAnomaly(anomaly, record, env);
          r := Some(e);
        case Alert =>
          r := SendAlert(anomaly, record, env);
        case Escalate =>
          var e := EscalateAnomaly(anomaly, record, env);
          r := Some(e);
        case Emergency =>
          var e := EmergencyAction(anomaly, record, env);
          r := Some(e);
      }
    }

    /** One iteration of `handle_anomalies`' outer loop. */
    method HandleOne(anomaly: Dict, record: Dict, env: Env) returns (entries: Option<seq<ActionRecord>>)
      modifies this`history
      ensures entries == HandledOne(anomaly, record, env, llmEnabled)
      ensures history == old(history) + (if entries.Some? then entries.value else [])
    {
      var ladder := Ladder(SeverityOf(anomaly));
      if ladder.None? {
        return None;
      }
      var taken := RunLadder(ladder.value, anomaly, record, env);
      return Some(taken);
    }

    /** The inner loop of `handle_anomalies`: one anomaly's ladder, action by action. */
    method RunLadder(kinds: seq<Kind>, anomaly: Dict, record: Dict, env: Env) returns (taken: seq<ActionRecord>)
      modifies this`history
      ensures taken == LadderEntries(kinds, anomaly, record, env, llmEnabled)
      ensures history == old(history) + taken
    {
      taken := [];
      for j := 0 to |kinds|
        invariant taken == LadderEntries(kinds[..j], anomaly, record, env, llmEnabled)
        invariant history == old(history) + taken
      {
        assert kinds[..j + 1][..j] == kinds[..j];
        var result := ExecuteAction(kinds[j], anomaly, record, env);
        if result.Some? {
          taken := taken + [result.value];
        }
      }
      assert kinds[..|kinds|] == kinds;
    }

    /**
     * `handle_anomalies`: each anomaly's ladder in order; the returned list
     * and the history's new tail are the same entries. An unhashable severity
     * raises out of the loop, after the earlier entries were recorded.
     */
    method HandleAnomalies(anomalies: seq<Dict>, record: Dict, env: Env) returns (r: Result<seq<ActionRecord>>)
      modifies this`history
      ensures history == old(history) + Handled(anomalies, record, env, llmEnabled).0
      ensures r.Ok? <==> !Handled(anomalies, record, env, llmEnabled).1
      ensures r.Ok? ==> r.value == Handled(anomalies, record, env, llmEnabled).0
    {
      var taken: seq<ActionRecord> := [];
      for i := 0 to |anomalies|
        invariant Handled(anomalies[..i], record, env, llmEnabled) == (taken, false)
        invariant history == old(history) + taken
      {
        HandledOneMore(anomalies, record, env, llmEnabled, i);
        var entries := HandleOne(anomalies[i], record, env);
        if entries.None? {
          HandledStaysRaised(anomalies, record, env, llmEnabled, i + 1);
          return Err("TypeError");
        }
        AppendAssociates(old(history), taken, entries.value);
        taken := taken + entries.value;
      }
      assert anomalies[..|anomalies|] == anomalies;
      return Ok(taken);
    }

    /** `get_action_history`: a copy, which later actions do not change. */
    method GetActionHistory() returns (h: seq<ActionRecord>)
      ensures h == history
    {
      h := history;
    }

    /** `get_stats`: the counting loop over the history. */
    method GetStats() returns (s: Stats)
      ensures s == StatsOf(history)
    {
      var byType: seq<(string, nat)> := [];
      for i := 0 to |history|
        invariant byType == Counts(history[..i])
      {
        assert history[..i + 1][..i] == history[..i];
        byType := Bump(byType, ActionOf(history[i]));
      }
      assert history[..|history|] == history;
      var recent := if |history| > 10 then history[|history| - 10..] else history;
      s := Stats(|history|, byType, recent);
    }
  }
}

=== FILE: base.dfy ===
/**
 * The behaviour every detector inherits: input validation, extraction of
 * the time series from readings, and the registry-guarded model
 * persistence and information calls.
 */
module BaseDetector {
  import opened Common
  import opened MlTypes

  /** A timestamp is an ISO-8601 string the library parses, or a datetime. */
  predicate TimestampOk(lib: Library, t: Value)
  {
    match t
    case VStr(s) => lib.isoTimestamp(s)
    case VTime(_) => true
    case _ => false
  }

  /** A reading is a dictionary with a valid timestamp and a value `float()` accepts. */
  predicate WellFormedReading(lib: Library, r: Value)
  {
    r.VDict? && "timestamp" in r.entries && "value" in r.entries
    && TimestampOk(lib, r.entries["timestamp"])
    && FloatOf(r.entries["value"]).Some?
  }

  /** The reading-by-reading scan of `validate_input`, stopping at the first bad reading. */
  function AllWellFormed(lib: Library, readings: seq<Value>): (ok: bool)
    ensures ok <==> forall i :: 0 <= i < |readings| ==> WellFormedReading(lib, readings[i])
  {
    if readings == [] then true
    else if !WellFormedReading(lib, readings[0]) then false
    else
      var rest := AllWellFormed(lib, readings[1..]);
      assert forall i :: 1 <= i < |readings| ==> readings[1..][i - 1] == readings[i];
      rest
  }

  /** `validate_input`: false for an empty list or any malformed reading. */
  function ValidateInput(lib: Library, readings: seq<Value>): (ok: bool)
    ensures ok <==> |readings| > 0 && forall i :: 0 <= i < |readings| ==> WellFormedReading(lib, readings[i])
  {
    |readings| > 0 && AllWellFormed(lib, readings)
  }

  datatype TimeSeries = TimeSeries(timestamps: seq<Value>, values: seq<real>)

  /** The value of a reading, as `float(reading['value'])`. */
  function ValueOf(r: Value): Option<real>
  {
    if r.VDict? && "value" in r.entries then FloatOf(r.entries["value"]) else None
  }

  /**
   * `extract_time_series`: timestamps and values in input order; None when
   * a reading lacks a key, has an unparsable timestamp or value (the call raises).
   */
  function ExtractTimeSeries(lib: Library, readings: seq<Value>): (r: Option<TimeSeries>)
    ensures r.Some? ==> |r.value.timestamps| == |r.value.values| == |readings|
    ensures r.Some? ==> forall i :: 0 <= i < |readings| ==> ValueOf(readings[i]) == Some(r.value.values[i])
  {
    if readings == [] then Some(TimeSeries([], []))
    else
      var r := readings[0];
      if !(r.VDict? && "timestamp" in r.entries) then None
      else
        var t := r.entries["timestamp"];
        if t.VStr? && !lib.isoTimestamp(t.s) then None
        else match (ValueOf(r), ExtractTimeSeries(lib, readings[1..]))
          case (Some(v), Some(rest)) =>
            assert forall i :: 1 <= i < |readings| ==> readings[1..][i - 1] == readings[i];
            Some(TimeSeries([t] + rest.timestamps, [v] + rest.values))
          case _ => None
  }

  /** Readings that pass validation always yield a time series of the same length. */
  lemma {:induction false} ValidInputExtracts(lib: Library, readings: seq<Value>)
    requires forall i :: 0 <= i < |readings| ==> WellFormedReading(lib, readings[i])
    ensures ExtractTimeSeries(lib, readings).Some?
  {
    if readings != [] {
      assert WellFormedReading(lib, readings[0]);
      assert forall i :: 0 <= i < |readings| - 1 ==> readings[1..][i] == readings[i + 1];
      ValidInputExtracts(lib, readings[1..]);
    }
  }

  /** The values of a validated list of readings. */
  function ValuesOf(lib: Library, readings: seq<Value>): (vs: seq<real>)
    requires ValidateInput(lib, readings)
    ensures |vs| == |readings| > 0
    ensures forall i :: 0 <= i < |readings| ==> ValueOf(readings[i]) == Some(vs[i])
  {
    ValidInputExtracts(lib, readings);
    ExtractTimeSeries(lib, readings).value.values
  }

  /** The timestamps of a validated list of readings. */
  function TimestampsOf(lib: Library, readings: seq<Value>): (ts: seq<Value>)
    requires ValidateInput(lib, readings)
    ensures |ts| == |readings|
  {
    ValidInputExtracts(lib, readings);
    ExtractTimeSeries(lib, readings).value.timestamps
  }

  /** What `get_model_info` returns; `config` is the detector's configuration dictionary. */
  datatype ModelInfo = ModelInfo(sensorId: string, detectorName: string, isTrained: bool, config: Dict)

  /** `get_model_info`: None for an unregistered sensor, otherwise a trained-model record carrying the configuration. */
  function GetModelInfo(registered: set<string>, detectorName: string, config: Dict, sensorId: string): (r: Option<ModelInfo>)
    ensures r.None? <==> sensorId !in registered
    ensures r.Some? ==> r.value.sensorId == sensorId && r.value.detectorName == detectorName && r.value.isTrained
    ensures r.Some? ==> r.value.config == config
  {
    if sensorId !in registered then None else Some(ModelInfo(sensorId, detectorName, true, config))
  }
}

=== FILE: common.dfy ===
/**
 * Values and helpers shared by the ML service and the consumer: optional
 * results, the dynamic Python values that readings and messages are made
 * of, Python's `float()` conversion, the string operations the code uses,
 * and exact real statistics.
 */
module Common {

  datatype Option<+T> = None | Some(value: T)

  datatype Result<+T> = Ok(value: T) | Err(error: string)

  /** A Python value as it occurs in decoded JSON, database rows and reading dictionaries. */
  datatype Value =
    | VNone
    | VBool(b: bool)
    | VNum(x: real)
    | VStr(s: string)
    | VTime(t: int)                    // a datetime object
    | VList(items: seq<Value>)
    | VDict(entries: map<string, Value>)

  /** A Python dictionary with string keys, as decoded from JSON. */
  type Dict = map<string, Value>

  /** Python's `d.get(k, default)`. */
  function Get(d: Dict, k: string, default: Value): (v: Value)
    ensures k in d ==> v == d[k]
    ensures k !in d ==> v == default
  {
    if k in d then d[k] else default
  }

  /** `str()` of a value inside a message text: strings, None and booleans; other renderings are left out. */
  function Show(v: Value): string
  {
    match v
    case VStr(s) => s
    case VNone => "None"
    case VBool(b) => if b then "True" else "False"
    case _ => "<value>"
  }

  // ---------------------------------------------------------------------
  // Python's float() on a value

  predicate IsDigit(c: char) { '0' <= c <= '9' }

  predicate AllDigits(s: string) { forall i :: 0 <= i < |s| ==> IsDigit(s[i]) }

  function Pow10(n: nat): (r: nat)
    ensures r >= 1
  {
    if n == 0 then 1 else 10 * Pow10(n - 1)
  }

  /** The number a run of decimal digits denotes. */
  function DigitsValue(s: string): (r: nat)
    requires AllDigits(s)
    ensures r < Pow10(|s|)
  {
    if s == [] then 0
    else DigitsValue(s[..|s| - 1]) * 10 + (s[|s| - 1] as int - '0' as int)
  }

  /** Index of the first occurrence of `c` in `s`, or |s| when there is none. */
  function IndexOf(s: string, c: char): (i: nat)
    ensures i <= |s|
    ensures i < |s| ==> s[i] == c
    ensures forall j :: 0 <= j < i ==> s[j] != c
  {
    if s == [] then 0
    else if s[0] == c then 0
    else 1 + IndexOf(s[1..], c)
  }

  predicate IsSpace(c: char) {
    c == ' ' || c == '\t' || c == '\n' || c == '\r' || c == '\U{B}' || c == '\U{C}'
  }

  function StripLeft(s: string): (r: string)
    ensures |r| <= |s| && r == s[|s| - |r|..]
    ensures r == [] || !IsSpace(r[0])
  {
    if s != [] && IsSpace(s[0]) then StripLeft(s[1..]) else s
  }

  /** What `StripLeft` drops is whitespace. */
  lemma {:induction false} StripLeftDropsSpaces(s: string)
    ensures forall k :: 0 <= k < |s| - |StripLeft(s)| ==> IsSpace(s[k])
  {
    if s != [] && IsSpace(s[0]) {
      StripLeftDropsSpaces(s[1..]);
      assert forall k :: 1 <= k < |s| - |StripLeft(s)| ==> s[k] == s[1..][k - 1];
    }
  }

  function StripRight(s: string): (r: string)
    ensures |r| <= |s| && r == s[..|r|]
    ensures r == [] || !IsSpace(r[|r| - 1])
  {
    if s != [] && IsSpace(s[|s| - 1]) then StripRight(s[..|s| - 1]) else s
  }

  /** What `StripRight` drops is whitespace. */
  lemma {:induction false} StripRightDropsSpaces(s: string)
    ensures forall k :: |StripRight(s)| <= k < |s| ==> IsSpace(s[k])
  {
    if s != [] && IsSpace(s[|s| - 1]) {
      StripRightDropsSpaces(s[..|s| - 1]);
    }
  }

  /** Python's `str.strip()` for the six ASCII whitespace characters of `IsSpace`. */
  function Strip(s: string): (r: string)
    ensures r == [] || (!IsSpace(r[0]) && !IsSpace(r[|r| - 1]))
  {
    StripRight(StripLeft(s))
  }

  /** The number of leading characters `str.strip()` removes. */
  function StripOffset(s: string): (i: nat)
    ensures i <= |s|
  {
    |s| - |StripLeft(s)|
  }

  /**
   * `str.strip()` removes whitespace only, and only at the two ends: the
   * result is the slice of the input that starts at `StripOffset`, and
   * everything before and after that slice is whitespace.
   */
  lemma StripIsSlice(s: string)
    ensures StripOffset(s) + |Strip(s)| <= |s|
    ensures Strip(s) == s[StripOffset(s)..StripOffset(s) + |Strip(s)|]
    ensures forall k :: 0 <= k < StripOffset(s) ==> IsSpace(s[k])
    ensures forall k :: StripOffset(s) + |Strip(s)| <= k < |s| ==> IsSpace(s[k])
  {
    StripSlice(s);
    StripDropsSpaces(s);
  }

  lemma StripSlice(s: string)
    ensures StripOffset(s) + |Strip(s)| <= |s|
    ensures Strip(s) == s[StripOffset(s)..StripOffset(s) + |Strip(s)|]
  {
    var l := StripLeft(s);
    var i := |s| - |l|;
    var r := StripRight(l);
    assert l == s[i..] && r == l[..|r|];
    assert r == s[i..i + |r|];
  }

  lemma StripDropsSpaces(s: string)
    ensures forall k :: 0 <= k < StripOffset(s) ==> IsSpace(s[k])
    ensures forall k :: StripOffset(s) + |Strip(s)| <= k < |s| ==> IsSpace(s[k])
  {
    var l := StripLeft(s);
    var i := |s| - |l|;
    var r := StripRight(l);
    assert forall k :: 0 <= k < i ==> IsSpace(s[k]) by {
      StripLeftDropsSpaces(s);
    }
    forall k | i + |r| <= k < |s| ensures IsSpace(s[k]) {
      assert s[k] == l[k - i];
      StripRightDropsSpaces(l);
    }
  }


  /** An unsigned decimal literal: digits, optionally with one '.', at least one digit. */
  function ParseUnsigned(s: string): (r: Option<real>)
    ensures r.Some? ==> r.value >= 0.0
  {
    var k := IndexOf(s, '.');
    var whole := s[..k];
    var frac := if k < |s| then s[k + 1..] else [];
    if |whole| + |frac| == 0 || !AllDigits(whole) || !AllDigits(frac) then None
    else Some(DigitsValue(whole) as real + FractionValue(frac))
  }

  /** The value of the digits after a decimal point: in [0, 1). */
  function FractionValue(s: string): (r: real)
    requires AllDigits(s)
    ensures 0.0 <= r < 1.0
  {
    var n := DigitsValue(s) as real;
    var scale := Pow10(|s|) as real;
    QuotientBounds(n, scale);
    n / scale
  }

  lemma QuotientBounds(n: real, d: real)
    requires 0.0 <= n < d
    ensures 0.0 <= n / d < 1.0
  {
  }

  /** Python's `float(text)` for plain decimal literals with an optional sign. */
  function ParseDecimal(text: string): (r: Option<real>)
  {
    var s := Strip(text);
    if s != [] && s[0] == '-' then
      match ParseUnsigned(s[1..])
      case Some(x) => Some(-x)
      case None => None
    else if s != [] && s[0] == '+' then ParseUnsigned(s[1..])
    else ParseUnsigned(s)
  }

  /** Python's `float(v)`: None when it raises (TypeError or ValueError). */
  function FloatOf(v: Value): (r: Option<real>)
    ensures v.VNum? ==> r == Some(v.x)
    ensures (v.VNone? || v.VTime? || v.VList? || v.VDict?) ==> r.None?
  {
    match v
    case VBool(b) => Some(if b then 1.0 else 0.0)
    case VNum(x) => Some(x)
    case VStr(s) => ParseDecimal(s)
    case _ => None
  }

  // ---------------------------------------------------------------------
  // Strings

  function LowerChar(c: char): char {
    if 'A' <= c <= 'Z' then (c as int - 'A' as int + 'a' as int) as char else c
  }

  /** Python's `str.lower()` on ASCII letters. */
  function Lower(s: string): (r: string)
    ensures |r| == |s|
    ensures forall i :: 0 <= i < |s| ==> r[i] == LowerChar(s[i])
  {
    if s == [] then [] else Lower(s[..|s| - 1]) + [LowerChar(s[|s| - 1])]
  }

  /** Python's `sub in s`. */
  predicate Contains(s: string, sub: string)
  {
    sub <= s || (s != [] && Contains(s[1..], sub))
  }

  /** Python's `s.split('\n')`. */
  function SplitLines(s: string): (r: seq<string>)
    ensures |r| >= 1
    decreases |s|
  {
    var k := IndexOf(s, '\n');
    if k == |s| then [s] else [s[..k]] + SplitLines(s[k + 1..])
  }

  // ---------------------------------------------------------------------
  // Sequences

  /** The last `n` elements of `s` (all of `s` when it is shorter). */
  function LastN<T>(s: seq<T>, n: nat): (r: seq<T>)
    ensures |r| == if |s| <= n then |s| else n
    ensures r == s[|s| - |r|..]
  {
    if |s| <= n then s else s[|s| - n..]
  }

  /** Python's `s[-limit:]`, including `limit == 0` (the whole list) and negative limits. */
  function PyTail<T>(s: seq<T>, limit: int): (r: seq<T>)
    ensures 0 < limit ==> r == LastN(s, limit)
    ensures limit == 0 ==> r == s
    ensures limit < 0 ==> r == s[if -limit <= |s| then -limit else |s|..]
  {
    if limit > 0 then (if limit <= |s| then s[|s| - limit..] else s)
    else if -limit <= |s| then s[-limit..]
    else []
  }

  /** `collections.deque(maxlen=cap).append(x)`: the oldest entry falls out once full. */
  function DequeAppend<T>(q: seq<T>, x: T, cap: nat): (r: seq<T>)
    requires cap > 0 && |q| <= cap
    ensures r == LastN(q + [x], cap)
    ensures |r| <= cap && r[|r| - 1] == x
  {
    if |q| == cap then q[1..] + [x] else q + [x]
  }

  function Repeat<T>(x: T, n: nat): (r: seq<T>)
    ensures |r| == n && forall i :: 0 <= i < n ==> r[i] == x
  {
    seq(n, _ => x)
  }

  predicate Distinct<T(==)>(s: seq<T>)
  {
    forall i, j :: 0 <= i < j < |s| ==> s[i] != s[j]
  }

  /** The key order of a Python dict after `d[x] = v`: a new key goes last, an existing one keeps its place. */
  function WithKey<T(==,!new)>(s: seq<T>, x: T): (r: seq<T>)
    ensures Distinct(s) ==> Distinct(r)
    ensures forall y :: y in r <==> y in s || y == x
    ensures x in s ==> r == s
    ensures x !in s ==> r == s + [x]
  {
    if x in s then s
    else
      var r := s + [x];
      assert forall i :: 0 <= i < |s| ==> r[i] == s[i] && r[i] in s;
      r
  }

  /** The key order of a Python dict after `del d[x]`: `x` is dropped, the rest keep their order. */
  function Without<T(==,!new)>(s: seq<T>, x: T): (r: seq<T>)
    ensures forall y :: y in r <==> y in s && y != x
    ensures Distinct(s) ==> Distinct(r)
    ensures x !in s ==> r == s
  {
    if s == [] then []
    else if s[0] == x then Without(s[1..], x)
    else
      var rest := Without(s[1..], x);
      assert Distinct(s) ==> Distinct(s[1..]) && s[0] !in s[1..] by {
        if Distinct(s) {
          forall i, j | 0 <= i < j < |s| - 1 ensures s[1..][i] != s[1..][j] { assert s[i + 1] != s[j + 1]; }
        }
      }
      var r := [s[0]] + rest;
      assert forall i :: 0 < i < |r| ==> r[i] == rest[i - 1];
      r
  }

  // ---------------------------------------------------------------------
  // Exact real statistics

  function Abs(x: real): (r: real)
    ensures r >= 0.0 && (r == x || r == -x)
  {
    if x < 0.0 then -x else x
  }

  /** Python's `min(a, b)`: `a` unless `b` is strictly smaller. */
  function Min(a: real, b: real): (r: real)
    ensures r <= a && r <= b && (r == a || r == b)
  {
    if b < a then b else a
  }

  /** Python's `max(a, b)`: `a` unless `b` is strictly larger. */
  function Max(a: real, b: real): (r: real)
    ensures r >= a && r >= b && (r == a || r == b)
  {
    if b > a then b else a
  }

  function Sum(s: seq<real>): real
  {
    if s == [] then 0.0 else Sum(s[..|s| - 1]) + s[|s| - 1]
  }

  /** `numpy.mean` of a non-empty sequence. */
  function Mean(s: seq<real>): real
    requires |s| > 0
  {
    Sum(s) / |s| as real
  }

  function SumSquaredDeviation(s: seq<real>, m: real): (r: real)
    ensures r >= 0.0
  {
    if s == [] then 0.0
    else
      var d := s[|s| - 1] - m;
      assert d * d >= 0.0 by { if d < 0.0 { assert d * d == (-d) * (-d); } }
      SumSquaredDeviation(s[..|s| - 1], m) + d * d
  }

  /** `numpy.var` (population variance) of a non-empty sequence. */
  function Variance(s: seq<real>): (r: real)
    requires |s| > 0
    ensures r >= 0.0
  {
    SumSquaredDeviation(s, Mean(s)) / |s| as real
  }

  function MinOf(s: seq<real>): (r: real)
    requires |s| > 0
    ensures forall i :: 0 <= i < |s| ==> r <= s[i]
    ensures exists i :: 0 <= i < |s| && r == s[i]
  {
    if |s| == 1 then s[0]
    else
      var m := MinOf(s[..|s| - 1]);
      assert forall i :: 0 <= i < |s| - 1 ==> s[..|s| - 1][i] == s[i];
      if s[|s| - 1] < m then s[|s| - 1] else m
  }

  function MaxOf(s: seq<real>): (r: real)
    requires |s| > 0
    ensures forall i :: 0 <= i < |s| ==> s[i] <= r
    ensures exists i :: 0 <= i < |s| && r == s[i]
  {
    if |s| == 1 then s[0]
    else
      var m := MaxOf(s[..|s| - 1]);
      assert forall i :: 0 <= i < |s| - 1 ==> s[..|s| - 1][i] == s[i];
      if s[|s| - 1] > m then s[|s| - 1] else m
  }

  // ---------------------------------------------------------------------
  // Lemmas

  /** A decimal literal parses to its value: `float("12.5")` is 12.5. */
  lemma ParseDecimalExample()
    ensures ParseDecimal("12.5") == Some(12.5)
  {
    var t := "12.5";
    assert !IsSpace(t[0]) && !IsSpace(t[3]);
    assert StripLeft(t) == t;
    assert StripRight(t) == t;
    assert IndexOf(t, '.') == 2 by {
      assert t[0] != '.' && t[1] != '.' && t[2] == '.';
      assert IndexOf(t[2..], '.') == 0;
      assert IndexOf(t[1..], '.') == 1;
    }
    assert t[..2] == "12" && t[3..] == "5";
    assert DigitsValue("12") == 12 by { assert "12"[..1] == "1"; }
    assert DigitsValue("5") == 5;
  }

  /** Every element at least `lo` puts the sum at least `|s| * lo`; at most `hi`, at most `|s| * hi`. */
  lemma {:induction false} SumBounds(s: seq<real>, lo: real, hi: real)
    requires forall i :: 0 <= i < |s| ==> lo <= s[i] <= hi
    ensures |s| as real * lo <= Sum(s) <= |s| as real * hi
  {
    if s != [] {
      var p := s[..|s| - 1];
      assert forall i :: 0 <= i < |p| ==> p[i] == s[i];
      SumBounds(p, lo, hi);
      var m := |p| as real;
      assert |s| as real * lo == m * lo + lo;
      assert |s| as real * hi == m * hi + hi;
    }
  }

  lemma ScaleBounds(n: real, lo: real, x: real, hi: real)
    requires n > 0.0 && n * lo <= x <= n * hi
    ensures lo <= x / n <= hi
  {
    var q := x / n;
    assert q * n == x;
    assert (q - lo) * n >= 0.0;
    assert (hi - q) * n >= 0.0;
  }

  /** Bounds on every element bound the mean. */
  lemma MeanBounds(s: seq<real>, lo: real, hi: real)
    requires |s| > 0
    requires forall i :: 0 <= i < |s| ==> lo <= s[i] <= hi
    ensures lo <= Mean(s) <= hi
  {
    SumBounds(s, lo, hi);
    ScaleBounds(|s| as real, lo, Sum(s), hi);
  }

  /** The mean of a non-empty sequence lies between its minimum and its maximum. */
  lemma MeanBetweenMinAndMax(s: seq<real>)
    requires |s| > 0
    ensures MinOf(s) <= Mean(s) <= MaxOf(s)
  {
    MeanBounds(s, MinOf(s), MaxOf(s));
  }

  /** Appending to a bounded deque keeps the newest `cap` entries in arrival order. */
  lemma {:induction false} DequeAppendKeepsNewest<T>(q: seq<T>, xs: seq<T>, cap: nat)
    requires cap > 0 && |q| <= cap
    ensures AppendAll(q, xs, cap) == LastN(q + xs, cap)
    decreases |xs|
  {
    if xs == [] {
      assert q + xs == q;
    } else {
      var q' := DequeAppend(q, xs[0], cap);
      DequeAppendKeepsNewest(q', xs[1..], cap);
      LastNOfAppend(q + [xs[0]], xs[1..], cap);
      calc {
        AppendAll(q, xs, cap);
        AppendAll(q', xs[1..], cap);
        LastN(q' + xs[1..], cap);
        LastN(LastN(q + [xs[0]], cap) + xs[1..], cap);
        LastN((q + [xs[0]]) + xs[1..], cap);
        { MoveHead(q, xs); }
        LastN(q + xs, cap);
      }
    }
  }

  lemma MoveHead<T>(q: seq<T>, xs: seq<T>)
    requires xs != []
    ensures (q + [xs[0]]) + xs[1..] == q + xs
  {
    var l, r := (q + [xs[0]]) + xs[1..], q + xs;
    assert |l| == |r|;
    forall i | 0 <= i < |l| ensures l[i] == r[i] {
      if i < |q| + 1 {
        assert l[i] == (q + [xs[0]])[i];
      } else {
        assert l[i] == xs[1..][i - |q| - 1];
      }
    }
  }

  function AppendAll<T>(q: seq<T>, xs: seq<T>, cap: nat): (r: seq<T>)
    requires cap > 0 && |q| <= cap
    ensures |r| <= cap
    decreases |xs|
  {
    if xs == [] then q else AppendAll(DequeAppend(q, xs[0], cap), xs[1..], cap)
  }

  lemma LastNOfAppend<T>(s: seq<T>, t: seq<T>, n: nat)
    ensures LastN(LastN(s, n) + t, n) == LastN(s + t, n)
  {
    var u := LastN(s, n);
    if |s| > n {
      assert s + t == s[..|s| - n] + (u + t);
      assert (s + t)[|s + t| - |LastN(s + t, n)|..] == (u + t)[|u + t| - |LastN(s + t, n)|..];
    }
  }

  /** Sequence concatenation associates; a step that the solver finds costly inside loop proofs. */
  lemma AppendAssociates<T>(a: seq<T>, b: seq<T>, c: seq<T>)
    ensures (a + b) + c == a + (b + c)
  {
  }
}

=== FILE: consumer.dfy ===
/**
 * The consumer's `SmartSensorConsumer.callback`: one queue delivery is parsed,
 * counted, cleaned, remembered, run through detection and, when anomalies
 * were found, through the action handler; it ends in exactly one ack or
 * nack. The database is abstract: the sensor-data row's id comes in as an
 * input and the anomaly rows the callback stores are kept in a sequence.
 */
module Consumer {
  import opened Common
  import Preprocess
  import ConsumerDetect
  import Actions

  /** How a delivery is settled with the broker. */
  datatype Delivery = Ack | Nack(requeue: bool)

  /**
   * What `json.loads` makes of a message body: bytes that do not decode in
   * the detected Unicode encoding (UnicodeDecodeError), text that is not
   * JSON (JSONDecodeError), or a decoded value.
   */
  datatype Body = Undecodable | InvalidJson | Json(value: Value)

  /**
   * What a delivery takes from outside besides its body: the clock texts
   * for `processed_at` and for `detected_at` (two separate readings of the
   * clock), the id the database returned for the sensor row, the ML
   * client's state and answer, what the LLM reasoner answers when the
   * consumer has one (None when it raised), and what the action handler's
   * actions take from outside.
   */
  datatype Inputs = Inputs(stamp: string, detectedStamp: string, sensorDataId: Value, mlAvailable: bool,
                           mlResponse: Option<Dict>, llmDecision: Value, actionEnv: Actions.Env)

  /** Python truthiness. */
  predicate IsTruthy(v: Value)
  {
    match v
    case VNone => false
    case VBool(b) => b
    case VNum(x) => x != 0.0
    case VStr(s) => s != []
    case VTime(_) => true
    case VList(items) => items != []
    case VDict(m) => m != map[]
  }

  /** The cleaned record of a decoded body; a body that is not a dictionary raises before preprocessing. */
  function Cleaned(body: Value): Option<Dict>
  {
    if body.VDict? then Preprocess.Normalized(body) else None
  }

  /** The `processed_record` kept in `recent_sensor_data`. */
  function Processed(cleaned: Dict, stamp: string): Dict
    requires "device_id" in cleaned && "timestamp" in cleaned
  {
    map["device_id" := cleaned["device_id"], "timestamp" := cleaned["timestamp"],
        "pm2_5" := Get(cleaned, "pm2_5", VNum(0.0)), "pm10" := Get(cleaned, "pm10", VNum(0.0)),
        "dBA" := Get(cleaned, "dBA", VNum(0.0)), "vibration" := Get(cleaned, "vibration", VNum(0.0)),
        "processed_at" := VStr(stamp)]
  }

  /** The anomalies the callback goes on with: `detect`'s result, or the empty list when it raised. */
  function Detected(cleaned: Dict, ctx: Inputs): seq<Dict>
  {
    if ConsumerDetect.ValidationOutcome(cleaned).Err? || ConsumerDetect.ThresholdOutcome(cleaned).Err? then []
    else ConsumerDetect.ValidationOutcome(cleaned).value + ConsumerDetect.ThresholdOutcome(cleaned).value
         + ConsumerDetect.MlOutcome(ctx.mlAvailable, ctx.mlResponse)
  }

  /** A cleaned record never makes detection raise: its anomalies are the vibration ladder's and the ML service's. */
  lemma DetectedOnCleaned(body: Value, ctx: Inputs)
    requires Cleaned(body).Some?
    ensures var c := Cleaned(body).value;
      Detected(c, ctx) == ConsumerDetect.Ladder("vibration", c["vibration"], ConsumerDetect.VibrationThresholds).value
                         + ConsumerDetect.MlOutcome(ctx.mlAvailable, ctx.mlResponse)
  {
    ConsumerDetect.CleanedRecordDetection(body);
  }

  /** `actions_taken`: the handler's result, or the empty list when it raised. */
  function Taken(anomalies: seq<Dict>, cleaned: Dict, env: Actions.Env, llmEnabled: bool): seq<Actions.ActionRecord>
  {
    var h := Actions.Handled(anomalies, cleaned, env, llmEnabled);
    if h.1 then [] else h.0
  }

  /** An entry of `recent_anomalies`. */
  datatype AnomalyRecord = AnomalyRecord(deviceId: Value, timestamp: Value, anomalies: seq<Dict>,
                                         actionsTaken: seq<Actions.ActionRecord>, llmDecision: Value,
                                         sensorData: Dict, detectedAt: string)

  /** `llm_decision`: it stays None unless the consumer has a reasoner. */
  function Decision(ctx: Inputs, reasoner: bool): (d: Value)
    ensures !reasoner ==> d == VNone
  {
    if reasoner then ctx.llmDecision else VNone
  }

  /** The `anomaly_record` appended to `recent_anomalies`: `actions_taken` is empty when the handler raised. */
  function Remembered(anomalies: seq<Dict>, cleaned: Dict, ctx: Inputs, llmEnabled: bool, reasoner: bool): AnomalyRecord
    requires "device_id" in cleaned && "timestamp" in cleaned
  {
    AnomalyRecord(cleaned["device_id"], cleaned["timestamp"], anomalies, Taken(anomalies, cleaned, ctx.actionEnv, llmEnabled),
                  Decision(ctx, reasoner), Processed(cleaned, ctx.stamp), ctx.detectedStamp)
  }

  // ---------------------------------------------------------------------
  // Field attribution

  /** `needle in str(v).lower()`: the needles hold only letters, digits and `_`, so they can only occur inside a key or a string. */
  predicate Mentions(v: Value, needle: string)
  {
    match v
    case VStr(s) => Contains(Lower(s), needle)
    case VList(items) => exists i :: 0 <= i < |items| && Mentions(items[i], needle)
    case VDict(m) => exists k :: k in m && (Contains(Lower(k), needle) || Mentions(m[k], needle))
    case _ => false
  }

  /** The sensor field an anomaly is stored under: the first name its text mentions, else `unknown`. */
  function AttributedField(anomaly: Dict): (f: string)
    ensures f in {"pm2_5", "pm10", "dBA", "vibration", "unknown"}
    ensures f == "unknown" <==> !Mentions(VDict(anomaly), "pm2_5") && !Mentions(VDict(anomaly), "pm10")
                                && !Mentions(VDict(anomaly), "dba") && !Mentions(VDict(anomaly), "vibration")
  {
    var text := VDict(anomaly);
    if Mentions(text, "pm2_5") then "pm2_5"
    else if Mentions(text, "pm10") then "pm10"
    else if Mentions(text, "dba") then "dBA"
    else if Mentions(text, "vibration") then "vibration"
    else "unknown"
  }

  /** The arguments of one `store_anomaly` call. */
  datatype AnomalyRow = AnomalyRow(sensorDataId: Value, deviceId: Value, timestamp: Value, anomalyType: Value,
                                   sensorField: string, value: Value, threshold: Value, severity: Value,
                                   llmDecision: Value)

  function Row(anomaly: Dict, cleaned: Dict, ctx: Inputs, reasoner: bool): (r: AnomalyRow)
    requires "device_id" in cleaned && "timestamp" in cleaned
    ensures r.sensorField == AttributedField(anomaly)
    ensures r.sensorField == "unknown" ==> r.value == VNum(0.0)
    ensures r.sensorField != "unknown" ==> r.value == Get(cleaned, r.sensorField, VNum(0.0))
  {
    var field := AttributedField(anomaly);
    AnomalyRow(ctx.sensorDataId, cleaned["device_id"], cleaned["timestamp"], Get(anomaly, "type", VStr("detection")),
               field, if field == "unknown" then VNum(0.0) else Get(cleaned, field, VNum(0.0)),
               Get(anomaly, "threshold", VNum(0.0)), Get(anomaly, "severity", VStr("medium")), Decision(ctx, reasoner))
  }

  /** The rows the storing loop writes, one per anomaly, in order. */
  function Rows(anomalies: seq<Dict>, cleaned: Dict, ctx: Inputs, reasoner: bool): (rs: seq<AnomalyRow>)
    requires "device_id" in cleaned && "timestamp" in cleaned
    ensures |rs| == |anomalies| && forall i :: 0 <= i < |anomalies| ==> rs[i] == Row(anomalies[i], cleaned, ctx, reasoner)
  {
    if anomalies == [] then []
    else
      var init := anomalies[..|anomalies| - 1];
      assert forall i :: 0 <= i < |init| ==> init[i] == anomalies[i];
      Rows(init, cleaned, ctx, reasoner) + [Row(anomalies[|anomalies| - 1], cleaned, ctx, reasoner)]
  }

  /** The storing loop's next iteration adds the next anomaly's row; after the last one all rows are there. */
  lemma RowsOneMore(anomalies: seq<Dict>, i: nat, cleaned: Dict, ctx: Inputs, reasoner: bool)
    requires i <= |anomalies| && "device_id" in cleaned && "timestamp" in cleaned
    ensures i < |anomalies| ==>
      Rows(anomalies[..i + 1], cleaned, ctx, reasoner) == Rows(anomalies[..i], cleaned, ctx, reasoner) + [Row(anomalies[i], cleaned, ctx, reasoner)]
    ensures i == |anomalies| ==> Rows(anomalies[..i], cleaned, ctx, reasoner) == Rows(anomalies, cleaned, ctx, reasoner)
  {
    if i < |anomalies| {
      var prefix := anomalies[..i + 1];
      assert prefix[..|prefix| - 1] == anomalies[..i] && prefix[|prefix| - 1] == anomalies[i];
    } else {
      assert anomalies[..i] == anomalies;
    }
  }

  // ---------------------------------------------------------------------
  // Rounding of the anomaly rate

  /** `round(x, 2)` on exact reals: the nearest multiple of 0.01, ties to even. */
  function Round2(x: real): real
  {
    Preprocess.RoundHalfEven(x * 100.0) as real / 100.0
  }

  lemma Round2Percent(x: real)
    requires 0.0 <= x <= 100.0
    ensures 0.0 <= Round2(x) <= 100.0
  {
    var n := Preprocess.RoundHalfEven(x * 100.0);
    assert 0.0 <= x * 100.0 <= 10000.0;
    assert 0 <= n <= 10000;
  }

  /**
   * `round(anomalies_detected / max(messages_processed, 1) * 100, 2)`: a
   * percentage whenever no more messages had anomalies than were processed.
   */
  function AnomalyRate(detected: nat, processed: nat): (r: real)
    ensures detected <= processed ==> 0.0 <= r <= 100.0
  {
    var denominator := if processed > 1 then processed else 1;
    var share := detected as real / denominator as real * 100.0;
    if detected <= processed then
      assert share <= 100.0 by {
        assert detected as real <= denominator as real;
      }
      Round2Percent(share);
      Round2(share)
    else Round2(share)
  }

  /** The counters `get_stats` reports; uptime and the processing rate need the wall clock and are left out. */
  datatype Stats = Stats(messagesProcessed: nat, anomaliesDetected: nat, anomalyRate: real,
                         recentDataCount: nat, recentAnomaliesCount: nat)

  /**
   * The storing step: when the sensor row got an id, one `store_anomaly`
   * call per anomaly; `rows` are the anomaly rows stored so far.
   */
  method StoreAnomalies(rows: seq<AnomalyRow>, anomalies: seq<Dict>, cleaned: Dict, ctx: Inputs, reasoner: bool) returns (stored: seq<AnomalyRow>)
    requires "device_id" in cleaned && "timestamp" in cleaned
    ensures stored == rows + (if IsTruthy(ctx.sensorDataId) then Rows(anomalies, cleaned, ctx, reasoner) else [])
  {
    stored := rows;
    if !IsTruthy(ctx.sensorDataId) {
      assert stored == rows + [];
      return;
    }
    for i := 0 to |anomalies|
      invariant stored == rows + Rows(anomalies[..i], cleaned, ctx, reasoner)
    {
      RowsOneMore(anomalies, i, cleaned, ctx, reasoner);
      stored := stored + [Row(anomalies[i], cleaned, ctx, reasoner)];
    }
    RowsOneMore(anomalies, |anomalies|, cleaned, ctx, reasoner);
  }

  // ---------------------------------------------------------------------
  // The consumer

  class SmartSensorConsumer {
    var messagesProcessed: nat
    var anomaliesDetected: nat
    /** `recent_sensor_data`, a deque of at most 1000 entries. */
    var recentSensorData: seq<Dict>
    /** `recent_anomalies`, a deque of at most 100 entries. */
    var recentAnomalies: seq<AnomalyRecord>
    /** The anomaly rows handed to the database, oldest first. */
    var anomalyRows: seq<AnomalyRow>
    const dispatcher: Actions.ActionHandler
    /** Whether the consumer has its own LLM reasoner (`self.llm`), set apart from the action handler's LLM. */
    const reasoner: bool

    /** The counters and the deques' bounds. */
    ghost predicate Valid()
      reads this
    {
      anomaliesDetected <= messagesProcessed && |recentSensorData| <= 1000 && |recentAnomalies| <= 100
    }

    constructor(llmEnabled: bool, reasoner: bool)
      ensures Valid() && fresh(dispatcher) && dispatcher.history == [] && dispatcher.llmEnabled == llmEnabled
      ensures this.reasoner == reasoner
      ensures messagesProcessed == 0 && anomaliesDetected == 0
      ensures recentSensorData == [] && recentAnomalies == [] && anomalyRows == []
    {
      messagesProcessed, anomaliesDetected := 0, 0;
      recentSensorData, recentAnomalies, anomalyRows := [], [], [];
      dispatcher := new Actions.ActionHandler(llmEnabled);
      this.reasoner := reasoner;
    }

    /**
     * The state after a cleaned record `c` was ingested, given the state
     * before: the processed record is remembered; with no anomalies nothing
     * else changes; otherwise the anomaly counter goes up by one, the
     * handler's entries are appended to its history, the anomaly record is
     * remembered and, when the sensor row got an id, one row per anomaly is
     * stored.
     */
    ghost predicate Ingested(c: Dict, ctx: Inputs, anomaliesBefore: nat, dataBefore: seq<Dict>,
                             anomalyRecordsBefore: seq<AnomalyRecord>, rowsBefore: seq<AnomalyRow>,
                             historyBefore: seq<Actions.ActionRecord>)
      requires "device_id" in c && "timestamp" in c && |dataBefore| <= 1000 && |anomalyRecordsBefore| <= 100
      reads this, dispatcher
    {
      var anomalies := Detected(c, ctx);
      recentSensorData == DequeAppend(dataBefore, Processed(c, ctx.stamp), 1000)
      && (anomalies == [] ==>
            anomaliesDetected == anomaliesBefore && recentAnomalies == anomalyRecordsBefore
            && anomalyRows == rowsBefore && dispatcher.history == historyBefore)
      && (anomalies != [] ==>
            anomaliesDetected == anomaliesBefore + 1
            && dispatcher.history == historyBefore + Actions.Handled(anomalies, c, ctx.actionEnv, dispatcher.llmEnabled).0
            && recentAnomalies == DequeAppend(anomalyRecordsBefore, Remembered(anomalies, c, ctx, dispatcher.llmEnabled, reasoner), 100)
            && anomalyRows == rowsBefore + (if IsTruthy(ctx.sensorDataId) then Rows(anomalies, c, ctx, reasoner) else []))
    }

    /** The branch taken when detection found anomalies: count, act, remember, store. */
    method React(anomalies: seq<Dict>, cleaned: Dict, ctx: Inputs)
      requires anomalies != [] && |recentAnomalies| <= 100
      requires "device_id" in cleaned && "timestamp" in cleaned
      modifies this`anomaliesDetected, this`recentAnomalies, this`anomalyRows, dispatcher`history
      ensures anomaliesDetected == old(anomaliesDetected) + 1 && |recentAnomalies| <= 100
      ensures messagesProcessed == old(messagesProcessed) && recentSensorData == old(recentSensorData)
      ensures dispatcher.history == old(dispatcher.history) + Actions.Handled(anomalies, cleaned, ctx.actionEnv, dispatcher.llmEnabled).0
      ensures recentAnomalies == DequeAppend(old(recentAnomalies), Remembered(anomalies, cleaned, ctx, dispatcher.llmEnabled, reasoner), 100)
      ensures anomalyRows == old(anomalyRows) + (if IsTruthy(ctx.sensorDataId) then Rows(anomalies, cleaned, ctx, reasoner) else [])
    {
      anomaliesDetected := anomaliesDetected + 1;
      HandleAndRemember(anomalies, cleaned, ctx);
      anomalyRows := StoreAnomalies(anomalyRows, anomalies, cleaned, ctx, reasoner);
    }

    /** Act on the anomalies (a raised exception leaves `actions_taken` empty) and remember the anomaly record. */
    method HandleAndRemember(anomalies: seq<Dict>, cleaned: Dict, ctx: Inputs)
      requires "device_id" in cleaned && "timestamp" in cleaned && |recentAnomalies| <= 100
      modifies this`recentAnomalies, dispatcher`history
      ensures |recentAnomalies| <= 100 && anomalyRows == old(anomalyRows)
      ensures messagesProcessed == old(messagesProcessed) && anomaliesDetected == old(anomaliesDetected)
      ensures recentSensorData == old(recentSensorData)
      ensures dispatcher.history == old(dispatcher.history) + Actions.Handled(anomalies, cleaned, ctx.actionEnv, dispatcher.llmEnabled).0
      ensures recentAnomalies == DequeAppend(old(recentAnomalies), Remembered(anomalies, cleaned, ctx, dispatcher.llmEnabled, reasoner), 100)
    {
      var actionsTaken: seq<Actions.ActionRecord> := [];
      var handled := dispatcher.HandleAnomalies(anomalies, cleaned, ctx.actionEnv);
      if handled.Ok? {
        actionsTaken := handled.value;
      }
      assert actionsTaken == Taken(anomalies, cleaned, ctx.actionEnv, dispatcher.llmEnabled);
      var entry := AnomalyRecord(cleaned["device_id"], cleaned["timestamp"], anomalies, actionsTaken, Decision(ctx, reasoner),
                                 Processed(cleaned, ctx.stamp), ctx.detectedStamp);
      assert entry == Remembered(anomalies, cleaned, ctx, dispatcher.llmEnabled, reasoner);
      recentAnomalies := DequeAppend(recentAnomalies, entry, 100);
    }

    /** A cleaned record: remember it, detect (a raised exception counts as no anomalies), react when anything was found. */
    method Ingest(c: Dict, ctx: Inputs)
      requires Valid() && anomaliesDetected < messagesProcessed
      requires "device_id" in c && "timestamp" in c
      modifies this`anomaliesDetected, this`recentSensorData, this`recentAnomalies, this`anomalyRows, dispatcher`history
      ensures Valid()
      ensures Ingested(c, ctx, old(anomaliesDetected), old(recentSensorData), old(recentAnomalies), old(anomalyRows),
                       old(dispatcher.history))
    {
      recentSensorData := DequeAppend(recentSensorData, Processed(c, ctx.stamp), 1000);
      var anomalies: seq<Dict> := [];
      var detected := ConsumerDetect.Detect(c, ctx.mlAvailable, ctx.mlResponse);
      if detected.Ok? {
        anomalies := detected.value;
      }
      assert anomalies == Detected(c, ctx);
      if anomalies != [] {
        React(anomalies, c, ctx);
      }
    }

    /**
     * `callback`: invalid JSON is acked and changes nothing; undecodable
     * bytes raise a UnicodeDecodeError, which is not a JSONDecodeError, and
     * are nacked for requeueing with nothing changed; any decoded body is
     * counted; a body that is not a dictionary raises and is nacked for
     * requeueing; a record the preprocessor rejects is acked with nothing
     * else changed; a cleaned record is ingested and acked.
     */
    method Callback(body: Body, ctx: Inputs) returns (d: Delivery)
      requires Valid()
      modifies this`messagesProcessed, this`anomaliesDetected, this`recentSensorData, this`recentAnomalies,
               this`anomalyRows, dispatcher`history
      ensures Valid()
      ensures d == Nack(true) <==> body.Undecodable? || (body.Json? && !body.value.VDict?)
      ensures d != Ack ==> d == Nack(true)
      ensures messagesProcessed == old(messagesProcessed) + (if body.Json? then 1 else 0)
      ensures !body.Json? || Cleaned(body.value).None? ==>
        anomaliesDetected == old(anomaliesDetected) && recentSensorData == old(recentSensorData)
        && recentAnomalies == old(recentAnomalies) && anomalyRows == old(anomalyRows)
        && dispatcher.history == old(dispatcher.history)
      ensures body.Json? && Cleaned(body.value).Some? ==>
        Ingested(Cleaned(body.value).value, ctx, old(anomaliesDetected), old(recentSensorData), old(recentAnomalies),
                 old(anomalyRows), old(dispatcher.history))
    {
      if body.InvalidJson? {
        return Ack;
      }
      if body.Undecodable? {
        return Nack(true);
      }
      var record := body.value;
      messagesProcessed := messagesProcessed + 1;
      if !record.VDict? {
        return Nack(true);
      }
      var cleaned := Preprocess.ValidateAndNormalize(record);
      if cleaned.None? {
        return Ack;
      }
      Ingest(cleaned.value, ctx);
      return Ack;
    }

    /** `get_sensor_data`: `list(recent_sensor_data)[-limit:]`. */
    method GetSensorData(limit: int) returns (r: seq<Dict>)
      ensures r == PyTail(recentSensorData, limit)
      ensures limit > 0 ==> |r| == (if limit < |recentSensorData| then limit else |recentSensorData|)
    {
      r := PyTail(recentSensorData, limit);
    }

    /** `get_anomalies`: `list(recent_anomalies)[-limit:]`. */
    method GetAnomalies(limit: int) returns (r: seq<AnomalyRecord>)
      ensures r == PyTail(recentAnomalies, limit)
      ensures limit > 0 ==> |r| == (if limit < |recentAnomalies| then limit else |recentAnomalies|)
    {
      r := PyTail(recentAnomalies, limit);
    }

    /** `get_stats` without the clock: the anomaly rate is a percentage because at most every message had anomalies. */
    method GetStats() returns (s: Stats)
      requires Valid()
      ensures s.messagesProcessed == messagesProcessed && s.anomaliesDetected == anomaliesDetected
      ensures s.recentDataCount == |recentSensorData| <= 1000 && s.recentAnomaliesCount == |recentAnomalies| <= 100
      ensures s.anomalyRate == AnomalyRate(anomaliesDetected, messagesProcessed)
      ensures 0.0 <= s.anomalyRate <= 100.0
    {
      s := Stats(messagesProcessed, anomaliesDetected, AnomalyRate(anomaliesDetected, messagesProcessed),
                 |recentSensorData|, |recentAnomalies|);
    }
  }
}

=== FILE: detect.dfy ===
/**
 * The consumer's `ConsumerDetector`: validation issues, the basic threshold
 * check as written (its ladder sits after the loop over the threshold table,
 * so it runs once, on the last present sensor's value against the last
 * table entry's thresholds), the mapping of the ML service's response into
 * anomalies, and `detect`, which concatenates the three.
 */
module ConsumerDetect {
  import opened Common
  import Preprocess

  /** The three levels of a sensor's entry in `sensor_thresholds`. */
  datatype Thresholds = Thresholds(warning: real, critical: real, severe: real)

  /** `sensor_thresholds`, in dictionary order. */
  const SensorThresholds: seq<(string, Thresholds)> := [
    ("pm2_5", Thresholds(45.0, 70.0, 150.0)),
    ("pm10", Thresholds(80.0, 150.0, 300.0)),
    ("dBA", Thresholds(80.0, 95.0, 120.0)),
    ("vibration", Thresholds(0.3, 0.4, 0.5))]

  const VibrationThresholds := Thresholds(0.3, 0.4, 0.5)

  /** The number Python compares a value as: an int or float, a bool as 0 or 1; None where comparing raises TypeError. */
  function Numeric(v: Value): (x: Option<real>)
    ensures v.VNum? ==> x == Some(v.x)
  {
    match v
    case VNum(x) => Some(x)
    case VBool(b) => Some(if b then 1.0 else 0.0)
    case _ => None
  }

  // ---------------------------------------------------------------------
  // detect_basic_thresholds

  /** A threshold anomaly; the numbers in its reason text are left out. */
  function ThresholdResult(severity: string, name: string, level: string, threshold: real): Dict
  {
    map["type" := VStr("threshold"), "severity" := VStr(severity),
        "reason" := VStr(name + " reading exceeds " + level + " threshold"),
        "threshold" := VNum(threshold), "detector" := VStr("consumer_basic")]
  }

  /**
   * The if/elif chain: severe first, each test inclusive; TypeError when the
   * value is not a number. Each band gives its own severity.
   */
  function Ladder(name: string, v: Value, th: Thresholds): (r: Result<seq<Dict>>)
    ensures r.Ok? <==> Numeric(v).Some?
    ensures r.Ok? ==> |r.value| <= 1
    ensures Numeric(v).Some? && Numeric(v).value >= th.severe ==>
      r == Ok([ThresholdResult("critical", name, "severe", th.severe)])
    ensures Numeric(v).Some? && th.critical <= Numeric(v).value < th.severe ==>
      r == Ok([ThresholdResult("high", name, "critical", th.critical)])
    ensures Numeric(v).Some? && th.warning <= Numeric(v).value < th.critical && Numeric(v).value < th.severe ==>
      r == Ok([ThresholdResult("medium", name, "warning", th.warning)])
    ensures Numeric(v).Some? ==> (r == Ok([]) <==>
      Numeric(v).value < th.warning && Numeric(v).value < th.critical && Numeric(v).value < th.severe)
  {
    match Numeric(v)
    case None => Err("TypeError")
    case Some(x) =>
      if x >= th.severe then Ok([ThresholdResult("critical", name, "severe", th.severe)])
      else if x >= th.critical then Ok([ThresholdResult("high", name, "critical", th.critical)])
      else if x >= th.warning then Ok([ThresholdResult("medium", name, "warning", th.warning)])
      else Ok([])
  }

  /** The value `value` holds after the loop: that of the last sensor of the table present in the record. */
  function LastPresent(record: Dict, table: seq<(string, Thresholds)>): (v: Option<Value>)
    ensures v.None? <==> forall i :: 0 <= i < |table| ==> table[i].0 !in record
  {
    if table == [] then None
    else if table[|table| - 1].0 in record then Some(record[table[|table| - 1].0])
    else
      var init := table[..|table| - 1];
      assert forall i :: 0 <= i < |init| ==> init[i] == table[i];
      LastPresent(record, init)
  }

  /**
   * What `detect_basic_thresholds` returns: UnboundLocalError when no sensor
   * key is present, otherwise the ladder with the last table entry's name
   * and thresholds (the loop variables keep their last values).
   */
  function ThresholdOutcome(record: Dict): Result<seq<Dict>>
  {
    match LastPresent(record, SensorThresholds)
    case None => Err("UnboundLocalError")
    case Some(v) => Ladder("vibration", v, VibrationThresholds)
  }

  /** `detect_basic_thresholds`: the loop only remembers values; the chain runs once after it. */
  method DetectBasicThresholds(record: Dict) returns (r: Result<seq<Dict>>)
    ensures r == ThresholdOutcome(record)
  {
    var value: Option<Value> := None;
    var sensorType, thresholds := "", Thresholds(0.0, 0.0, 0.0);
    for i := 0 to |SensorThresholds|
      invariant value == LastPresent(record, SensorThresholds[..i])
      invariant i > 0 ==> (sensorType, thresholds) == SensorThresholds[i - 1]
    {
      assert SensorThresholds[..i + 1][..i] == SensorThresholds[..i];
      sensorType, thresholds := SensorThresholds[i].0, SensorThresholds[i].1;
      if sensorType !in record {
        continue;
      }
      value := Some(record[sensorType]);
    }
    assert SensorThresholds[..|SensorThresholds|] == SensorThresholds;
    if value.None? {
      return Err("UnboundLocalError");
    }
    r := Ladder(sensorType, value.value, thresholds);
  }

  /** At most one threshold anomaly, and it depends on the vibration value alone whenever vibration is present. */
  lemma ThresholdsUseVibration(record: Dict)
    ensures ThresholdOutcome(record).Ok? ==> |ThresholdOutcome(record).value| <= 1
    ensures "vibration" in record ==> ThresholdOutcome(record) == Ladder("vibration", record["vibration"], VibrationThresholds)
    ensures (forall i :: 0 <= i < |SensorThresholds| ==> SensorThresholds[i].0 !in record)
            <==> ThresholdOutcome(record) == Err("UnboundLocalError")
  {
  }

  /** A PM2.5 reading far above its severe level raises nothing while vibration is low. */
  lemma HighPmAloneNotDetected(ts: Value, id: Value)
    ensures ThresholdOutcome(map["timestamp" := ts, "device_id" := id, "pm2_5" := VNum(160.0),
                                 "pm10" := VNum(10.0), "dBA" := VNum(50.0), "vibration" := VNum(0.1)]) == Ok([])
  {
    var record := map["timestamp" := ts, "device_id" := id, "pm2_5" := VNum(160.0),
                      "pm10" := VNum(10.0), "dBA" := VNum(50.0), "vibration" := VNum(0.1)];
    assert LastPresent(record, SensorThresholds) == Some(VNum(0.1));
  }

  /** A record with a sensor key only for PM2.5 is judged against the vibration levels. */
  lemma PmJudgedByVibrationLevels(x: real)
    requires x >= 0.5
    ensures ThresholdOutcome(map["pm2_5" := VNum(x)]) == Ok([ThresholdResult("critical", "vibration", "severe", 0.5)])
  {
    var record := map["pm2_5" := VNum(x)];
    var t := SensorThresholds;
    assert t[..1][..0] == [] && t[..2][..1] == t[..1] && t[..3][..2] == t[..2] && t[..4][..3] == t[..3] && t[..4] == t;
    assert LastPresent(record, t[..1]) == Some(VNum(x));
    assert LastPresent(record, t[..2]) == Some(VNum(x));
    assert LastPresent(record, t[..3]) == Some(VNum(x));
  }

  // ---------------------------------------------------------------------
  // validate_sensor_data

  const RequiredFields: seq<string> := ["timestamp", "device_id"]
  const CheckedSensors: seq<string> := ["pm2_5", "pm10", "dBA", "vibration"]

  function MissingIssue(field: string): Dict
  {
    map["type" := VStr("validation"), "severity" := VStr("high"),
        "reason" := VStr("Missing required field: " + field), "detector" := VStr("consumer_basic")]
  }

  /** A negative-value issue; the value in its reason text is left out. */
  function NegativeIssue(name: string): Dict
  {
    map["type" := VStr("validation"), "severity" := VStr("medium"),
        "reason" := VStr(name + " has negative value"), "detector" := VStr("consumer_basic")]
  }

  /** Issues about different fields differ. */
  lemma MissingIssueInjective(f: string, g: string)
    ensures MissingIssue(f) == MissingIssue(g) ==> f == g
  {
    var p := "Missing required field: ";
    if MissingIssue(f) == MissingIssue(g) {
      assert MissingIssue(f)["reason"] == VStr(p + f) && MissingIssue(g)["reason"] == VStr(p + g);
      assert (p + f)[|p|..] == f && (p + g)[|p|..] == g;
    }
  }

  /** One high issue per missing required field, in order. */
  function MissingIssues(record: Dict, fields: seq<string>): (r: seq<Dict>)
    ensures forall f :: MissingIssue(f) in r <==> f in fields && f !in record
  {
    if fields == [] then []
    else
      var init := fields[..|fields| - 1];
      var last := fields[|fields| - 1];
      assert forall f :: f in fields <==> f in init || f == last;
      assert forall f :: MissingIssue(f) == MissingIssue(last) ==> f == last by {
        forall f ensures MissingIssue(f) == MissingIssue(last) ==> f == last { MissingIssueInjective(f, last); }
      }
      MissingIssues(record, init) + (if last in record then [] else [MissingIssue(last)])
  }

  /** The sensor is examined by the sign test: present, not vibration and not None. */
  predicate SignChecked(record: Dict, name: string)
  {
    name in record && name != "vibration" && record[name] != VNone
  }

  /** The medium issues for negative values, or TypeError when a checked value is not a number. */
  function NegativeIssues(record: Dict, names: seq<string>): (r: Result<seq<Dict>>)
  {
    if names == [] then Ok([])
    else
      var last := names[|names| - 1];
      match NegativeIssues(record, names[..|names| - 1])
      case Err(e) => Err(e)
      case Ok(acc) =>
        if !SignChecked(record, last) then Ok(acc)
        else
          match Numeric(record[last])
          case None => Err("TypeError")
          case Some(x) => Ok(acc + (if x < 0.0 then [NegativeIssue(last)] else []))
  }

  /** What `validate_sensor_data` returns. */
  function ValidationOutcome(record: Dict): Result<seq<Dict>>
  {
    match NegativeIssues(record, CheckedSensors)
    case Err(e) => Err(e)
    case Ok(n) => Ok(MissingIssues(record, RequiredFields) + n)
  }

  /** `validate_sensor_data`: the loop over the required fields, then the loop over the sensors. */
  method ValidateSensorData(record: Dict) returns (r: Result<seq<Dict>>)
    ensures r == ValidationOutcome(record)
  {
    var results: seq<Dict> := [];
    for i := 0 to |RequiredFields|
      invariant results == MissingIssues(record, RequiredFields[..i])
    {
      assert RequiredFields[..i + 1][..i] == RequiredFields[..i];
      if RequiredFields[i] !in record {
        results := results + [MissingIssue(RequiredFields[i])];
      }
    }
    assert RequiredFields[..|RequiredFields|] == RequiredFields;
    ghost var missing := results;
    for i := 0 to |CheckedSensors|
      invariant NegativeIssues(record, CheckedSensors[..i]).Ok?
      invariant results == missing + NegativeIssues(record, CheckedSensors[..i]).value
    {
      NegativeOneMore(record, CheckedSensors, i);
      var sensorType := CheckedSensors[i];
      if sensorType in record {
        var value := record[sensorType];
        if sensorType != "vibration" && value != VNone {
          var x := Numeric(value);
          if x.None? {
            NegativeIssuesStayRaised(record, CheckedSensors, i + 1);
            return Err("TypeError");
          }
          if x.value < 0.0 {
            AppendAssociates(missing, NegativeIssues(record, CheckedSensors[..i]).value, [NegativeIssue(sensorType)]);
            results := results + [NegativeIssue(sensorType)];
          }
        }
      }
    }
    assert CheckedSensors[..|CheckedSensors|] == CheckedSensors;
    return Ok(results);
  }

  /** The sign loop's next iteration checks one more sensor. */
  lemma NegativeOneMore(record: Dict, names: seq<string>, i: nat)
    requires i < |names| && NegativeIssues(record, names[..i]).Ok?
    ensures var acc := NegativeIssues(record, names[..i]).value; var n := names[i];
      NegativeIssues(record, names[..i + 1])
      == if !SignChecked(record, n) then Ok(acc)
         else match Numeric(record[n])
           case None => Err("TypeError")
           case Some(x) => Ok(acc + (if x < 0.0 then [NegativeIssue(n)] else []))
  {
    assert names[..i + 1][..i] == names[..i];
  }

  /** Once a sensor's sign test raises, the result is that exception whatever follows. */
  lemma {:induction false} NegativeIssuesStayRaised(record: Dict, names: seq<string>, j: nat)
    requires j <= |names| && NegativeIssues(record, names[..j]).Err?
    ensures NegativeIssues(record, names) == NegativeIssues(record, names[..j])
  {
    if j < |names| {
      var init := names[..|names| - 1];
      assert init[..j] == names[..j];
      NegativeIssuesStayRaised(record, init, j);
    } else {
      assert names[..j] == names;
    }
  }

  /** The sign test raises exactly when a checked value is not a number; otherwise each negative one gets one issue. */
  lemma {:induction false} NegativeIssuesExact(record: Dict, names: seq<string>)
    ensures NegativeIssues(record, names).Ok? <==>
      forall i :: 0 <= i < |names| && SignChecked(record, names[i]) ==> Numeric(record[names[i]]).Some?
    ensures NegativeIssues(record, names).Ok? ==> forall n :: n != "vibration" ==>
      (NegativeIssue(n) in NegativeIssues(record, names).value <==>
       n in names && SignChecked(record, n) && Numeric(record[n]).value < 0.0)
  {
    if names != [] {
      var init := names[..|names| - 1];
      assert forall i :: 0 <= i < |init| ==> init[i] == names[i];
      assert forall n :: n in names <==> n in init || n == names[|names| - 1];
      NegativeIssuesExact(record, init);
      forall n | NegativeIssue(n) == NegativeIssue(names[|names| - 1])
        ensures n == names[|names| - 1]
      {
        assert NegativeIssue(n)["reason"] == VStr(n + " has negative value");
        var k := |n|;
        assert (n + " has negative value")[..k] == n;
      }
    }
  }

  /** The vibration value never takes part in validation. */
  lemma {:induction false} VibrationNotValidated(record: Dict, names: seq<string>, v: Value)
    requires "vibration" in record
    ensures NegativeIssues(record["vibration" := v], names) == NegativeIssues(record, names)
  {
    if names != [] {
      VibrationNotValidated(record, names[..|names| - 1], v);
      var last := names[|names| - 1];
      assert SignChecked(record["vibration" := v], last) == SignChecked(record, last);
    }
  }

  // ---------------------------------------------------------------------
  // detect_ml_anomalies

  /** The items a `for` loop over a response's `anomalies` value yields; None where iterating raises at once. */
  function Iterated(v: Value): Option<seq<Value>>
  {
    match v
    case VList(items) => Some(items)
    case VStr(s) => if s == [] then Some([]) else None       // a one-character string has no 'category'
    case VDict(m) => if m == map[] then Some([]) else None   // a key string has no 'category'
    case _ => None
  }

  /** `severity_map.get(category, 'medium')`; None when the category is unhashable (a list or a dict). */
  function SeverityOf(category: Value): (r: Option<string>)
    ensures r.None? <==> category.VList? || category.VDict?
    ensures category == VStr("alert") ==> r == Some("critical")
    ensures category == VStr("drift") ==> r == Some("medium")
    ensures category == VStr("noise") ==> r == Some("low")
    ensures r.Some? && category != VStr("alert") && category != VStr("noise") ==> r == Some("medium")
  {
    match category
    case VList(_) => None
    case VDict(_) => None
    case VStr(s) =>
      Some(if s == "alert" then "critical" else if s == "drift" then "medium" else if s == "noise" then "low" else "medium")
    case _ => Some("medium")
  }

  /** What one iteration of the loop does with an item of `anomalies`. */
  datatype MlStep = Skip | Raise | Emit(entry: Dict)

  /** The keys of an anomaly item that the entry copies without a default. */
  predicate HasEntryKeys(m: Dict)
  {
    "reason" in m && "confidence" in m && "sensor_type" in m
  }

  /**
   * One iteration: a dict item whose category is normal is skipped; one with a
   * hashable category and the copied keys is emitted with that category's
   * severity; anything else raises.
   */
  function MlStepOf(item: Value): (s: MlStep)
    ensures s.Emit? ==> "type" in s.entry && s.entry["type"] == VStr("ml_detection")
    ensures s.Emit? ==> item.VDict? && "category" in item.entries && item.entries["category"] != VStr("normal")
    ensures s.Skip? <==> item.VDict? && "category" in item.entries && item.entries["category"] == VStr("normal")
    ensures s.Emit? <==> item.VDict? && "category" in item.entries && item.entries["category"] != VStr("normal")
                         && SeverityOf(item.entries["category"]).Some? && HasEntryKeys(item.entries)
    ensures s.Emit? ==> var m := item.entries;
      && "severity" in s.entry && s.entry["severity"] == VStr(SeverityOf(m["category"]).value)
      && "confidence" in s.entry && s.entry["confidence"] == m["confidence"]
      && "sensor_type" in s.entry && s.entry["sensor_type"] == m["sensor_type"]
      && "anomaly_score" in s.entry && s.entry["anomaly_score"] == Get(m, "anomaly_score", VNum(0.0))
  {
    if !item.VDict? || "category" !in item.entries then Raise
    else
      var m := item.entries;
      if m["category"] == VStr("normal") then Skip
      else match SeverityOf(m["category"])
        case None => Raise
        case Some(severity) =>
          if !HasEntryKeys(m) then Raise
          else Emit(map["type" := VStr("ml_detection"), "severity" := VStr(severity),
                        "reason" := m["reason"], "confidence" := m["confidence"],
                        "anomaly_score" := Get(m, "anomaly_score", VNum(0.0)),
                        "sensor_type" := m["sensor_type"], "detector" := VStr("ml_service"),
                        "details" := Get(m, "details", VDict(map[]))])
  }

  /** The entries the loop appends before it ends or raises, and whether it raised. */
  function MlEntries(items: seq<Value>): (r: (seq<Dict>, bool))
    ensures |r.0| <= |items|
  {
    if items == [] then ([], false)
    else
      var prev := MlEntries(items[..|items| - 1]);
      if prev.1 then prev
      else match MlStepOf(items[|items| - 1])
        case Skip => prev
        case Raise => (prev.0, true)
        case Emit(d) => (prev.0 + [d], false)
  }

  /** The entries `Emit` steps of `items` produce, in order, whatever the other items do. */
  function Emitted(items: seq<Value>): (es: seq<Dict>)
    ensures forall i :: 0 <= i < |items| && MlStepOf(items[i]).Emit? ==> MlStepOf(items[i]).entry in es
    ensures forall d :: d in es ==> exists i :: 0 <= i < |items| && MlStepOf(items[i]) == Emit(d)
  {
    if items == [] then []
    else
      var init := items[..|items| - 1];
      var prev := Emitted(init);
      assert forall i :: 0 <= i < |init| ==> init[i] == items[i];
      match MlStepOf(items[|items| - 1])
      case Emit(d) => prev + [d]
      case _ => prev
  }

  /** The index of the first item that raises, or the number of items when none does. */
  function FirstRaise(items: seq<Value>): (k: nat)
    ensures k <= |items|
    ensures forall i :: 0 <= i < k ==> !MlStepOf(items[i]).Raise?
    ensures k < |items| ==> MlStepOf(items[k]).Raise?
  {
    if items == [] then 0
    else
      var init := items[..|items| - 1];
      var k := FirstRaise(init);
      assert forall i :: 0 <= i < |init| ==> init[i] == items[i];
      if k < |init| then k
      else if MlStepOf(items[|items| - 1]).Raise? then |init|
      else |items|
  }

  /**
   * The loop appends exactly the entries of the items before the first one
   * that raises, in order, and it raised exactly when some item does.
   */
  lemma {:induction false} MlEntriesExact(items: seq<Value>)
    ensures MlEntries(items).1 <==> FirstRaise(items) < |items|
    ensures MlEntries(items).0 == Emitted(items[..FirstRaise(items)])
  {
    if items == [] {
      assert items[..0] == [];
    } else {
      var init := items[..|items| - 1];
      MlEntriesExact(init);
      var k := FirstRaise(init);
      var step := MlStepOf(items[|items| - 1]);
      if k < |init| {
        assert MlEntries(init).1;
        assert MlEntries(items) == MlEntries(init) && FirstRaise(items) == k;
        assert items[..k] == init[..k];
      } else if step.Raise? {
        assert MlEntries(items) == (MlEntries(init).0, true) && FirstRaise(items) == |init|;
        assert items[..|init|] == init && init[..k] == init;
      } else {
        assert FirstRaise(items) == |items|;
        assert items[..|items|] == items && init[..k] == init;
        assert Emitted(items) == Emitted(init) + (if step.Emit? then [step.entry] else []);
      }
    }
  }

  function OverallEntry(response: Dict): Dict
    requires "overall_assessment" in response
  {
    map["type" := VStr("ml_overall"), "severity" := VStr("medium"),
        "reason" := VStr("ML service overall assessment: " + Show(response["overall_assessment"])),
        "confidence" := Get(response, "overall_confidence", VNum(0.0)), "detector" := VStr("ml_service")]
  }

  /** The loop over a response's `anomalies`: its entries and whether it raised. */
  function LoopOf(m: Dict): (seq<Dict>, bool)
  {
    if "anomalies" !in m then ([], false)
    else match Iterated(m["anomalies"]) case None => ([], true) case Some(items) => MlEntries(items)
  }

  /**
   * What `detect_ml_anomalies` returns for the client's answer (None when the
   * client is unavailable or its request failed): the entries appended before
   * an exception, then the overall entry unless the assessment is normal or
   * missing.
   */
  function MlOutcome(available: bool, response: Option<Dict>): seq<Dict>
  {
    if !available || response.None? || response.value == map[] then []
    else
      var m := response.value;
      var loop := LoopOf(m);
      if loop.1 then loop.0
      else if "overall_assessment" in m && m["overall_assessment"] != VStr("normal") then loop.0 + [OverallEntry(m)]
      else loop.0
  }

  /** `detect_ml_anomalies`: the loop over the response's anomalies stops at the first exception. */
  method DetectMlAnomalies(available: bool, response: Option<Dict>) returns (out: seq<Dict>)
    ensures out == MlOutcome(available, response)
  {
    if !available || response.None? || response.value == map[] {
      return [];
    }
    var m := response.value;
    out := [];
    if "anomalies" in m {
      var items := Iterated(m["anomalies"]);
      if items.None? {
        return [];
      }
      var xs := items.value;
      for i := 0 to |xs|
        invariant MlEntries(xs[..i]) == (out, false)
      {
        MlEntriesOneMore(xs, i);
        var step := MlStepOf(xs[i]);
        if step.Raise? {
          MlEntriesStopAtRaise(xs, i + 1);
          assert xs[..|xs|] == xs;
          return out;
        }
        if step.Emit? {
          out := out + [step.entry];
        }
      }
      assert xs[..|xs|] == xs;
    }
    if "overall_assessment" in m && m["overall_assessment"] != VStr("normal") {
      out := out + [OverallEntry(m)];
    }
  }

  /** The loop's next iteration looks at one more item. */
  lemma MlEntriesOneMore(items: seq<Value>, i: nat)
    requires i < |items| && !MlEntries(items[..i]).1
    ensures var prev := MlEntries(items[..i]).0; var step := MlStepOf(items[i]);
      MlEntries(items[..i + 1])
      == if step.Raise? then (prev, true) else if step.Emit? then (prev + [step.entry], false) else (prev, false)
  {
    assert items[..i + 1][..i] == items[..i];
  }

  /** Once an item raises, the later items change nothing: the entries appended before it are returned. */
  lemma {:induction false} MlEntriesStopAtRaise(items: seq<Value>, j: nat)
    requires j <= |items| && MlEntries(items[..j]).1
    ensures MlEntries(items) == MlEntries(items[..j])
  {
    if j < |items| {
      var init := items[..|items| - 1];
      assert init[..j] == items[..j];
      MlEntriesStopAtRaise(init, j);
    } else {
      assert items[..j] == items;
    }
  }

  /** Every entry comes from an item whose category is not normal, and every entry is an ML detection. */
  lemma {:induction false} MlEntriesNotNormal(items: seq<Value>)
    ensures forall d :: d in MlEntries(items).0 ==> "type" in d && d["type"] == VStr("ml_detection")
    ensures forall d :: d in MlEntries(items).0 ==>
      exists i :: 0 <= i < |items| && MlStepOf(items[i]) == Emit(d)
  {
    if items != [] {
      var init := items[..|items| - 1];
      MlEntriesNotNormal(init);
      assert forall i :: 0 <= i < |init| ==> init[i] == items[i];
    }
  }

  /** The client answered with a non-empty dict whose loop did not raise and whose assessment is present and not normal. */
  predicate OverallAppended(available: bool, response: Option<Dict>)
  {
    available && response.Some? && response.value != map[] && !LoopOf(response.value).1
    && "overall_assessment" in response.value && response.value["overall_assessment"] != VStr("normal")
  }

  /**
   * The `ml_overall` rule: exactly one medium `ml_overall` entry follows the
   * loop's entries when the assessment is present and not normal and the loop
   * did not raise; otherwise every entry is an `ml_detection`.
   */
  lemma MlOverallRule(available: bool, response: Option<Dict>)
    ensures OverallAppended(available, response) ==>
      var out := MlOutcome(available, response);
      && out == LoopOf(response.value).0 + [OverallEntry(response.value)]
      && out[|out| - 1]["type"] == VStr("ml_overall") && out[|out| - 1]["severity"] == VStr("medium")
    ensures !OverallAppended(available, response) ==>
      forall d :: d in MlOutcome(available, response) ==> "type" in d && d["type"] == VStr("ml_detection")
  {
    if available && response.Some? && response.value != map[] {
      var m := response.value;
      if "anomalies" in m && Iterated(m["anomalies"]).Some? {
        MlEntriesNotNormal(Iterated(m["anomalies"]).value);
      }
    }
  }

  // ---------------------------------------------------------------------
  // detect

  /**
   * `detect`: the validation issues, then the threshold anomalies, then the
   * ML anomalies; an exception in the first two propagates.
   */
  method Detect(record: Dict, available: bool, response: Option<Dict>) returns (r: Result<seq<Dict>>)
    ensures r.Err? <==> ValidationOutcome(record).Err? || ThresholdOutcome(record).Err?
    ensures r.Ok? ==> r.value == ValidationOutcome(record).value + ThresholdOutcome(record).value
                                 + MlOutcome(available, response)
  {
    var validation := ValidateSensorData(record);
    if validation.Err? {
      return Err(validation.error);
    }
    var thresholds := DetectBasicThresholds(record);
    if thresholds.Err? {
      return Err(thresholds.error);
    }
    var ml := DetectMlAnomalies(available, response);
    r := Ok(validation.value + thresholds.value + ml);
  }

  predicate NonNegative(c: Dict, k: string)
  {
    k in c && c[k].VNum? && c[k].x >= 0.0
  }

  /** A record with both identifiers and non-negative numbers for the checked sensors has no validation issue. */
  lemma NoIssuesWhenComplete(c: Dict)
    requires "timestamp" in c && "device_id" in c
    requires NonNegative(c, "pm2_5") && NonNegative(c, "pm10") && NonNegative(c, "dBA")
    ensures ValidationOutcome(c) == Ok([])
  {
    var n1, n2, n3 := ["pm2_5"], ["pm2_5", "pm10"], ["pm2_5", "pm10", "dBA"];
    assert n1[..|n1| - 1] == [] && n2[..|n2| - 1] == n1 && n3[..|n3| - 1] == n2;
    assert CheckedSensors[..|CheckedSensors| - 1] == n3;
    assert NegativeIssues(c, []) == Ok([]);
    assert SignChecked(c, "pm2_5") && Numeric(c["pm2_5"]) == Some(c["pm2_5"].x);
    assert SignChecked(c, "pm10") && Numeric(c["pm10"]) == Some(c["pm10"].x);
    assert SignChecked(c, "dBA") && Numeric(c["dBA"]) == Some(c["dBA"].x);
    assert NegativeIssues(c, n1).Ok? && NegativeIssues(c, n1).value == [];
    assert NegativeIssues(c, n2).Ok? && NegativeIssues(c, n2).value == [];
    assert NegativeIssues(c, n3).Ok? && NegativeIssues(c, n3).value == [];
    assert !SignChecked(c, "vibration");
    assert NegativeIssues(c, CheckedSensors).Ok? && NegativeIssues(c, CheckedSensors).value == [];
    var r1 := ["timestamp"];
    assert r1[..|r1| - 1] == [] && RequiredFields[..|RequiredFields| - 1] == r1;
    assert MissingIssues(c, r1) == [];
    assert MissingIssues(c, RequiredFields) == [];
  }

  /**
   * A record the preprocessor kept never makes detection raise, has no
   * validation issue (its values lie in non-negative ranges), and is judged
   * on its vibration value alone.
   */
  lemma CleanedRecordDetection(raw: Value)
    requires Preprocess.Normalized(raw).Some?
    ensures var c := Preprocess.Normalized(raw).value;
      ValidationOutcome(c) == Ok([]) && ThresholdOutcome(c) == Ladder("vibration", c["vibration"], VibrationThresholds)
      && ThresholdOutcome(c).Ok?
  {
    var c := Preprocess.Normalized(raw).value;
    Preprocess.CleanedInRange(raw);
    var fs := Preprocess.ExpectedFields;
    assert fs[0].name == "pm2_5" && fs[1].name == "pm10" && fs[2].name == "dBA" && fs[3].name == "vibration";
    assert c["vibration"].VNum?;
    NoIssuesWhenComplete(c);
    ThresholdsUseVibration(c);
  }
}

=== FILE: lstm.dfy ===
/**
 * The sequence-forecasting (LSTM) detector: it trains a one-step forecaster
 * on sliding windows of a sensor's history, derives an error threshold from
 * the training errors, and classifies a new reading by how far it lies from
 * the forecast made from the sensor's rolling window.
 */
module Lstm {
  import opened Common
  import opened MlTypes
  import opened BaseDetector

  /**
   * The detector's configuration. The network's shape and training
   * parameters (units, dropout, learning rate, epochs, batch size, early
   * stopping) are carried for `get_model_info`; the training they steer is
   * the library's `trainForecaster`.
   */
  datatype Config = Config(
    sequenceLength: nat,
    lstmUnits: int,
    dropoutRate: real,
    learningRate: real,
    epochs: int,
    batchSize: int,
    thresholdMultiplier: real,
    minReadings: int,
    validationSplit: real,
    earlyStoppingPatience: int)

  const DefaultConfig := Config(50, 50, 0.2, 0.001, 100, 32, 2.0, 200, 0.2, 10)

  /** Configurations the model covers: a positive sequence length and a split fraction in [0, 1]. */
  predicate ValidConfig(c: Config)
  {
    c.sequenceLength > 0 && 0.0 <= c.validationSplit <= 1.0
  }

  /** The configuration as the detector's `config` dictionary, under the source's key names. */
  function ConfigDict(c: Config): (d: Dict)
    ensures d.Keys == {"sequence_length", "lstm_units", "dropout_rate", "learning_rate", "epochs",
                       "batch_size", "threshold_multiplier", "min_readings", "validation_split",
                       "early_stopping_patience"}
    ensures d["sequence_length"] == VNum(c.sequenceLength as real) && d["lstm_units"] == VNum(c.lstmUnits as real)
    ensures d["dropout_rate"] == VNum(c.dropoutRate) && d["learning_rate"] == VNum(c.learningRate)
    ensures d["epochs"] == VNum(c.epochs as real) && d["batch_size"] == VNum(c.batchSize as real)
    ensures d["threshold_multiplier"] == VNum(c.thresholdMultiplier) && d["min_readings"] == VNum(c.minReadings as real)
    ensures d["validation_split"] == VNum(c.validationSplit)
    ensures d["early_stopping_patience"] == VNum(c.earlyStoppingPatience as real)
  {
    map["sequence_length" := VNum(c.sequenceLength as real), "lstm_units" := VNum(c.lstmUnits as real),
        "dropout_rate" := VNum(c.dropoutRate), "learning_rate" := VNum(c.learningRate),
        "epochs" := VNum(c.epochs as real), "batch_size" := VNum(c.batchSize as real),
        "threshold_multiplier" := VNum(c.thresholdMultiplier), "min_readings" := VNum(c.minReadings as real),
        "validation_split" := VNum(c.validationSplit),
        "early_stopping_patience" := VNum(c.earlyStoppingPatience as real)]
  }

  /** The dictionary carries the whole configuration: distinct configurations give distinct dictionaries. */
  lemma ConfigDictInjective(c1: Config, c2: Config)
    requires ConfigDict(c1) == ConfigDict(c2)
    ensures c1 == c2
  {
  }

  /** A forecaster maps a window of readings to the next reading. */
  type Forecaster = seq<real> -> real

  /** The training inputs: every window of `len` consecutive values. */
  function Windows(values: seq<real>, len: nat): (xs: seq<seq<real>>)
    ensures |xs| == if |values| > len then |values| - len else 0
    ensures forall i :: 0 <= i < |xs| ==> xs[i] == values[i..i + len]
  {
    if |values| <= len then [] else seq(|values| - len, i requires 0 <= i < |values| - len => values[i..i + len])
  }

  /** The training targets: the value that follows each window. */
  function Targets(values: seq<real>, len: nat): (ys: seq<real>)
    ensures |ys| == if |values| > len then |values| - len else 0
    ensures forall i :: 0 <= i < |ys| ==> ys[i] == values[i + len]
  {
    if |values| <= len then [] else seq(|values| - len, i requires 0 <= i < |values| - len => values[i + len])
  }

  /** `_prepare_sequences`: pair each window of `len` values with the value after it. */
  method PrepareSequences(values: seq<real>, len: nat) returns (xs: seq<seq<real>>, ys: seq<real>)
    ensures xs == Windows(values, len) && ys == Targets(values, len)
  {
    xs, ys := [], [];
    var count := if |values| > len then |values| - len else 0;
    var i := 0;
    while i < count
      invariant 0 <= i <= count
      invariant |xs| == |ys| == i
      invariant forall j :: 0 <= j < i ==> xs[j] == values[j..j + len] && ys[j] == values[j + len]
    {
      xs := xs + [values[i..i + len]];
      ys := ys + [values[i + len]];
      i := i + 1;
    }
  }

  /** `int(n * (1 - validation_split))`: how many sequences train the network. */
  function SplitIndex(n: nat, split: real): (k: nat)
    requires 0.0 <= split <= 1.0
    ensures k <= n
  {
    var x := n as real * (1.0 - split);
    assert 0.0 <= x <= n as real by {
      assert n as real * (1.0 - split) <= n as real * 1.0;
    }
    x.Floor
  }

  datatype Split = Split(xTrain: seq<seq<real>>, yTrain: seq<real>, xVal: seq<seq<real>>, yVal: seq<real>)

  /** The training/validation split: a prefix for training, the rest for validation. */
  function TrainValidationSplit(xs: seq<seq<real>>, ys: seq<real>, split: real): (s: Split)
    requires |xs| == |ys| && 0.0 <= split <= 1.0
    ensures s.xTrain + s.xVal == xs && s.yTrain + s.yVal == ys
    ensures |s.xTrain| == |s.yTrain| == SplitIndex(|xs|, split)
  {
    var k := SplitIndex(|xs|, split);
    Split(xs[..k], ys[..k], xs[k..], ys[k..])
  }

  /** The forecaster training produces, None when training raises. */
  function Trained(c: Config, lib: Library, values: seq<real>): Option<Forecaster>
    requires ValidConfig(c)
  {
    var xs := Windows(values, c.sequenceLength);
    var s := TrainValidationSplit(xs, Targets(values, c.sequenceLength), c.validationSplit);
    lib.trainForecaster(s.xTrain, s.yTrain, s.xVal, s.yVal)
  }

  /** Whether `fit` accepts a list of readings: valid, enough of them, at least ten sequences, trainable. */
  predicate FitAccepts(c: Config, lib: Library, readings: seq<Value>)
    requires ValidConfig(c)
  {
    ValidateInput(lib, readings)
    && |readings| >= c.minReadings
    && |Windows(ValuesOf(lib, readings), c.sequenceLength)| >= 10
    && Trained(c, lib, ValuesOf(lib, readings)).Some?
  }

  /** Absolute forecast error on every training sequence. */
  function Errors(f: Forecaster, xs: seq<seq<real>>, ys: seq<real>): (es: seq<real>)
    requires |xs| == |ys|
    ensures |es| == |xs| && forall i :: 0 <= i < |es| ==> es[i] == Abs(ys[i] - f(xs[i])) >= 0.0
  {
    seq(|xs|, i requires 0 <= i < |xs| => Abs(ys[i] - f(xs[i])))
  }

  /** The anomaly threshold: mean training error plus the multiplier times its deviation. */
  function Threshold(c: Config, lib: Library, f: Forecaster, values: seq<real>): (t: real)
    requires |values| > c.sequenceLength
  {
    var es := Errors(f, Windows(values, c.sequenceLength), Targets(values, c.sequenceLength));
    Mean(es) + c.thresholdMultiplier * lib.std(es)
  }

  /** `_get_recent_values`: the window once the reading has arrived. */
  function RecentValues(c: Config, registered: set<string>, windows: map<string, seq<real>>,
                        sid: string, value: real): (r: seq<real>)
  {
    if sid !in registered then Repeat(value, c.sequenceLength)
    else if sid in windows then LastN(windows[sid] + [value], c.sequenceLength)
    else Repeat(value, c.sequenceLength)
  }

  datatype Verdict = Verdict(category: Category, confidence: real, details: map<string, Value>)

  /** `_classify_prediction`: the error against multiples of the threshold. */
  function Classify(actual: real, predicted: real, error: real, threshold: real, ratio: real): (v: Verdict)
    ensures v.category == Alert <==> error > threshold * 2.0
    ensures v.category == Noise <==> threshold < error <= threshold * 2.0
    ensures v.category == Drift <==> threshold * 0.5 < error <= threshold
    ensures v.category == Normal <==> error <= threshold * 0.5 && error <= threshold * 2.0
    ensures v.confidence == match v.category
      case Alert => 0.9
      case Noise => 0.7
      case Drift => 0.5
      case Normal => 0.8
    ensures "error" in v.details && v.details["error"] == VNum(error)
    ensures "threshold" in v.details && v.details["threshold"] == VNum(threshold)
  {
    var details := map["actual" := VNum(actual), "predicted" := VNum(predicted), "error" := VNum(error),
                       "threshold" := VNum(threshold), "error_ratio" := VNum(ratio)];
    if error > threshold * 2.0 then Verdict(Alert, 0.9, details)
    else if error > threshold then Verdict(Noise, 0.7, details)
    else if error > threshold * 0.5 then Verdict(Drift, 0.5, details)
    else Verdict(Normal, 0.8, details)
  }

  /**
   * `min(error / threshold, 1.0)`; a zero threshold gives 1 for a positive
   * error (numpy's infinity) and 0 otherwise.
   */
  function Score(error: real, threshold: real): (s: real)
    ensures s <= 1.0
  {
    if threshold == 0.0 then (if error > 0.0 then 1.0 else 0.0) else Min(error / threshold, 1.0)
  }

  /** What `predict` returns and the rolling windows it leaves. */
  function PredictOutcome(c: Config, registered: set<string>, forecasters: map<string, Forecaster>,
                          thresholds: map<string, real>, windows: map<string, seq<real>>,
                          sid: string, reading: Value): (Prediction, map<string, seq<real>>)
  {
    if sid !in registered then (FallbackPrediction("Model not trained"), windows)
    else match ValueOf(reading)
      case None => (FallbackPrediction("Prediction error"), windows)
      case Some(value) =>
        if sid !in forecasters || sid !in thresholds then (FallbackPrediction("Prediction error"), windows)
        else
          var recent := RecentValues(c, registered, windows, sid, value);
          var windows' := windows[sid := recent];
          if |recent| < c.sequenceLength then (FallbackPrediction("Insufficient recent data"), windows')
          else (Judge(c, forecasters[sid], thresholds[sid], recent, value), windows')
  }

  /** The answer once the window is full: forecast the newest value and classify the forecast error against the threshold. */
  function Judge(c: Config, f: Forecaster, t: real, recent: seq<real>, value: real): Prediction
  {
    var predicted := f(LastN(recent, c.sequenceLength));
    var error := Abs(value - predicted);
    var v := Classify(value, predicted, error, t, error / Max(Abs(predicted), 0.000001));
    Prediction(v.category, v.confidence, Score(error, t), v.details)
  }

  class LstmDetector {
    const lib: Library
    const config: Config
    /** `sensor_models`. */
    var registered: set<string>
    /** The trained network with its scaler, per sensor (`models` and `scalers`). */
    var forecasters: map<string, Forecaster>
    /** `thresholds`. */
    var thresholds: map<string, real>
    /** `rolling_windows`. */
    var windows: map<string, seq<real>>

    ghost predicate Valid()
      reads this
    {
      ValidConfig(config) && forall k :: k in windows ==> |windows[k]| <= config.sequenceLength
    }

    constructor (lib: Library, config: Config)
      requires ValidConfig(config)
      ensures Valid() && this.lib == lib && this.config == config
      ensures registered == {} && forecasters == map[] && thresholds == map[] && windows == map[]
    {
      this.lib := lib;
      this.config := config;
      registered := {};
      forecasters := map[];
      thresholds := map[];
      windows := map[];
    }

    /**
     * `fit`: on accepted readings, store the forecaster, its threshold and the
     * newest `sequence_length` values as the rolling window.
     */
    method Fit(sid: string, readings: seq<Value>) returns (ok: bool)
      requires Valid()
      modifies this
      ensures Valid()
      ensures ok == FitAccepts(config, lib, readings)
      ensures ok ==>
        var vs := ValuesOf(lib, readings);
        var f := Trained(config, lib, vs).value;
        registered == old(registered) + {sid}
        && forecasters == old(forecasters)[sid := f]
        && thresholds == old(thresholds)[sid := Threshold(config, lib, f, vs)]
        && windows == old(windows)[sid := LastN(vs, config.sequenceLength)]
      ensures !ok ==> registered == old(registered) && forecasters == old(forecasters)
                      && thresholds == old(thresholds) && windows == old(windows)
    {
      if !ValidateInput(lib, readings) || |readings| < config.minReadings {
        return false;
      }
      var vs := ValuesOf(lib, readings);
      var xs, ys := PrepareSequences(vs, config.sequenceLength);
      if |xs| < 10 {
        return false;
      }
      var trained := Trained(config, lib, vs);
      if trained.None? {
        return false;
      }
      var f := trained.value;
      forecasters := forecasters[sid := f];
      thresholds := thresholds[sid := Threshold(config, lib, f, vs)];
      windows := windows[sid := LastN(vs, config.sequenceLength)];
      registered := registered + {sid};
      ok := true;
    }

    /** `_get_recent_values`: append the reading to the sensor's window, or start one. */
    method GetRecentValues(sid: string, value: real) returns (recent: seq<real>)
      requires Valid()
      modifies this
      ensures Valid()
      ensures recent == RecentValues(config, registered, old(windows), sid, value)
      ensures windows == if sid in registered then old(windows)[sid := recent] else old(windows)
      ensures registered == old(registered) && forecasters == old(forecasters) && thresholds == old(thresholds)
    {
      if sid !in registered {
        return Repeat(value, config.sequenceLength);
      }
      if sid in windows {
        var window := windows[sid] + [value];
        if |window| > config.sequenceLength {
          window := window[|window| - config.sequenceLength..];
        }
        windows := windows[sid := window];
        recent := window;
      } else {
        windows := windows[sid := Repeat(value, config.sequenceLength)];
        recent := windows[sid];
      }
    }

    /** `predict`: forecast from the rolling window and classify the forecast error. */
    method Predict(sid: string, reading: Value) returns (p: Prediction)
      requires Valid()
      modifies this
      ensures Valid()
      ensures registered == old(registered) && forecasters == old(forecasters) && thresholds == old(thresholds)
      ensures (p, windows) == PredictOutcome(config, old(registered), old(forecasters), old(thresholds),
                                             old(windows), sid, reading)
    {
      if sid !in registered {
        return FallbackPrediction("Model not trained");
      }
      var v := ValueOf(reading);
      if v.None? || sid !in forecasters || sid !in thresholds {
        return FallbackPrediction("Prediction error");
      }
      var value := v.value;
      var recent := GetRecentValues(sid, value);
      if |recent| < config.sequenceLength {
        return FallbackPrediction("Insufficient recent data");
      }
      p := Judge(config, forecasters[sid], thresholds[sid], recent, value);
    }

    /** `save_model`: the implementation runs only for a registered sensor and needs its network. */
    method SaveModel(sid: string, writeSucceeds: bool) returns (ok: bool, implCalled: bool)
      ensures implCalled <==> sid in registered
      ensures ok <==> sid in registered && sid in forecasters && sid in thresholds && writeSucceeds
    {
      implCalled := sid in registered;
      ok := implCalled && sid in forecasters && sid in thresholds && writeSucceeds;
    }

    /**
     * `load_model`: `files` holds the saved network with its scaler and the
     * threshold, None when any of the files is missing or unreadable.
     */
    method LoadModel(sid: string, files: Option<(Forecaster, real)>) returns (ok: bool)
      requires Valid()
      modifies this
      ensures Valid() && windows == old(windows)
      ensures ok == files.Some?
      ensures ok ==> registered == old(registered) + {sid} && forecasters == old(forecasters)[sid := files.value.0]
                     && thresholds == old(thresholds)[sid := files.value.1]
      ensures !ok ==> registered == old(registered) && forecasters == old(forecasters) && thresholds == old(thresholds)
    {
      if files.None? {
        return false;
      }
      forecasters := forecasters[sid := files.value.0];
      thresholds := thresholds[sid := files.value.1];
      registered := registered + {sid};
      ok := true;
    }

    /** Removal of the sensor from `sensor_models`, as the orchestrator's `remove_sensor` does. */
    method Unregister(sid: string)
      requires Valid()
      modifies this
      ensures Valid() && forecasters == old(forecasters) && thresholds == old(thresholds) && windows == old(windows)
      ensures registered == old(registered) - {sid}
    {
      registered := registered - {sid};
    }

    function ModelInfo(sid: string): (r: Option<BaseDetector.ModelInfo>)
      reads this
      ensures r.Some? <==> sid in registered
      ensures r.Some? ==> r.value.config == ConfigDict(config)
    {
      GetModelInfo(registered, "LSTMDetector", ConfigDict(config), sid)
    }
  }

  // -----------------------------------------------------------------------
  // Properties

  /** Training on accepted readings sees at least ten sequences and a threshold built from them all. */
  lemma AcceptedFitHasEnoughSequences(c: Config, lib: Library, readings: seq<Value>)
    requires ValidConfig(c) && FitAccepts(c, lib, readings)
    ensures |ValuesOf(lib, readings)| >= c.sequenceLength + 10
    ensures |LastN(ValuesOf(lib, readings), c.sequenceLength)| == c.sequenceLength
  {
  }

  /** The rolling window keeps at most `sequence_length` of the newest readings, the latest last. */
  lemma RecentValuesKeepNewest(c: Config, registered: set<string>, windows: map<string, seq<real>>,
                               sid: string, value: real)
    requires ValidConfig(c) && sid in registered && sid in windows
    ensures var r := RecentValues(c, registered, windows, sid, value);
      |r| <= c.sequenceLength && r[|r| - 1] == value && r == LastN(windows[sid] + [value], c.sequenceLength)
  {
  }

  /** The error ladder never gets less severe as the error grows. */
  lemma ClassifyMonotone(actual: real, predicted: real, e1: real, e2: real, t: real, r1: real, r2: real)
    requires 0.0 <= e1 <= e2
    ensures Rank(Classify(actual, predicted, e1, t, r1).category) <= Rank(Classify(actual, predicted, e2, t, r2).category)
  {
  }

  /**
   * With a positive threshold the score lies in [0, 1], and it reaches 1
   * exactly when the error exceeds the threshold (noise at 0.7 or alert).
   */
  lemma ScoreSaturatesAboveThreshold(error: real, t: real)
    requires t > 0.0 && error >= 0.0
    ensures 0.0 <= Score(error, t) <= 1.0
    ensures Score(error, t) == 1.0 <==> error >= t
  {
    var q := error / t;
    assert q * t == error;
    if error >= t {
      assert (q - 1.0) * t >= 0.0;
    } else {
      assert (1.0 - q) * t > 0.0;
    }
  }

  /** An untrained sensor gets the fallback and its window is left alone. */
  lemma UntrainedFallsBack(c: Config, registered: set<string>, forecasters: map<string, Forecaster>,
                           thresholds: map<string, real>, windows: map<string, seq<real>>,
                           sid: string, reading: Value)
    requires sid !in registered
    ensures var (p, windows') := PredictOutcome(c, registered, forecasters, thresholds, windows, sid, reading);
      IsFallback(p) && windows' == windows
  {
  }
}

=== FILE: mltypes.dfy ===
/**
 * Types shared by the anomaly detectors of the ML service: the four
 * categories a reading is classified into, the prediction a detector
 * returns, and the numeric library the detectors call into.
 */
module MlTypes {
  import opened Common

  /** The categories every detector reports. */
  datatype Category = Normal | Noise | Drift | Alert

  function CategoryName(c: Category): string
  {
    match c
    case Normal => "normal"
    case Noise => "noise"
    case Drift => "drift"
    case Alert => "alert"
  }

  /** Severity order of categories: normal < drift < noise < alert. */
  function Rank(c: Category): nat
  {
    match c
    case Normal => 0
    case Drift => 1
    case Noise => 2
    case Alert => 3
  }

  /** The dictionary a detector's `predict` returns. */
  datatype Prediction = Prediction(
    category: Category,
    confidence: real,
    anomalyScore: real,
    details: map<string, Value>)

  predicate IsFallback(p: Prediction)
  {
    "fallback" in p.details && p.details["fallback"] == VBool(true)
  }

  /** The answer every detector gives when it cannot predict: normal, confidence 0.1, score 0. */
  function FallbackPrediction(reason: string): (p: Prediction)
    ensures p.category == Normal && p.confidence == 0.1 && p.anomalyScore == 0.0
    ensures IsFallback(p) && "reason" in p.details && p.details["reason"] == VStr(reason)
  {
    Prediction(Normal, 0.1, 0.0, map["reason" := VStr(reason), "fallback" := VBool(true)])
  }

  /** Trend, seasonal and residual series of a seasonal-trend decomposition. */
  datatype Components = Components(trend: seq<real>, seasonal: seq<real>, resid: seq<real>)

  /**
   * The numeric library calls the detectors make, as total functions:
   * - isoTimestamp(s): `datetime.fromisoformat(s.replace('Z', '+00:00'))` succeeds;
   * - std: `numpy.std`; slope: the slope of `numpy.polyfit(range(n), ys, 1)`;
   * - correlate: `numpy.correlate(x, x, mode='full')`;
   * - decompose: statsmodels STL fit with the detector's windows, None when it raises;
   * - trainForecaster(xTrain, yTrain, xVal, yVal): the fitted scaler and network as a
   *   one-step forecaster in original units, None when training raises.
   */
  datatype Library = Library(
    isoTimestamp: string -> bool,
    std: seq<real> -> real,
    slope: seq<real> -> real,
    correlate: seq<real> -> seq<real>,
    decompose: seq<real> -> Option<Components>,
    trainForecaster: (seq<seq<real>>, seq<real>, seq<seq<real>>, seq<real>) -> Option<seq<real> -> real>)
}

=== FILE: orchestrator.dfy ===
/**
 * The ML detector orchestrator: it owns one detector of each kind it has
 * initialised, chooses a kind per sensor when training (explicitly, by the
 * data's characteristics, or the configured default), routes predictions to
 * the sensor's detector with a confidence floor, and can combine the
 * predictions of several detectors by weighted voting.
 */
module Orchestrator {
  import opened Common
  import opened MlTypes
  import opened BaseDetector
  import ZScore
  import Stl
  import Lstm

  /** The detector kinds of `DETECTOR_TYPES`. */
  datatype Kind = ZKind | StlKind | LstmKind

  function KindName(k: Kind): string
  {
    match k
    case ZKind => "zscore"
    case StlKind => "stl"
    case LstmKind => "lstm"
  }

  /** The lookup in `DETECTOR_TYPES`: None for an unknown detector type. */
  function KindOf(name: string): (r: Option<Kind>)
    ensures r.Some? <==> name == "zscore" || name == "stl" || name == "lstm"
    ensures r.Some? ==> KindName(r.value) == name
  {
    if name == "zscore" then Some(ZKind)
    else if name == "stl" then Some(StlKind)
    else if name == "lstm" then Some(LstmKind)
    else None
  }

  /** The orchestrator's configuration after the caller's dictionary is merged into the defaults. */
  datatype Config = Config(
    defaultDetector: string,
    autoSelect: bool,
    minDataForAdvanced: int,
    confidenceThreshold: real,
    ensembleMode: bool,
    ensembleWeights: map<string, real>)

  const DefaultConfig := Config("zscore", true, 200, 0.5, false, map["zscore" := 0.3, "stl" := 0.4, "lstm" := 0.3])

  // -----------------------------------------------------------------------
  // Detector selection

  function Deviations(vs: seq<real>, m: real): (ds: seq<real>)
    ensures |ds| == |vs| && forall i :: 0 <= i < |vs| ==> ds[i] == vs[i] - m
  {
    seq(|vs|, i requires 0 <= i < |vs| => vs[i] - m)
  }

  /** The autocorrelation at `lag` exceeds 0.3 times the autocorrelation at lag 0. */
  predicate SignificantLag(ac: seq<real>, lag: nat)
  {
    lag < |ac| && ac[lag] > 0.3 * ac[0]
  }

  datatype Characteristics = Characteristics(hasSeasonality: bool, complexPatterns: bool, variance: real, mean: real)

  /**
   * `_analyze_data_characteristics`: seasonal when at least 50 values show a
   * significant autocorrelation at lag 5, 10 or 20; complex when the
   * variance exceeds a tenth of the squared mean.
   */
  function AnalyzeCharacteristics(lib: Library, vs: seq<real>): (ch: Characteristics)
    requires |vs| > 0
    ensures ch.hasSeasonality ==> |vs| >= 50
    ensures ch.complexPatterns <==> Variance(vs) > 0.1 * (Mean(vs) * Mean(vs))
    ensures ch.variance >= 0.0
  {
    var m := Mean(vs);
    var seasonal :=
      if |vs| < 50 then false
      else
        var full := lib.correlate(Deviations(vs, m));
        var ac := full[|full| / 2..];
        SignificantLag(ac, 5) || SignificantLag(ac, 10) || SignificantLag(ac, 20);
    Characteristics(seasonal, Variance(vs) > 0.1 * (m * m), Variance(vs), m)
  }

  /**
   * `_select_best_detector`: z-score below `min_data_for_advanced` readings,
   * otherwise STL for seasonal data of at least 100 values, LSTM for complex
   * data of at least 200, z-score for the rest; None when extracting the
   * time series raises.
   */
  function SelectBestDetector(c: Config, lib: Library, readings: seq<Value>): (r: Option<Kind>)
    requires |readings| > 0
    ensures |readings| < c.minDataForAdvanced ==> r == Some(ZKind)
    ensures r.None? <==> |readings| >= c.minDataForAdvanced && ExtractTimeSeries(lib, readings).None?
    ensures r == Some(StlKind) ==> |readings| >= c.minDataForAdvanced && |readings| >= 100
    ensures r == Some(LstmKind) ==> |readings| >= c.minDataForAdvanced && |readings| >= 200
    ensures |readings| >= c.minDataForAdvanced && ExtractTimeSeries(lib, readings).Some? ==>
      var vs := ExtractTimeSeries(lib, readings).value.values;
      var ch := AnalyzeCharacteristics(lib, vs);
      && (r == Some(StlKind) <==> ch.hasSeasonality && |vs| >= 100)
      && (r == Some(LstmKind) <==> !(ch.hasSeasonality && |vs| >= 100) && ch.complexPatterns && |vs| >= 200)
      && (r == Some(ZKind) <==> !(ch.hasSeasonality && |vs| >= 100) && !(ch.complexPatterns && |vs| >= 200))
  {
    if |readings| < c.minDataForAdvanced then Some(ZKind)
    else match ExtractTimeSeries(lib, readings)
      case None => None
      case Some(ts) =>
        var ch := AnalyzeCharacteristics(lib, ts.values);
        if ch.hasSeasonality && |ts.values| >= 100 then Some(StlKind)
        else if ch.complexPatterns && |ts.values| >= 200 then Some(LstmKind)
        else Some(ZKind)
  }

  /**
   * The kind `fit` trains: the explicit type, the auto-selected one, or the
   * configured default; None for an empty list, an unknown type, or a
   * selection that raises.
   */
  function TargetKind(c: Config, lib: Library, readings: seq<Value>, detectorType: Option<string>): Option<Kind>
  {
    if |readings| == 0 then None
    else match detectorType
      case Some(name) => KindOf(name)
      case None => if c.autoSelect then SelectBestDetector(c, lib, readings) else KindOf(c.defaultDetector)
  }

  /** Whether a freshly constructed detector of kind `k` accepts the readings. */
  predicate KindFitAccepts(k: Kind, lib: Library, readings: seq<Value>)
  {
    match k
    case ZKind => ZScore.FitAccepts(ZScore.DefaultConfig, lib, readings)
    case StlKind => Stl.FitAccepts(Stl.DefaultConfig, lib, readings)
    case LstmKind => Lstm.FitAccepts(Lstm.DefaultConfig, lib, readings)
  }

  predicate FitSucceeds(c: Config, lib: Library, readings: seq<Value>, detectorType: Option<string>)
  {
    var k := TargetKind(c, lib, readings, detectorType);
    k.Some? && KindFitAccepts(k.value, lib, readings)
  }

  // -----------------------------------------------------------------------
  // Confidence floor and weighted voting

  /** The confidence threshold of `predict`: a prediction below it becomes normal with confidence 0.1. */
  function ApplyConfidenceFloor(threshold: real, p: Prediction): (r: Prediction)
    ensures r.confidence >= threshold || (r.category == Normal && r.confidence == 0.1)
    ensures r.anomalyScore == p.anomalyScore && r.details == p.details
    ensures p.confidence >= threshold ==> r == p
    ensures r.category == p.category || r.category == Normal
  {
    if p.confidence < threshold then p.(category := Normal, confidence := 0.1) else p
  }

  /** One detector's prediction in an ensemble. */
  datatype Vote = Vote(detector: string, prediction: Prediction)

  /** `weights.get(detector_type, 0.1)`. */
  function Weight(w: map<string, real>, name: string): real
  {
    if name in w then w[name] else 0.1
  }

  /** The summed weight of the votes for category `c`. */
  function CategoryWeight(votes: seq<Vote>, w: map<string, real>, c: Category): real
  {
    if votes == [] then 0.0
    else
      var v := votes[|votes| - 1];
      CategoryWeight(votes[..|votes| - 1], w, c) + (if v.prediction.category == c then Weight(w, v.detector) else 0.0)
  }

  function TotalWeight(votes: seq<Vote>, w: map<string, real>): real
  {
    if votes == [] then 0.0
    else TotalWeight(votes[..|votes| - 1], w) + Weight(w, votes[|votes| - 1].detector)
  }

  function WeightedConfidence(votes: seq<Vote>, w: map<string, real>): real
  {
    if votes == [] then 0.0
    else
      var v := votes[|votes| - 1];
      WeightedConfidence(votes[..|votes| - 1], w) + v.prediction.confidence * Weight(w, v.detector)
  }

  function WeightedScore(votes: seq<Vote>, w: map<string, real>): real
  {
    if votes == [] then 0.0
    else
      var v := votes[|votes| - 1];
      WeightedScore(votes[..|votes| - 1], w) + v.prediction.anomalyScore * Weight(w, v.detector)
  }

  /** The weight of each vote's category. */
  function VoteWeights(votes: seq<Vote>, w: map<string, real>): (ws: seq<real>)
    ensures |ws| == |votes|
    ensures forall i :: 0 <= i < |votes| ==> ws[i] == CategoryWeight(votes, w, votes[i].prediction.category)
  {
    seq(|votes|, i requires 0 <= i < |votes| => CategoryWeight(votes, w, votes[i].prediction.category))
  }

  /** The first position holding the largest value, as Python's `max` returns the first maximal item. */
  function ArgMax(ws: seq<real>): (r: nat)
    requires |ws| > 0
    ensures r < |ws|
    ensures forall i :: 0 <= i < |ws| ==> ws[i] <= ws[r]
    ensures forall i :: 0 <= i < r ==> ws[i] < ws[r]
  {
    if |ws| == 1 then 0
    else
      var j := ArgMax(ws[..|ws| - 1]);
      if ws[|ws| - 1] > ws[j] then |ws| - 1 else j
  }

  function PredictionValue(p: Prediction): Value
  {
    VDict(map["category" := VStr(CategoryName(p.category)), "confidence" := VNum(p.confidence),
              "anomaly_score" := VNum(p.anomalyScore), "details" := VDict(p.details)])
  }

  /** The `predictions` dictionary of the ensemble details, keyed by detector type. */
  function PredictionsDict(votes: seq<Vote>): map<string, Value>
  {
    if votes == [] then map[]
    else
      var v := votes[|votes| - 1];
      PredictionsDict(votes[..|votes| - 1])[v.detector := PredictionValue(v.prediction)]
  }

  function EnsembleDetails(votes: seq<Vote>, w: map<string, real>): map<string, Value>
  {
    map["ensemble" := VBool(true), "predictions" := VDict(PredictionsDict(votes)),
        "weights" := VDict(map k | k in w :: VNum(w[k]))]
  }

  /**
   * The result of `_combine_predictions`: the category of greatest summed
   * weight (the first such in order of appearance), with the
   * weight-averaged confidence and score (0 when the weights sum to at most 0).
   */
  function Combine(votes: seq<Vote>, w: map<string, real>): Prediction
    requires |votes| > 0
  {
    var tw := TotalWeight(votes, w);
    Prediction(
      votes[ArgMax(VoteWeights(votes, w))].prediction.category,
      if tw > 0.0 then WeightedConfidence(votes, w) / tw else 0.0,
      if tw > 0.0 then WeightedScore(votes, w) / tw else 0.0,
      EnsembleDetails(votes, w))
  }

  /** The running state of the first loop of `_combine_predictions`. */
  datatype Tally = Tally(
    categories: map<Category, real>,
    confidence: real,
    score: real,
    weight: real,
    predictions: map<string, Value>)

  /** One iteration of that loop: a category enters the dictionary with its first vote. */
  function AddVote(t: Tally, v: Vote, w: map<string, real>): Tally
  {
    var x := Weight(w, v.detector);
    var c := v.prediction.category;
    Tally(t.categories[c := (if c in t.categories then t.categories[c] else 0.0) + x],
          t.confidence + v.prediction.confidence * x,
          t.score + v.prediction.anomalyScore * x,
          t.weight + x,
          t.predictions[v.detector := PredictionValue(v.prediction)])
  }

  /** The loop's state after the given votes. */
  function TallyOf(votes: seq<Vote>, w: map<string, real>): Tally
  {
    if votes == [] then Tally(map[], 0.0, 0.0, 0.0, map[])
    else AddVote(TallyOf(votes[..|votes| - 1], w), votes[|votes| - 1], w)
  }

  /**
   * The first loop of `_combine_predictions`: the weight per category, the
   * weighted totals and the `predictions` dictionary.
   */
  method TallyVotes(votes: seq<Vote>, w: map<string, real>)
    returns (categories: map<Category, real>, tc: real, ts: real, tw: real, preds: map<string, Value>)
    ensures Tally(categories, tc, ts, tw, preds) == TallyOf(votes, w)
  {
    categories, preds := map[], map[];
    tc, ts, tw := 0.0, 0.0, 0.0;
    var i := 0;
    while i < |votes|
      invariant 0 <= i <= |votes|
      invariant Tally(categories, tc, ts, tw, preds) == TallyOf(votes[..i], w)
    {
      categories, tc, ts, tw, preds := CountVote(categories, tc, ts, tw, preds, votes[i], w);
      TallyStep(votes, i, w);
      i := i + 1;
    }
    assert votes[..|votes|] == votes;
  }

  /** The body of that loop: the vote's weight goes to its category and to the totals. */
  method CountVote(categories: map<Category, real>, tc: real, ts: real, tw: real, preds: map<string, Value>,
                   v: Vote, w: map<string, real>)
    returns (categories': map<Category, real>, tc': real, ts': real, tw': real, preds': map<string, Value>)
    ensures Tally(categories', tc', ts', tw', preds') == AddVote(Tally(categories, tc, ts, tw, preds), v, w)
  {
    var weight := Weight(w, v.detector);
    var c := v.prediction.category;
    categories' := categories[c := (if c in categories then categories[c] else 0.0) + weight];
    tc' := tc + v.prediction.confidence * weight;
    ts' := ts + v.prediction.anomalyScore * weight;
    tw' := tw + weight;
    preds' := preds[v.detector := PredictionValue(v.prediction)];
  }

  /** One more vote extends the tally by `AddVote`. */
  lemma TallyStep(votes: seq<Vote>, i: nat, w: map<string, real>)
    requires i < |votes|
    ensures TallyOf(votes[..i + 1], w) == AddVote(TallyOf(votes[..i], w), votes[i], w)
  {
    assert votes[..i + 1][..i] == votes[..i];
  }

  /** The tally computes the specified sums: the weighted totals and the predictions dictionary. */
  lemma {:induction false} TallyComputesTotals(votes: seq<Vote>, w: map<string, real>)
    ensures var t := TallyOf(votes, w);
      t.weight == TotalWeight(votes, w) && t.confidence == WeightedConfidence(votes, w)
      && t.score == WeightedScore(votes, w) && t.predictions == PredictionsDict(votes)
  {
    if votes != [] {
      TallyComputesTotals(votes[..|votes| - 1], w);
    }
  }

  /**
   * The tally's category dictionary holds each category's total weight, and
   * every voted category is present.
   */
  lemma {:induction false} TallyComputesCategoryWeights(votes: seq<Vote>, w: map<string, real>)
    ensures var t := TallyOf(votes, w);
      (forall c :: c in t.categories ==> t.categories[c] == CategoryWeight(votes, w, c))
      && (forall c :: c !in t.categories ==> CategoryWeight(votes, w, c) == 0.0)
      && (forall j :: 0 <= j < |votes| ==> votes[j].prediction.category in t.categories)
  {
    if votes != [] {
      var pre := votes[..|votes| - 1];
      TallyComputesCategoryWeights(pre, w);
      assert forall j :: 0 <= j < |pre| ==> pre[j] == votes[j];
    }
  }

  /**
   * The scan of `max(categories.items(), key=...)`: a strictly larger
   * weight replaces the best so far, so the first maximum wins.
   */
  method FirstHeaviest(ws: seq<real>) returns (best: nat)
    requires |ws| > 0
    ensures best == ArgMax(ws)
  {
    best := 0;
    var j := 1;
    while j < |ws|
      invariant 1 <= j <= |ws|
      invariant best == ArgMax(ws[..j])
    {
      assert ws[..j + 1][..j] == ws[..j];
      if ws[j] > ws[best] {
        best := j;
      }
      j := j + 1;
    }
    assert ws[..|ws|] == ws;
  }

  /**
   * `_combine_predictions`. Scanning the votes' category weights in vote
   * order visits the categories in the order they entered the category
   * dictionary, as Python's `max` does.
   */
  method CombinePredictions(votes: seq<Vote>, w: map<string, real>) returns (p: Prediction)
    requires |votes| > 0
    ensures p == Combine(votes, w)
  {
    var categories, tc, ts, tw, preds := TallyVotes(votes, w);
    TallyComputesTotals(votes, w);
    TallyComputesCategoryWeights(votes, w);
    var ws := seq(|votes|, j requires 0 <= j < |votes| => categories[votes[j].prediction.category]);
    assert ws == VoteWeights(votes, w);
    var best := FirstHeaviest(ws);
    var conf := if tw > 0.0 then tc / tw else 0.0;
    var score := if tw > 0.0 then ts / tw else 0.0;
    var details := map["ensemble" := VBool(true), "predictions" := VDict(preds),
                       "weights" := VDict(map k | k in w :: VNum(w[k]))];
    p := Prediction(votes[best].prediction.category, conf, score, details);
  }

  /** The ensemble answer for the collected votes. */
  function EnsembleOutcome(votes: seq<Vote>, w: map<string, real>): Prediction
  {
    if votes == [] then FallbackPrediction("No ensemble predictions available") else Combine(votes, w)
  }

  // -----------------------------------------------------------------------
  // Detector states as values

  /** The state of one kind's detector; `NoDetector` while the kind is not initialised. */
  datatype DetState =
    | NoDetector
    | ZState(zRegistered: set<string>, zStats: map<string, ZScore.Stats>)
    | StlState(models: map<string, Stl.Entry>, stlStats: map<string, Stl.Stats>)
    | LstmState(lstmRegistered: set<string>, forecasters: map<string, Lstm.Forecaster>,
                thresholds: map<string, real>, windows: map<string, seq<real>>)

  /** The state of a freshly constructed detector of kind `k`. */
  function FreshState(k: Kind): DetState
  {
    match k
    case ZKind => ZState({}, map[])
    case StlKind => StlState(map[], map[])
    case LstmKind => LstmState({}, map[], map[], map[])
  }

  /** The sensors a detector state knows (its `sensor_models`). */
  function RegisteredIn(st: DetState): set<string>
  {
    match st
    case NoDetector => {}
    case ZState(r, _) => r
    case StlState(models, _) => models.Keys
    case LstmState(r, _, _, _) => r
  }

  /**
   * The state after `fit(sid, readings)` on kind `k`'s detector, which is
   * first created when the kind is not initialised: the sensor's trained
   * statistics, model and window when the detector accepts the readings,
   * otherwise the state it started from.
   */
  function FittedState(k: Kind, lib: Library, st: DetState, sid: string, readings: seq<Value>): DetState
  {
    var s := if st.NoDetector? then FreshState(k) else st;
    match s
    case NoDetector => s
    case ZState(r, m) =>
      if ZScore.FitAccepts(ZScore.DefaultConfig, lib, readings)
      then ZState(r + {sid}, m[sid := ZScore.TrainedStats(ZScore.DefaultConfig, lib, readings)])
      else s
    case StlState(models, stats) =>
      if Stl.FitAccepts(Stl.DefaultConfig, lib, readings)
      then StlState(models[sid := Stl.TrainedEntry(Stl.DefaultConfig, lib, readings)],
                    stats[sid := Stl.TrainedStats(Stl.DefaultConfig, lib, readings)])
      else s
    case LstmState(r, fs, ts, ws) =>
      if Lstm.FitAccepts(Lstm.DefaultConfig, lib, readings) then
        var c := Lstm.DefaultConfig;
        var vs := ValuesOf(lib, readings);
        var f := Lstm.Trained(c, lib, vs).value;
        LstmState(r + {sid}, fs[sid := f], ts[sid := Lstm.Threshold(c, lib, f, vs)], ws[sid := LastN(vs, c.sequenceLength)])
      else s
  }

  /** The state after `predict(sid, reading)`: each detector slides only its own rolling window. */
  function PredictedState(lib: Library, st: DetState, sid: string, reading: Value): DetState
  {
    match st
    case NoDetector => st
    case ZState(r, m) => ZState(r, ZScore.PredictOutcome(ZScore.DefaultConfig, lib, r, m, sid, reading).1)
    case StlState(models, stats) => StlState(Stl.PredictOutcome(Stl.DefaultConfig, lib, models, stats, sid, reading).1, stats)
    case LstmState(r, fs, ts, ws) => LstmState(r, fs, ts, Lstm.PredictOutcome(Lstm.DefaultConfig, r, fs, ts, ws, sid, reading).1)
  }

  /** The state belongs to kind `k`'s detector, or the kind is not initialised. */
  predicate SameKind(k: Kind, st: DetState)
  {
    match st
    case NoDetector => true
    case ZState(_, _) => k == ZKind
    case StlState(_, _) => k == StlKind
    case LstmState(_, _, _, _) => k == LstmKind
  }

  /** A fit leaves an initialised detector of the kind, which knows the sensor exactly when it accepted the readings. */
  lemma FittedStateRegisters(k: Kind, lib: Library, st: DetState, sid: string, readings: seq<Value>)
    requires SameKind(k, st)
    ensures var st' := FittedState(k, lib, st, sid, readings);
      !st'.NoDetector? && SameKind(k, st')
      && RegisteredIn(st') == RegisteredIn(st) + (if KindFitAccepts(k, lib, readings) then {sid} else {})
  {
    var s := if st.NoDetector? then FreshState(k) else st;
    assert RegisteredIn(s) == RegisteredIn(st) && SameKind(k, s) && !s.NoDetector?;
    assert FittedState(k, lib, st, sid, readings) == FittedState(k, lib, s, sid, readings);
  }

  /** Fitting a freshly created detector is fitting a kind that is not yet initialised. */
  lemma FittedFresh(k: Kind, lib: Library, sid: string, readings: seq<Value>)
    ensures FittedState(k, lib, FreshState(k), sid, readings) == FittedState(k, lib, NoDetector, sid, readings)
  {
  }

  /** A prediction never changes which sensors a detector knows. */
  lemma PredictedStateKeepsRegistered(lib: Library, st: DetState, sid: string, reading: Value)
    ensures RegisteredIn(PredictedState(lib, st, sid, reading)) == RegisteredIn(st)
    ensures PredictedState(lib, st, sid, reading).NoDetector? == st.NoDetector?
  {
  }

  // -----------------------------------------------------------------------
  // The orchestrator

  /** An entry of `sensor_configs`. */
  datatype SensorConfig = SensorConfig(kind: Kind, trainedAt: string, readingsCount: nat)

  /** What `get_sensor_info` returns. */
  datatype SensorInfo = SensorInfo(
    sensorId: string,
    detectorType: string,
    trainedAt: string,
    readingsCount: nat,
    detectorInfo: Option<ModelInfo>)

  class MLDetector {
    const lib: Library
    const config: Config
    /** The entries of `detectors`; null while a kind is not initialised. */
    var zscore: ZScore.ZScoreDetector?
    var stl: Stl.StlDetector?
    var lstm: Lstm.LstmDetector?
    /** The insertion order of `detectors`. */
    var order: seq<Kind>
    var sensorConfigs: map<string, SensorConfig>
    /** The insertion order of `sensor_configs`. */
    var sensorOrder: seq<string>

    predicate Initialized(k: Kind)
      reads this`zscore, this`stl, this`lstm
    {
      match k
      case ZKind => zscore != null
      case StlKind => stl != null
      case LstmKind => lstm != null
    }

    /** The detector object of a kind, as a frame. */
    function DetSet(k: Kind): set<object>
      reads this`zscore, this`stl, this`lstm
    {
      match k
      case ZKind => if zscore == null then {} else {zscore}
      case StlKind => if stl == null then {} else {stl}
      case LstmKind => if lstm == null then {} else {lstm}
    }

    /** The detectors this orchestrator owns. */
    function Repr(): set<object>
      reads this`zscore, this`stl, this`lstm
    {
      DetSet(ZKind) + DetSet(StlKind) + DetSet(LstmKind)
    }

    /** Each initialised detector is consistent and was built with this library and its default configuration. */
    ghost predicate DetectorsValid()
      reads this`zscore, this`stl, this`lstm, zscore, stl, lstm
    {
      ZScoreValid() && StlValid() && LstmValid()
    }

    ghost predicate ZScoreValid()
      reads this`zscore, zscore
    {
      zscore != null ==> zscore.Valid() && zscore.lib == lib && zscore.config == ZScore.DefaultConfig
    }

    ghost predicate StlValid()
      reads this`stl, stl
    {
      stl != null ==> stl.Valid() && stl.lib == lib && stl.config == Stl.DefaultConfig
    }

    ghost predicate LstmValid()
      reads this`lstm, lstm
    {
      lstm != null ==> lstm.Valid() && lstm.lib == lib && lstm.config == Lstm.DefaultConfig
    }

    /**
     * `order` lists the initialised kinds once each, every configured sensor's
     * kind is initialised, and `sensorOrder` lists the configured sensors once each.
     */
    ghost predicate BookkeepingValid()
      reads this
    {
      Distinct(order) && (forall k :: k in order <==> Initialized(k))
      && (forall s :: s in sensorConfigs ==> Initialized(sensorConfigs[s].kind))
      && Distinct(sensorOrder) && (forall s :: s in sensorOrder <==> s in sensorConfigs)
    }

    ghost predicate Valid()
      reads this, zscore, stl, lstm
    {
      DetectorsValid() && BookkeepingValid()
    }

    /** The sensors in a kind's `sensor_models` (none while the kind is not initialised). */
    function Registered(k: Kind): set<string>
      reads this`zscore, this`stl, this`lstm, DetSet(k)
    {
      match k
      case ZKind => if zscore == null then {} else zscore.registered
      case StlKind => if stl == null then {} else stl.models.Keys
      case LstmKind => if lstm == null then {} else lstm.registered
    }

    /** The kind's detector state as a value. */
    ghost function StateOf(k: Kind): (st: DetState)
      reads this`zscore, this`stl, this`lstm, DetSet(k)
      ensures SameKind(k, st) && RegisteredIn(st) == Registered(k) && (st.NoDetector? <==> !Initialized(k))
    {
      match k
      case ZKind => if zscore == null then NoDetector else ZState(zscore.registered, zscore.stats)
      case StlKind => if stl == null then NoDetector else StlState(stl.models, stl.stats)
      case LstmKind =>
        if lstm == null then NoDetector else LstmState(lstm.registered, lstm.forecasters, lstm.thresholds, lstm.windows)
    }

    /** Kind `k` takes part in an ensemble prediction for the sensor: initialised, weighted and knowing the sensor. */
    predicate Votes(k: Kind, sid: string)
      reads this`zscore, this`stl, this`lstm, DetSet(k)
    {
      Initialized(k) && KindName(k) in config.ensembleWeights && sid in Registered(k)
    }

    /** The detector kind a sensor was trained with, if any. */
    function Route(sid: string): Option<Kind>
      reads this
    {
      if sid in sensorConfigs then Some(sensorConfigs[sid].kind) else None
    }

    /** What the kind's detector answers for the reading in the current state. */
    function DetectorPrediction(k: Kind, sid: string, reading: Value): Prediction
      reads this, DetSet(k)
      requires Initialized(k)
    {
      match k
      case ZKind =>
        ZScore.PredictOutcome(ZScore.DefaultConfig, lib, zscore.registered, zscore.stats, sid, reading).0
      case StlKind =>
        Stl.PredictOutcome(Stl.DefaultConfig, lib, stl.models, stl.stats, sid, reading).0
      case LstmKind =>
        Lstm.PredictOutcome(Lstm.DefaultConfig, lstm.registered, lstm.forecasters, lstm.thresholds, lstm.windows,
                            sid, reading).0
    }

    /** What `predict` answers in the current state. */
    function Outcome(sid: string, reading: Value): (p: Prediction)
      reads this, zscore, stl, lstm
      requires Valid()
      ensures p.category != Normal ==> p.confidence >= config.confidenceThreshold
      ensures Route(sid).None? ==> p == FallbackPrediction("No trained model")
    {
      match Route(sid)
      case None => FallbackPrediction("No trained model")
      case Some(k) => ApplyConfidenceFloor(config.confidenceThreshold, DetectorPrediction(k, sid, reading))
    }

    /** The vote a kind contributes to an ensemble: only a weighted detector that knows the sensor votes. */
    function VoteOf(k: Kind, sid: string, reading: Value): Option<Vote>
      reads this, DetSet(k)
      requires Initialized(k)
    {
      if KindName(k) in config.ensembleWeights && sid in Registered(k) then
        Some(Vote(KindName(k), DetectorPrediction(k, sid, reading)))
      else None
    }

    /** The votes `predict_ensemble` collects from the kinds `ks`, in order. */
    function EnsembleVotes(ks: seq<Kind>, sid: string, reading: Value): seq<Vote>
      reads this, zscore, stl, lstm
      requires forall k :: k in ks ==> Initialized(k)
    {
      if ks == [] then []
      else
        var rest := EnsembleVotes(ks[..|ks| - 1], sid, reading);
        match VoteOf(ks[|ks| - 1], sid, reading)
        case Some(v) => rest + [v]
        case None => rest
    }

    constructor (lib: Library, config: Config)
      ensures Valid() && this.lib == lib && this.config == config
      ensures sensorConfigs == map[] && sensorOrder == []
      ensures order == if KindOf(config.defaultDetector).Some? then [KindOf(config.defaultDetector).value] else []
      ensures forall k :: Registered(k) == {}
      ensures fresh(Repr())
    {
      this.lib := lib;
      this.config := config;
      zscore := null;
      stl := null;
      lstm := null;
      order := [];
      sensorConfigs := map[];
      sensorOrder := [];
      new;
      var _ := InitializeDetector(config.defaultDetector);
    }

    /**
     * `_initialize_detector`: a fresh detector of the named kind replaces any
     * existing one; false for an unknown name.
     */
    method InitializeDetector(name: string) returns (ok: bool)
      requires Valid()
      modifies this`zscore, this`stl, this`lstm, this`order
      ensures Valid()
      ensures ok == KindOf(name).Some?
      ensures sensorConfigs == old(sensorConfigs) && sensorOrder == old(sensorOrder)
      ensures order == if ok && KindOf(name).value !in old(order) then old(order) + [KindOf(name).value] else old(order)
      ensures name == "zscore" ==> fresh(zscore) && zscore.registered == {} && zscore.stats == map[]
      ensures name == "stl" ==> fresh(stl) && stl.models == map[] && stl.stats == map[]
      ensures name == "lstm" ==> fresh(lstm) && lstm.registered == {} && lstm.forecasters == map[]
                                 && lstm.thresholds == map[] && lstm.windows == map[]
      ensures name != "zscore" ==> zscore == old(zscore)
      ensures name != "stl" ==> stl == old(stl)
      ensures name != "lstm" ==> lstm == old(lstm)
    {
      var kind := KindOf(name);
      if kind.None? {
        return false;
      }
      match kind.value {
        case ZKind => zscore := new ZScore.ZScoreDetector(lib, ZScore.DefaultConfig);
        case StlKind => stl := new Stl.StlDetector(lib, Stl.DefaultConfig);
        case LstmKind => lstm := new Lstm.LstmDetector(lib, Lstm.DefaultConfig);
      }
      order := WithKey(order, kind.value);
      ok := true;
    }

    /** The part of `fit` after the kind is chosen: initialise the kind if needed, then train it. */
    method TrainKind(k: Kind, sid: string, readings: seq<Value>) returns (ok: bool)
      requires Valid()
      modifies this`zscore, this`stl, this`lstm, this`order, zscore, stl, lstm
      ensures Valid() && Initialized(k)
      ensures ok == KindFitAccepts(k, lib, readings)
      ensures Registered(k) == if ok then old(Registered(k)) + {sid} else old(Registered(k))
      ensures forall k' :: k' != k ==> Registered(k') == old(Registered(k'))
      ensures forall k' :: old(Initialized(k')) ==> Initialized(k')
      ensures fresh(Repr() - old(Repr()))
      ensures StateOf(k) == FittedState(k, lib, old(StateOf(k)), sid, readings)
      ensures forall k' :: k' != k ==> StateOf(k') == old(StateOf(k'))
    {
      EnsureInitialized(k);
      FittedFresh(k, lib, sid, readings);
      ok := FitKind(k, sid, readings);
    }

    /** The first step of `fit` on a kind: initialise its detector unless it already is. */
    method EnsureInitialized(k: Kind)
      requires Valid()
      modifies this`zscore, this`stl, this`lstm, this`order
      ensures Valid() && Initialized(k)
      ensures forall k' :: Registered(k') == old(Registered(k'))
      ensures forall k' :: old(Initialized(k')) ==> Initialized(k')
      ensures fresh(Repr() - old(Repr()))
      ensures StateOf(k) == if old(Initialized(k)) then old(StateOf(k)) else FreshState(k)
      ensures forall k' :: k' != k ==> StateOf(k') == old(StateOf(k'))
      ensures if old(Initialized(k)) then DetSet(k) == old(DetSet(k)) else fresh(DetSet(k))
    {
      if !Initialized(k) {
        var _ := InitializeDetector(KindName(k));
      }
    }

    /** `fit` on one kind's detector: only that detector changes. */
    method FitKind(k: Kind, sid: string, readings: seq<Value>) returns (ok: bool)
      requires DetectorsValid() && Initialized(k)
      modifies DetSet(k)
      ensures DetectorsValid()
      ensures ok == KindFitAccepts(k, lib, readings)
      ensures Registered(k) == if ok then old(Registered(k)) + {sid} else old(Registered(k))
      ensures forall k' :: k' != k ==> Registered(k') == old(Registered(k'))
      ensures StateOf(k) == FittedState(k, lib, old(StateOf(k)), sid, readings)
      ensures forall k' :: k' != k ==> StateOf(k') == old(StateOf(k'))
    {
      match k {
        case ZKind => ok := FitZScore(sid, readings);
        case StlKind => ok := FitStl(sid, readings);
        case LstmKind => ok := FitLstm(sid, readings);
      }
    }

    method FitZScore(sid: string, readings: seq<Value>) returns (ok: bool)
      requires ZScoreValid() && zscore != null
      modifies zscore
      ensures ZScoreValid()
      ensures ok == ZScore.FitAccepts(ZScore.DefaultConfig, lib, readings)
      ensures zscore.registered == if ok then old(zscore.registered) + {sid} else old(zscore.registered)
      ensures StateOf(ZKind) == FittedState(ZKind, lib, old(StateOf(ZKind)), sid, readings)
    {
      ok := zscore.Fit(sid, readings);
    }

    method FitStl(sid: string, readings: seq<Value>) returns (ok: bool)
      requires StlValid() && stl != null
      modifies stl
      ensures StlValid()
      ensures ok == Stl.FitAccepts(Stl.DefaultConfig, lib, readings)
      ensures stl.models.Keys == if ok then old(stl.models.Keys) + {sid} else old(stl.models.Keys)
      ensures StateOf(StlKind) == FittedState(StlKind, lib, old(StateOf(StlKind)), sid, readings)
    {
      ok := stl.Fit(sid, readings);
    }

    method FitLstm(sid: string, readings: seq<Value>) returns (ok: bool)
      requires LstmValid() && lstm != null
      modifies lstm
      ensures LstmValid()
      ensures ok == Lstm.FitAccepts(Lstm.DefaultConfig, lib, readings)
      ensures lstm.registered == if ok then old(lstm.registered) + {sid} else old(lstm.registered)
      ensures StateOf(LstmKind) == FittedState(LstmKind, lib, old(StateOf(LstmKind)), sid, readings)
    {
      ok := lstm.Fit(sid, readings);
    }

    /**
     * `fit`: train the chosen kind's detector and, on success, record the
     * sensor's configuration.
     */
    method Fit(sid: string, readings: seq<Value>, detectorType: Option<string>, trainedAt: string) returns (ok: bool)
      requires Valid()
      modifies this`zscore, this`stl, this`lstm, this`order, this`sensorConfigs, this`sensorOrder, zscore, stl, lstm
      ensures Valid()
      ensures ok == FitSucceeds(config, lib, readings, detectorType)
      ensures ok ==> var k := TargetKind(config, lib, readings, detectorType).value;
        sensorConfigs == old(sensorConfigs)[sid := SensorConfig(k, trainedAt, |readings|)]
        && Registered(k) == old(Registered(k)) + {sid}
      ensures !ok ==> sensorConfigs == old(sensorConfigs)
      ensures sensorOrder == if ok && sid !in old(sensorOrder) then old(sensorOrder) + [sid] else old(sensorOrder)
      ensures forall k :: TargetKind(config, lib, readings, detectorType) != Some(k) ==> Registered(k) == old(Registered(k))
      ensures !ok ==> forall k :: Registered(k) == old(Registered(k))
      ensures forall k :: old(Initialized(k)) ==> Initialized(k)
      ensures fresh(Repr() - old(Repr()))
      ensures forall k {:trigger StateOf(k)} ::
                StateOf(k) == if TargetKind(config, lib, readings, detectorType) == Some(k)
                              then FittedState(k, lib, old(StateOf(k)), sid, readings)
                              else old(StateOf(k))
    {
      var kind := TargetKind(config, lib, readings, detectorType);
      if kind.None? {
        return false;
      }
      ok := FitAs(kind.value, sid, readings, trainedAt);
    }

    /** `fit` once the kind `k` is chosen. */
    method FitAs(k: Kind, sid: string, readings: seq<Value>, trainedAt: string) returns (ok: bool)
      requires Valid()
      modifies this`zscore, this`stl, this`lstm, this`order, this`sensorConfigs, this`sensorOrder, zscore, stl, lstm
      ensures Valid()
      ensures ok == KindFitAccepts(k, lib, readings)
      ensures sensorConfigs == if ok then old(sensorConfigs)[sid := SensorConfig(k, trainedAt, |readings|)] else old(sensorConfigs)
      ensures sensorOrder == if ok && sid !in old(sensorOrder) then old(sensorOrder) + [sid] else old(sensorOrder)
      ensures Registered(k) == if ok then old(Registered(k)) + {sid} else old(Registered(k))
      ensures forall k' :: k' != k ==> Registered(k') == old(Registered(k'))
      ensures forall k' :: old(Initialized(k')) ==> Initialized(k')
      ensures fresh(Repr() - old(Repr()))
      ensures StateOf(k) == FittedState(k, lib, old(StateOf(k)), sid, readings)
      ensures forall k' :: k' != k ==> StateOf(k') == old(StateOf(k'))
    {
      ok := TrainKind(k, sid, readings);
      if ok {
        RecordSensor(sid, SensorConfig(k, trainedAt, |readings|));
      }
    }

    /** The bookkeeping of a successful `fit`: a new sensor is appended to the configuration order. */
    method RecordSensor(sid: string, sc: SensorConfig)
      requires Valid() && Initialized(sc.kind)
      modifies this`sensorConfigs, this`sensorOrder
      ensures Valid()
      ensures sensorConfigs == old(sensorConfigs)[sid := sc]
      ensures sensorOrder == if sid !in old(sensorOrder) then old(sensorOrder) + [sid] else old(sensorOrder)
      ensures zscore == old(zscore) && stl == old(stl) && lstm == old(lstm) && order == old(order)
      ensures forall k :: Registered(k) == old(Registered(k))
      ensures forall k :: StateOf(k) == old(StateOf(k))
      ensures Repr() == old(Repr())
    {
      sensorConfigs := sensorConfigs[sid := sc];
      sensorOrder := WithKey(sensorOrder, sid);
    }

    /** `predict` on one kind's detector: it answers and updates its own state only. */
    method KindPredict(k: Kind, sid: string, reading: Value) returns (q: Prediction)
      requires DetectorsValid() && Initialized(k)
      modifies DetSet(k)
      ensures DetectorsValid()
      ensures q == old(DetectorPrediction(k, sid, reading))
      ensures forall k' :: Registered(k') == old(Registered(k'))
      ensures forall k' :: k' != k ==> unchanged(DetSet(k'))
      ensures k == ZKind ==> (zscore.stats ==
        ZScore.PredictOutcome(ZScore.DefaultConfig, lib, old(zscore.registered), old(zscore.stats), sid, reading).1)
      ensures k == StlKind ==> (stl.models ==
        Stl.PredictOutcome(Stl.DefaultConfig, lib, old(stl.models), old(stl.stats), sid, reading).1)
      ensures k == LstmKind ==> (lstm.windows ==
        Lstm.PredictOutcome(Lstm.DefaultConfig, old(lstm.registered), old(lstm.forecasters),
                            old(lstm.thresholds), old(lstm.windows), sid, reading).1)
      ensures StateOf(k) == PredictedState(lib, old(StateOf(k)), sid, reading)
      ensures forall k' :: k' != k ==> StateOf(k') == old(StateOf(k'))
    {
      match k {
        case ZKind => q := PredictZScore(sid, reading);
        case StlKind => q := PredictStl(sid, reading);
        case LstmKind => q := PredictLstm(sid, reading);
      }
    }

    method PredictZScore(sid: string, reading: Value) returns (q: Prediction)
      requires ZScoreValid() && zscore != null
      modifies zscore
      ensures ZScoreValid() && zscore.registered == old(zscore.registered)
      ensures (q, zscore.stats) ==
        ZScore.PredictOutcome(ZScore.DefaultConfig, lib, old(zscore.registered), old(zscore.stats), sid, reading)
    {
      q := zscore.Predict(sid, reading);
    }

    method PredictStl(sid: string, reading: Value) returns (q: Prediction)
      requires StlValid() && stl != null
      modifies stl
      ensures StlValid() && stl.stats == old(stl.stats) && stl.models.Keys == old(stl.models.Keys)
      ensures (q, stl.models) == Stl.PredictOutcome(Stl.DefaultConfig, lib, old(stl.models), old(stl.stats), sid, reading)
    {
      q := stl.Predict(sid, reading);
    }

    method PredictLstm(sid: string, reading: Value) returns (q: Prediction)
      requires LstmValid() && lstm != null
      modifies lstm
      ensures LstmValid()
      ensures lstm.registered == old(lstm.registered) && lstm.forecasters == old(lstm.forecasters)
      ensures lstm.thresholds == old(lstm.thresholds)
      ensures (q, lstm.windows) == Lstm.PredictOutcome(Lstm.DefaultConfig, old(lstm.registered), old(lstm.forecasters),
                                                       old(lstm.thresholds), old(lstm.windows), sid, reading)
    {
      q := lstm.Predict(sid, reading);
    }

    /**
     * `predict`: the fallback for a sensor without a configuration, otherwise
     * its detector's prediction under the confidence floor; only that
     * detector's state changes, as its own `predict` changes it.
     */
    method Predict(sid: string, reading: Value) returns (p: Prediction)
      requires Valid()
      modifies zscore, stl, lstm
      ensures Valid()
      ensures p == old(Outcome(sid, reading))
      ensures forall k :: Registered(k) == old(Registered(k))
      ensures forall k :: Route(sid) != Some(k) ==> unchanged(DetSet(k))
      ensures forall k ::
                StateOf(k) == if old(Route(sid)) == Some(k)
                              then PredictedState(lib, old(StateOf(k)), sid, reading)
                              else old(StateOf(k))
    {
      if sid !in sensorConfigs {
        return FallbackPrediction("No trained model");
      }
      var q := KindPredict(sensorConfigs[sid].kind, sid, reading);
      p := ApplyConfidenceFloor(config.confidenceThreshold, q);
    }

    /**
     * The votes of the loop of `predict_ensemble`, read off the detectors
     * before any of them runs: one from each initialised kind that has a
     * weight and knows the sensor, in initialisation order.
     */
    method ReadVotes(sid: string, reading: Value) returns (votes: seq<Vote>)
      requires Valid()
      ensures votes == EnsembleVotes(order, sid, reading)
    {
      votes := [];
      for i := 0 to |order|
        invariant votes == EnsembleVotes(order[..i], sid, reading)
      {
        assert order[..i + 1][..i] == order[..i];
        var vote := VoteOf(order[i], sid, reading);
        if vote.Some? {
          votes := votes + [vote.value];
        }
      }
      assert order[..|order|] == order;
    }

    /**
     * The state changes of the loop of `predict_ensemble`: every initialised
     * kind that has a weight and knows the sensor runs its own `predict`.
     */
    method AdvanceVoters(sid: string, reading: Value)
      requires Valid()
      modifies zscore, stl, lstm
      ensures DetectorsValid()
      ensures forall k :: Registered(k) == old(Registered(k))
      ensures forall k ::
                StateOf(k) == if old(Votes(k, sid))
                              then PredictedState(lib, old(StateOf(k)), sid, reading)
                              else old(StateOf(k))
    {
      var kinds := order;
      for i := 0 to |kinds|
        invariant DetectorsValid()
        invariant forall k :: Registered(k) == old(Registered(k))
        invariant forall k ::
                    StateOf(k) == if k in kinds[..i] && old(Votes(k, sid))
                                  then PredictedState(lib, old(StateOf(k)), sid, reading)
                                  else old(StateOf(k))
      {
        var k := kinds[i];
        assert k !in kinds[..i] by {
          forall j | 0 <= j < i ensures kinds[j] != k { assert Distinct(kinds); }
        }
        AdvanceVoter(k, sid, reading);
        assert kinds[..i + 1] == kinds[..i] + [k];
      }
    }

    /** One step of the `predict_ensemble` loop: the kind `k` predicts only if it votes. */
    method AdvanceVoter(k: Kind, sid: string, reading: Value)
      requires DetectorsValid() && Initialized(k)
      modifies DetSet(k)
      ensures DetectorsValid()
      ensures forall k' :: Registered(k') == old(Registered(k'))
      ensures forall k' ::
                StateOf(k') == if k' == k && old(Votes(k, sid))
                               then PredictedState(lib, old(StateOf(k')), sid, reading)
                               else old(StateOf(k'))
    {
      if KindName(k) in config.ensembleWeights && sid in Registered(k) {
        var _ := KindPredict(k, sid, reading);
      }
    }

    /**
     * The loop of `predict_ensemble`. Each detector's answer depends only on
     * its own state and each kind runs once, so the votes are those the
     * detectors give in the state before the loop.
     */
    method CollectVotes(sid: string, reading: Value) returns (votes: seq<Vote>)
      requires Valid()
      modifies zscore, stl, lstm
      ensures Valid()
      ensures votes == old(EnsembleVotes(order, sid, reading))
      ensures forall k :: Registered(k) == old(Registered(k))
      ensures forall k ::
                StateOf(k) == if old(Votes(k, sid))
                              then PredictedState(lib, old(StateOf(k)), sid, reading)
                              else old(StateOf(k))
    {
      votes := ReadVotes(sid, reading);
      AdvanceVoters(sid, reading);
    }

    /**
     * `predict_ensemble`: plain `predict` unless ensemble mode is on;
     * otherwise the votes of every initialised detector that has a weight
     * and knows the sensor, in initialisation order, combined by weight.
     */
    method PredictEnsemble(sid: string, reading: Value) returns (p: Prediction)
      requires Valid()
      modifies zscore, stl, lstm
      ensures Valid()
      ensures !config.ensembleMode ==> p == old(Outcome(sid, reading))
      ensures config.ensembleMode ==> p == EnsembleOutcome(old(EnsembleVotes(order, sid, reading)), config.ensembleWeights)
      ensures forall k :: Registered(k) == old(Registered(k))
      ensures !config.ensembleMode ==> forall k ::
                StateOf(k) == if old(Route(sid)) == Some(k)
                              then PredictedState(lib, old(StateOf(k)), sid, reading)
                              else old(StateOf(k))
      ensures config.ensembleMode ==> forall k ::
                StateOf(k) == if old(Votes(k, sid))
                              then PredictedState(lib, old(StateOf(k)), sid, reading)
                              else old(StateOf(k))
    {
      if !config.ensembleMode {
        p := Predict(sid, reading);
      } else {
        p := EnsemblePredict(sid, reading);
      }
    }

    /** `predict_ensemble` in ensemble mode: every voter predicts, and the votes are combined by weight. */
    method EnsemblePredict(sid: string, reading: Value) returns (p: Prediction)
      requires Valid()
      modifies zscore, stl, lstm
      ensures Valid()
      ensures p == EnsembleOutcome(old(EnsembleVotes(order, sid, reading)), config.ensembleWeights)
      ensures forall k :: Registered(k) == old(Registered(k))
      ensures forall k ::
                StateOf(k) == if old(Votes(k, sid))
                              then PredictedState(lib, old(StateOf(k)), sid, reading)
                              else old(StateOf(k))
    {
      var votes := CollectVotes(sid, reading);
      if votes == [] {
        return FallbackPrediction("No ensemble predictions available");
      }
      p := CombinePredictions(votes, config.ensembleWeights);
    }

    /** The kind's `get_model_info` for the sensor. */
    function DetectorInfo(k: Kind, sid: string): (r: Option<ModelInfo>)
      reads this, DetSet(k)
      requires Initialized(k)
      ensures r.Some? <==> sid in Registered(k)
    {
      match k
      case ZKind => zscore.ModelInfo(sid)
      case StlKind => stl.ModelInfo(sid)
      case LstmKind => lstm.ModelInfo(sid)
    }

    /** `get_sensor_info`: None for an unknown sensor, otherwise its configuration and its detector's information. */
    function GetSensorInfo(sid: string): (r: Option<SensorInfo>)
      reads this, zscore, stl, lstm
      requires Valid()
      ensures r.None? <==> sid !in sensorConfigs
      ensures r.Some? ==>
        var sc := sensorConfigs[sid];
        r.value.sensorId == sid && r.value.detectorType == KindName(sc.kind)
        && r.value.trainedAt == sc.trainedAt && r.value.readingsCount == sc.readingsCount
        && (r.value.detectorInfo.Some? <==> sid in Registered(sc.kind))
    {
      if sid !in sensorConfigs then None
      else
        var sc := sensorConfigs[sid];
        Some(SensorInfo(sid, KindName(sc.kind), sc.trainedAt, sc.readingsCount, DetectorInfo(sc.kind, sid)))
    }

    /** `list_trained_sensors`: every configured sensor once, in configuration order. */
    function ListTrainedSensors(): (r: seq<string>)
      reads this, zscore, stl, lstm
      requires Valid()
      ensures Distinct(r) && forall s :: s in r <==> s in sensorConfigs
    {
      sensorOrder
    }

    /** Removal of a sensor from one kind's `sensor_models`. */
    method UnregisterKind(k: Kind, sid: string)
      requires DetectorsValid() && Initialized(k)
      modifies DetSet(k)
      ensures DetectorsValid()
      ensures Registered(k) == old(Registered(k)) - {sid}
      ensures forall k' :: k' != k ==> Registered(k') == old(Registered(k'))
    {
      match k {
        case ZKind => UnregisterZScore(sid);
        case StlKind => UnregisterStl(sid);
        case LstmKind => UnregisterLstm(sid);
      }
    }

    method UnregisterZScore(sid: string)
      requires ZScoreValid() && zscore != null
      modifies zscore
      ensures ZScoreValid() && zscore.registered == old(zscore.registered) - {sid}
    {
      if sid in zscore.registered {
        zscore.Unregister(sid);
      }
    }

    method UnregisterStl(sid: string)
      requires StlValid() && stl != null
      modifies stl
      ensures StlValid() && stl.models.Keys == old(stl.models.Keys) - {sid}
    {
      if sid in stl.models {
        stl.Unregister(sid);
      }
    }

    method UnregisterLstm(sid: string)
      requires LstmValid() && lstm != null
      modifies lstm
      ensures LstmValid() && lstm.registered == old(lstm.registered) - {sid}
    {
      if sid in lstm.registered {
        lstm.Unregister(sid);
      }
    }

    /**
     * `remove_sensor`: false for an unknown sensor; otherwise the sensor
     * leaves its detector's `sensor_models` and the configurations, and the
     * answer is whether deleting the model files raised nothing but
     * file-not-found (`filesRemovable`).
     */
    method RemoveSensor(sid: string, filesRemovable: bool) returns (ok: bool)
      requires Valid()
      modifies this, zscore, stl, lstm
      ensures Valid()
      ensures ok <==> sid in old(sensorConfigs) && filesRemovable
      ensures sensorConfigs == old(sensorConfigs) - {sid}
      ensures sensorOrder == Without(old(sensorOrder), sid)
      ensures forall k :: Registered(k) == if old(Route(sid)) == Some(k) then old(Registered(k)) - {sid} else old(Registered(k))
      ensures zscore == old(zscore) && stl == old(stl) && lstm == old(lstm) && order == old(order)
    {
      if sid !in sensorConfigs {
        assert sensorConfigs - {sid} == sensorConfigs;
        return false;
      }
      UnregisterKind(sensorConfigs[sid].kind, sid);
      ForgetSensor(sid);
      ok := filesRemovable;
    }

    /** The bookkeeping of `remove_sensor`: `del sensor_configs[sensor_id]`. */
    method ForgetSensor(sid: string)
      requires Valid()
      modifies this
      ensures Valid()
      ensures sensorConfigs == old(sensorConfigs) - {sid}
      ensures sensorOrder == Without(old(sensorOrder), sid)
      ensures zscore == old(zscore) && stl == old(stl) && lstm == old(lstm) && order == old(order)
      ensures forall k :: Registered(k) == old(Registered(k))
    {
      sensorConfigs := sensorConfigs - {sid};
      sensorOrder := Without(sensorOrder, sid);
    }
  }

  // -----------------------------------------------------------------------
  // Properties

  /** Every detector name maps back to its kind. */
  lemma KindNameRoundTrip(k: Kind)
    ensures KindOf(KindName(k)) == Some(k)
  {
  }

  /** Applying the confidence floor twice is the same as applying it once. */
  lemma ConfidenceFloorIdempotent(threshold: real, p: Prediction)
    ensures ApplyConfidenceFloor(threshold, ApplyConfidenceFloor(threshold, p)) == ApplyConfidenceFloor(threshold, p)
  {
  }

  /** Every answer of `predict` meets the confidence threshold or is normal with confidence 0.1. */
  lemma RoutedPredictionMeetsFloor(d: MLDetector, sid: string, reading: Value)
    requires d.Valid()
    ensures var p := d.Outcome(sid, reading);
      p.confidence >= d.config.confidenceThreshold || (p.category == Normal && p.confidence == 0.1)
  {
  }

  /** A sensor without a configuration (never trained, or removed) gets the fallback. */
  lemma UnconfiguredSensorFallsBack(d: MLDetector, sid: string, reading: Value)
    requires d.Valid() && sid !in d.sensorConfigs
    ensures d.Outcome(sid, reading) == FallbackPrediction("No trained model")
  {
  }

  /**
   * The ensemble's category is one some detector voted for, no category
   * outweighs it, and every vote before its first supporter has strictly
   * less weight.
   */
  lemma CombineChoosesHeaviest(votes: seq<Vote>, w: map<string, real>)
    requires |votes| > 0
    ensures var c := Combine(votes, w).category;
      (exists i :: 0 <= i < |votes| && votes[i].prediction.category == c
                   && forall j :: 0 <= j < i ==> CategoryWeight(votes, w, votes[j].prediction.category) < CategoryWeight(votes, w, c))
      && forall j :: 0 <= j < |votes| ==> CategoryWeight(votes, w, votes[j].prediction.category) <= CategoryWeight(votes, w, c)
  {
    var ws := VoteWeights(votes, w);
    var i := ArgMax(ws);
    assert votes[i].prediction.category == Combine(votes, w).category;
  }

  /** When every detector votes for the same category, the ensemble reports it. */
  lemma UnanimousVote(votes: seq<Vote>, w: map<string, real>, c: Category)
    requires |votes| > 0 && forall i :: 0 <= i < |votes| ==> votes[i].prediction.category == c
    ensures Combine(votes, w).category == c
  {
  }

  /** One step of a weighted sum keeps it above the lower bound times the total weight. */
  lemma LowerStep(t: real, s: real, x: real, c: real, lo: real, total: real, sum: real)
    requires t * lo <= s && x >= 0.0 && lo <= c
    requires total == t + x && sum == s + c * x
    ensures total * lo <= sum
  {
    assert x * (c - lo) >= 0.0;
    assert total * lo == t * lo + x * lo;
  }

  /** One step of a weighted sum keeps it below the upper bound times the total weight. */
  lemma UpperStep(t: real, s: real, x: real, c: real, hi: real, total: real, sum: real)
    requires s <= t * hi && x >= 0.0 && c <= hi
    requires total == t + x && sum == s + c * x
    ensures sum <= total * hi
  {
    assert x * (hi - c) >= 0.0;
    assert total * hi == t * hi + x * hi;
  }

  /** The totals of a non-empty vote list extend those of all but its last vote. */
  lemma LastVoteStep(votes: seq<Vote>, w: map<string, real>)
    requires votes != []
    ensures var pre, v := votes[..|votes| - 1], votes[|votes| - 1];
      TotalWeight(votes, w) == TotalWeight(pre, w) + Weight(w, v.detector) &&
      WeightedConfidence(votes, w) == WeightedConfidence(pre, w) + v.prediction.confidence * Weight(w, v.detector)
  {
  }

  /** With non-negative weights the weighted total is at least `lo` times the total weight. */
  lemma {:induction false} WeightedSumLower(votes: seq<Vote>, w: map<string, real>, lo: real)
    requires forall i :: 0 <= i < |votes| ==> Weight(w, votes[i].detector) >= 0.0
    requires forall i :: 0 <= i < |votes| ==> lo <= votes[i].prediction.confidence
    ensures TotalWeight(votes, w) * lo <= WeightedConfidence(votes, w)
  {
    if votes != [] {
      var pre := votes[..|votes| - 1];
      var v := votes[|votes| - 1];
      assert forall i :: 0 <= i < |pre| ==> pre[i] == votes[i];
      WeightedSumLower(pre, w, lo);
      LastVoteStep(votes, w);
      LowerStep(TotalWeight(pre, w), WeightedConfidence(pre, w), Weight(w, v.detector), v.prediction.confidence, lo,
                TotalWeight(votes, w), WeightedConfidence(votes, w));
    }
  }

  /** With non-negative weights the weighted total is at most `hi` times the total weight. */
  lemma {:induction false} WeightedSumUpper(votes: seq<Vote>, w: map<string, real>, hi: real)
    requires forall i :: 0 <= i < |votes| ==> Weight(w, votes[i].detector) >= 0.0
    requires forall i :: 0 <= i < |votes| ==> votes[i].prediction.confidence <= hi
    ensures WeightedConfidence(votes, w) <= TotalWeight(votes, w) * hi
  {
    if votes != [] {
      var pre := votes[..|votes| - 1];
      var v := votes[|votes| - 1];
      assert forall i :: 0 <= i < |pre| ==> pre[i] == votes[i];
      WeightedSumUpper(pre, w, hi);
      LastVoteStep(votes, w);
      UpperStep(TotalWeight(pre, w), WeightedConfidence(pre, w), Weight(w, v.detector), v.prediction.confidence, hi,
                TotalWeight(votes, w), WeightedConfidence(votes, w));
    }
  }

  /** Positive weights give a positive total weight. */
  lemma {:induction false} PositiveTotalWeight(votes: seq<Vote>, w: map<string, real>)
    requires |votes| > 0
    requires forall i :: 0 <= i < |votes| ==> Weight(w, votes[i].detector) > 0.0
    ensures TotalWeight(votes, w) > 0.0
  {
    var pre := votes[..|votes| - 1];
    if pre != [] {
      assert forall i :: 0 <= i < |pre| ==> pre[i] == votes[i];
      PositiveTotalWeight(pre, w);
    }
  }

  /**
   * With positive weights, the ensemble's confidence lies between the
   * smallest and the largest confidence of the votes.
   */
  lemma EnsembleConfidenceWithinVotes(votes: seq<Vote>, w: map<string, real>, lo: real, hi: real)
    requires |votes| > 0
    requires forall i :: 0 <= i < |votes| ==> Weight(w, votes[i].detector) > 0.0
    requires forall i :: 0 <= i < |votes| ==> lo <= votes[i].prediction.confidence <= hi
    ensures lo <= Combine(votes, w).confidence <= hi
  {
    WeightedSumLower(votes, w, lo);
    WeightedSumUpper(votes, w, hi);
    PositiveTotalWeight(votes, w);
    ScaleBounds(TotalWeight(votes, w), lo, WeightedConfidence(votes, w), hi);
  }

  /** Auto-selection never picks an advanced detector below `min_data_for_advanced` readings. */
  lemma SmallHistoriesUseZScore(c: Config, lib: Library, readings: seq<Value>)
    requires 0 < |readings| < c.minDataForAdvanced
    ensures TargetKind(c, lib, readings, None) == (if c.autoSelect then Some(ZKind) else KindOf(c.defaultDetector))
  {
  }
}

=== FILE: preprocess.dfy ===
/**
 * The consumer's `Preprocessor.validate_and_normalize`: a record is kept only
 * when it has a timestamp, a device id and the four sensor fields, each a
 * number within its inclusive range; the kept record holds exactly those
 * keys, with the sensor values rounded to three decimals.
 */
module Preprocess {
  import opened Common

  /** An entry of `expected_fields`: a sensor key and its inclusive bounds. */
  datatype FieldRange = FieldRange(name: string, lo: int, hi: int)

  /** `expected_fields`, in dictionary order. */
  const ExpectedFields: seq<FieldRange> :=
    [FieldRange("pm2_5", 0, 500), FieldRange("pm10", 0, 500), FieldRange("dBA", 30, 200), FieldRange("vibration", 0, 100)]

  // ---------------------------------------------------------------------
  // Python's round(x, 3) on exact reals

  /** The integer nearest to `y`, ties to the even neighbour. */
  function RoundHalfEven(y: real): (n: int)
    ensures n as real - 0.5 <= y <= n as real + 0.5
    ensures y == n as real - 0.5 || y == n as real + 0.5 ==> n % 2 == 0
    ensures y == y.Floor as real ==> n == y.Floor
  {
    var f := y.Floor;
    var d := y - f as real;
    if d < 0.5 then f
    else if d > 0.5 then f + 1
    else if f % 2 == 0 then f
    else f + 1
  }

  /** `round(x, 3)`: the nearest multiple of 0.001, ties to even. */
  function Round3(x: real): (r: real)
    ensures -0.0005 <= r - x <= 0.0005
    ensures (r * 1000.0).Floor as real == r * 1000.0
  {
    RoundHalfEven(x * 1000.0) as real / 1000.0
  }

  /** Rounding a rounded value changes nothing. */
  lemma Round3Idempotent(x: real)
    ensures Round3(Round3(x)) == Round3(x)
  {
    var r := Round3(x);
    assert r * 1000.0 == (r * 1000.0).Floor as real;
    assert RoundHalfEven(r * 1000.0) == (r * 1000.0).Floor;
  }

  /** Integer bounds survive rounding: a value within them rounds to a value within them. */
  lemma Round3WithinRange(x: real, lo: int, hi: int)
    requires lo as real <= x <= hi as real
    ensures lo as real <= Round3(x) <= hi as real
  {
    var y := x * 1000.0;
    var n := RoundHalfEven(y);
    assert (lo * 1000) as real <= y <= (hi * 1000) as real;
    assert lo * 1000 <= y.Floor <= hi * 1000;
    assert lo * 1000 <= n <= hi * 1000;
  }

  // ---------------------------------------------------------------------
  // validate_and_normalize

  /** The field is present, converts with `float()` and lies within its inclusive range. */
  predicate InRange(d: Dict, f: FieldRange)
  {
    f.name in d && FloatOf(d[f.name]).Some? && f.lo as real <= FloatOf(d[f.name]).value <= f.hi as real
  }

  /** The value `validate_and_normalize` keeps for an accepted field. */
  function Cleaned(d: Dict, f: FieldRange): Value
    requires InRange(d, f)
  {
    VNum(Round3(FloatOf(d[f.name]).value))
  }

  /** The first `i` fields are present, convertible and in range. */
  predicate AcceptedUpTo(d: Dict, i: nat)
    requires i <= |ExpectedFields|
  {
    forall j :: 0 <= j < i ==> InRange(d, ExpectedFields[j])
  }

  /** The loop's next field is accepted: one more field is in range. */
  lemma AcceptedOneMore(d: Dict, i: nat)
    requires i < |ExpectedFields| && AcceptedUpTo(d, i) && InRange(d, ExpectedFields[i])
    ensures AcceptedUpTo(d, i + 1)
  {
  }

  /** A field out of range rejects the whole record. */
  lemma RejectedAt(d: Dict, i: nat)
    requires i < |ExpectedFields| && !InRange(d, ExpectedFields[i])
    ensures !AcceptedUpTo(d, |ExpectedFields|)
  {
  }

  /** The names of the first `i` fields. */
  function NamesUpTo(i: nat): (ns: set<string>)
    requires i <= |ExpectedFields|
    ensures forall j :: 0 <= j < i ==> ExpectedFields[j].name in ns
  {
    if i == 0 then {} else NamesUpTo(i - 1) + {ExpectedFields[i - 1].name}
  }

  /** The cleaned record after the first `i` fields of the loop. */
  function Partial(d: Dict, i: nat): (m: Dict)
    requires "timestamp" in d && "device_id" in d
    requires i <= |ExpectedFields| && AcceptedUpTo(d, i)
    ensures m.Keys == {"timestamp", "device_id"} + NamesUpTo(i)
    ensures m["timestamp"] == d["timestamp"] && m["device_id"] == d["device_id"]
    ensures forall j :: 0 <= j < i ==> m[ExpectedFields[j].name] == Cleaned(d, ExpectedFields[j])
  {
    if i == 0 then map["timestamp" := d["timestamp"], "device_id" := d["device_id"]]
    else
      var f := ExpectedFields[i - 1];
      FieldNamesDistinct();
      Partial(d, i - 1)[f.name := Cleaned(d, f)]
  }

  /** The keys of every cleaned record. */
  const OutputKeys: set<string> := {"timestamp", "device_id", "pm2_5", "pm10", "dBA", "vibration"}

  /** What a record is accepted on: a dictionary with both identifiers and every field in range. */
  predicate Acceptable(record: Value)
  {
    record.VDict? && "timestamp" in record.entries && "device_id" in record.entries
    && AcceptedUpTo(record.entries, |ExpectedFields|)
  }

  /** The expected fields' names, in order. */
  lemma FieldNames()
    ensures |ExpectedFields| == 4
    ensures ExpectedFields[0].name == "pm2_5" && ExpectedFields[1].name == "pm10"
    ensures ExpectedFields[2].name == "dBA" && ExpectedFields[3].name == "vibration"
  {
  }

  /** The expected fields' names differ from each other and from the two identifiers. */
  lemma FieldNamesDistinct()
    ensures forall j, k :: 0 <= j < k < |ExpectedFields| ==> ExpectedFields[j].name != ExpectedFields[k].name
    ensures forall j :: 0 <= j < |ExpectedFields| ==>
      ExpectedFields[j].name != "timestamp" && ExpectedFields[j].name != "device_id"
  {
    FieldNames();
  }

  /** The identifiers and the names of all expected fields are exactly the output keys. */
  lemma OutputKeysAreAllNames()
    ensures {"timestamp", "device_id"} + NamesUpTo(|ExpectedFields|) == OutputKeys
  {
    assert NamesUpTo(1) == {"pm2_5"};
    assert NamesUpTo(2) == {"pm2_5", "pm10"};
    assert NamesUpTo(3) == {"pm2_5", "pm10", "dBA"};
    assert NamesUpTo(4) == {"pm2_5", "pm10", "dBA", "vibration"};
  }

  /**
   * The result of `validate_and_normalize`: None (a raised KeyError or
   * TypeError, a missing field, a failed `float()`, an out-of-range value)
   * or the cleaned record.
   */
  function Normalized(record: Value): (r: Option<Dict>)
    ensures r.Some? <==> Acceptable(record)
    ensures r.Some? ==> r.value.Keys == OutputKeys
    ensures r.Some? ==> r.value["timestamp"] == record.entries["timestamp"]
                        && r.value["device_id"] == record.entries["device_id"]
    ensures r.Some? ==> forall i :: 0 <= i < |ExpectedFields| ==>
      r.value[ExpectedFields[i].name] == Cleaned(record.entries, ExpectedFields[i])
  {
    if Acceptable(record) then
      OutputKeysAreAllNames();
      Some(Partial(record.entries, |ExpectedFields|))
    else None
  }

  /**
   * `validate_and_normalize`: the loop over `expected_fields` with its early
   * returns; a record that is not a dictionary raises on the first lookup.
   */
  method ValidateAndNormalize(record: Value) returns (r: Option<Dict>)
    ensures r == Normalized(record)
  {
    if !record.VDict? || "timestamp" !in record.entries || "device_id" !in record.entries {
      return None;
    }
    var d := record.entries;
    var cleaned := map["timestamp" := d["timestamp"], "device_id" := d["device_id"]];
    for i := 0 to |ExpectedFields|
      invariant AcceptedUpTo(d, i) && cleaned == Partial(d, i)
    {
      var f := ExpectedFields[i];
      if f.name !in d {
        RejectedAt(d, i);
        return None;
      }
      var value := FloatOf(d[f.name]);
      if value.None? || !(f.lo as real <= value.value <= f.hi as real) {
        RejectedAt(d, i);
        return None;
      }
      AcceptedOneMore(d, i);
      assert Partial(d, i + 1) == cleaned[f.name := VNum(Round3(value.value))];
      cleaned := cleaned[f.name := VNum(Round3(value.value))];
    }
    return Some(cleaned);
  }

  /** Every cleaned sensor value still lies within its range and is a multiple of 0.001. */
  lemma CleanedInRange(record: Value)
    requires Normalized(record).Some?
    ensures forall i :: 0 <= i < |ExpectedFields| ==>
      var v := Normalized(record).value[ExpectedFields[i].name];
      v.VNum? && ExpectedFields[i].lo as real <= v.x <= ExpectedFields[i].hi as real
      && (v.x * 1000.0).Floor as real == v.x * 1000.0
  {
    forall i | 0 <= i < |ExpectedFields|
      ensures var v := Normalized(record).value[ExpectedFields[i].name];
        v.VNum? && ExpectedFields[i].lo as real <= v.x <= ExpectedFields[i].hi as real
    {
      var f := ExpectedFields[i];
      Round3WithinRange(FloatOf(record.entries[f.name]).value, f.lo, f.hi);
    }
  }

  /** A cleaned field is accepted again and cleans to itself. */
  lemma CleanedFieldFixed(record: Value, i: nat)
    requires Normalized(record).Some? && i < |ExpectedFields|
    ensures var c := Normalized(record).value;
      InRange(c, ExpectedFields[i]) && Cleaned(c, ExpectedFields[i]) == c[ExpectedFields[i].name]
  {
    var f := ExpectedFields[i];
    var x := FloatOf(record.entries[f.name]).value;
    var c := Normalized(record).value;
    assert c[f.name] == VNum(Round3(x));
    assert FloatOf(c[f.name]) == Some(Round3(x));
    Round3WithinRange(x, f.lo, f.hi);
    Round3Idempotent(x);
  }

  /** A dictionary whose fields clean to themselves is its own cleaned record. */
  lemma PartialOfFixed(c: Dict)
    requires c.Keys == OutputKeys && AcceptedUpTo(c, |ExpectedFields|)
    requires forall i :: 0 <= i < |ExpectedFields| ==> Cleaned(c, ExpectedFields[i]) == c[ExpectedFields[i].name]
    ensures Partial(c, |ExpectedFields|) == c
  {
    PartialKeys(c);
    PartialAgrees(c, |ExpectedFields|);
  }

  /** The full partial record has exactly the output keys. */
  lemma PartialKeys(d: Dict)
    requires "timestamp" in d && "device_id" in d && AcceptedUpTo(d, |ExpectedFields|)
    ensures Partial(d, |ExpectedFields|).Keys == OutputKeys
  {
    OutputKeysAreAllNames();
  }

  /** Where every field cleans to itself, the partial record agrees with the dictionary on all its keys. */
  lemma {:induction false} PartialAgrees(c: Dict, i: nat)
    requires "timestamp" in c && "device_id" in c && i <= |ExpectedFields| && AcceptedUpTo(c, i)
    requires forall j :: 0 <= j < |ExpectedFields| ==> InRange(c, ExpectedFields[j]) ==>
      Cleaned(c, ExpectedFields[j]) == c[ExpectedFields[j].name]
    ensures forall k :: k in Partial(c, i) ==> k in c && Partial(c, i)[k] == c[k]
  {
    if i > 0 {
      PartialAgrees(c, i - 1);
    }
  }

  /** A cleaned record passes again unchanged: normalisation is idempotent. */
  lemma NormalizeIdempotent(record: Value)
    requires Normalized(record).Some?
    ensures Normalized(VDict(Normalized(record).value)) == Normalized(record)
  {
    var c := Normalized(record).value;
    forall i | 0 <= i < |ExpectedFields|
      ensures InRange(c, ExpectedFields[i]) && Cleaned(c, ExpectedFields[i]) == c[ExpectedFields[i].name]
    {
      CleanedFieldFixed(record, i);
    }
    assert Acceptable(VDict(c));
    PartialOfFixed(c);
  }

  /** The range bounds are inclusive: a record at both ends of every range is kept. */
  lemma BoundsInclusive(ts: Value, id: Value)
    ensures Normalized(VDict(map["timestamp" := ts, "device_id" := id, "pm2_5" := VNum(500.0),
                                 "pm10" := VNum(0.0), "dBA" := VNum(30.0), "vibration" := VNum(100.0)])).Some?
    ensures Normalized(VDict(map["timestamp" := ts, "device_id" := id, "pm2_5" := VNum(500.0),
                                 "pm10" := VNum(0.0), "dBA" := VNum(29.999), "vibration" := VNum(100.0)])).None?
  {
    var d := map["timestamp" := ts, "device_id" := id, "pm2_5" := VNum(500.0),
                 "pm10" := VNum(0.0), "dBA" := VNum(30.0), "vibration" := VNum(100.0)];
    assert forall i :: 0 <= i < |ExpectedFields| ==> InRange(d, ExpectedFields[i]);
    var e := d["dBA" := VNum(29.999)];
    assert !InRange(e, ExpectedFields[2]);
  }
}

=== FILE: service.dfy ===
/**
 * The decision logic of the ML service's `/api/ml/detect` endpoint: one
 * prediction per present sensor field, the persistence gate for ML
 * anomalies, the cross-sensor correlation rules and the overall assessment.
 */
module Service {
  import opened Common
  import opened MlTypes
  import opened Training

  /** The request body: the four sensor fields are optional. */
  datatype SensorReading = SensorReading(
    timestamp: string,
    deviceId: string,
    pm25: Option<real>,
    pm10: Option<real>,
    dba: Option<real>,
    vibration: Option<real>)

  /** `getattr(reading, name)` for the four sensor fields. */
  function FieldValue(r: SensorReading, name: string): Option<real>
  {
    if name == "pm2_5" then r.pm25
    else if name == "pm10" then r.pm10
    else if name == "dBA" then r.dba
    else if name == "vibration" then r.vibration
    else None
  }

  /** The fields of `names` that are not None, with their values, in the order of `names`. */
  function Present(r: SensorReading, names: seq<string>): (fs: seq<(string, real)>)
    ensures |fs| <= |names|
    ensures forall f :: f in fs <==> f.0 in names && FieldValue(r, f.0) == Some(f.1)
  {
    if names == [] then []
    else
      var init := names[..|names| - 1];
      var last := names[|names| - 1];
      assert forall n :: n in names <==> n in init || n == last;
      Present(r, init) + (match FieldValue(r, last) case Some(v) => [(last, v)] case None => [])
  }

  /** One entry of the response's `anomalies`. */
  datatype AnomalyResult = AnomalyResult(
    sensorType: string,
    category: Category,
    confidence: real,
    anomalyScore: real,
    reason: Value,
    details: map<string, Value>)

  /** The result built from a field's prediction; the reason defaults to a text naming the field. */
  function AnomalyOf(sensorType: string, p: Prediction): AnomalyResult
  {
    var reason := if "reason" in p.details then p.details["reason"] else VStr("ML analysis for " + sensorType);
    AnomalyResult(sensorType, p.category, p.confidence, p.anomalyScore, reason, p.details)
  }

  /** The results for the present fields, given the predictions made for them in order. */
  function Results(fs: seq<(string, real)>, preds: seq<Prediction>): (rs: seq<AnomalyResult>)
    requires |fs| == |preds|
    ensures |rs| == |fs|
  {
    if fs == [] then []
    else Results(fs[..|fs| - 1], preds[..|preds| - 1]) + [AnomalyOf(fs[|fs| - 1].0, preds[|preds| - 1])]
  }

  /** The ML anomaly that `save_ml_anomaly` stores. */
  datatype MlAnomalyRecord = MlAnomalyRecord(
    deviceId: string,
    sensorType: string,
    value: real,
    threshold: Value,
    severity: Category,
    reason: Value,
    details: map<string, Value>)

  /** A prediction is stored when it is not normal and its confidence is strictly above the threshold. */
  predicate Persisted(p: Prediction, threshold: real)
  {
    p.category != Normal && p.confidence > threshold
  }

  function RecordOf(deviceId: string, f: (string, real), p: Prediction): MlAnomalyRecord
  {
    var threshold := if "threshold" in p.details then p.details["threshold"] else VNum(0.0);
    MlAnomalyRecord(deviceId, f.0, f.1, threshold, p.category, AnomalyOf(f.0, p).reason, p.details)
  }

  /** The records stored for the present fields, in order. */
  function Saved(deviceId: string, fs: seq<(string, real)>, preds: seq<Prediction>, threshold: real): seq<MlAnomalyRecord>
    requires |fs| == |preds|
  {
    if fs == [] then []
    else
      var n := |fs| - 1;
      Saved(deviceId, fs[..n], preds[..n], threshold)
      + (if Persisted(preds[n], threshold) then [RecordOf(deviceId, fs[n], preds[n])] else [])
  }

  /** One entry of the response's `correlations` (its `type` is always `cross_sensor`). */
  datatype Correlation = Correlation(sensors: seq<string>, score: real, description: string)

  const PmCorrelation := Correlation(["pm2_5", "pm10"], 0.85, "High correlation between PM2.5 and PM10 readings")
  const NoiseCorrelation := Correlation(["dBA", "vibration"], 0.75, "High correlation between noise and vibration levels")

  /** Python truthiness of an optional float: present and non-zero. */
  predicate Truthy(o: Option<real>)
  {
    o.Some? && o.value != 0.0
  }

  /**
   * `analyze_correlations`. The truthiness tests are implied by the
   * comparisons, so each rule holds exactly when both values are present
   * and above their limits.
   */
  function Correlations(r: SensorReading): (cs: seq<Correlation>)
    ensures PmCorrelation in cs <==> r.pm25.Some? && r.pm10.Some? && r.pm25.value > 50.0 && r.pm10.value > 100.0
    ensures NoiseCorrelation in cs <==> r.dba.Some? && r.vibration.Some? && r.dba.value > 80.0 && r.vibration.value > 0.1
    ensures |cs| <= 2 && forall c :: c in cs ==> c == PmCorrelation || c == NoiseCorrelation
    ensures |cs| == 2 ==> cs[0] == PmCorrelation && cs[1] == NoiseCorrelation
  {
    var pm := if Truthy(r.pm25) && Truthy(r.pm10) && r.pm25.value > 50.0 && r.pm10.value > 100.0
              then [PmCorrelation] else [];
    var noise := if Truthy(r.dba) && Truthy(r.vibration) && r.dba.value > 80.0 && r.vibration.value > 0.1
                 then [NoiseCorrelation] else [];
    pm + noise
  }

  predicate HasCategory(rs: seq<AnomalyResult>, c: Category)
  {
    exists i :: 0 <= i < |rs| && rs[i].category == c
  }

  /** `sum(1 for a in anomalies if a.category == c)`. */
  function CountCategory(rs: seq<AnomalyResult>, c: Category): (n: nat)
    ensures n <= |rs|
    ensures n > 0 <==> HasCategory(rs, c)
  {
    if rs == [] then 0
    else
      var init := rs[..|rs| - 1];
      assert forall i :: 0 <= i < |init| ==> init[i] == rs[i];
      CountCategory(init, c) + (if rs[|rs| - 1].category == c then 1 else 0)
  }

  function Confidences(rs: seq<AnomalyResult>): (cs: seq<real>)
    ensures |cs| == |rs| && forall i :: 0 <= i < |rs| ==> cs[i] == rs[i].confidence
  {
    seq(|rs|, i requires 0 <= i < |rs| => rs[i].confidence)
  }

  /**
   * `calculate_overall_assessment`: alert over drift over noise over normal,
   * with the mean confidence of all results; normal and 0 when there are none.
   */
  function OverallAssessment(rs: seq<AnomalyResult>): (r: (Category, real))
    ensures rs == [] ==> r == (Normal, 0.0)
    ensures r.0 == Alert <==> HasCategory(rs, Alert)
    ensures r.0 == Drift <==> !HasCategory(rs, Alert) && HasCategory(rs, Drift)
    ensures r.0 == Noise <==> !HasCategory(rs, Alert) && !HasCategory(rs, Drift) && HasCategory(rs, Noise)
    ensures rs != [] ==> r.1 == Mean(Confidences(rs))
  {
    if rs == [] then (Normal, 0.0)
    else
      var avg := Sum(Confidences(rs)) / |rs| as real;
      if CountCategory(rs, Alert) > 0 then (Alert, avg)
      else if CountCategory(rs, Drift) > 0 then (Drift, avg)
      else if CountCategory(rs, Noise) > 0 then (Noise, avg)
      else (Normal, avg)
  }

  /** The overall confidence lies between the smallest and the largest confidence. */
  lemma OverallConfidenceBetween(rs: seq<AnomalyResult>)
    requires rs != []
    ensures MinOf(Confidences(rs)) <= OverallAssessment(rs).1 <= MaxOf(Confidences(rs))
  {
    MeanBetweenMinAndMax(Confidences(rs));
  }

  /** The response of `/api/ml/detect` (its processing time comes from the clock and is left out). */
  datatype DetectionResponse = DetectionResponse(
    anomalies: seq<AnomalyResult>,
    correlations: seq<Correlation>,
    overall: Category,
    overallConfidence: real)

  /** The reading dictionary passed to `predict` for one field. */
  function FieldReading(r: SensorReading, value: real): Value
  {
    VDict(map["timestamp" := VStr(r.timestamp), "value" := VNum(value)])
  }

  /** Every non-normal prediction reaches the confidence floor `t`. */
  predicate Floored(p: Prediction, t: real)
  {
    p.category != Normal ==> p.confidence >= t
  }

  /**
   * What the manager's `predict` can answer: the error prediction before
   * `initialize`, otherwise a prediction above the orchestrator's confidence
   * floor whenever it is not normal.
   */
  predicate Answer(p: Prediction, initialized: bool, floor: real)
  {
    if initialized then Floored(p, floor) else p == ErrorPrediction(UninitialisedError)
  }

  /** The orchestrator's confidence floor, 0 before `initialize`. */
  function Floor(tm: TrainingManager): real
    reads tm
  {
    if tm.ml == null then 0.0 else tm.ml.config.confidenceThreshold
  }

  /**
   * `detect_anomalies`: one prediction per present field, in field order;
   * the gated ones are stored. `preds` are the manager's answers in call
   * order. The results and the stored records are built after the
   * predictions; each depends only on its own field and prediction, so this
   * is the order the endpoint produces them in.
   */
  method DetectAnomalies(tm: TrainingManager, reading: SensorReading, confidenceThreshold: real)
    returns (resp: DetectionResponse, preds: seq<Prediction>, saved: seq<MlAnomalyRecord>)
    requires tm.Valid()
    modifies tm.Repr - {tm}
    ensures tm.Valid()
    ensures |preds| == |Present(reading, SensorTypes)|
    ensures resp.anomalies == Results(Present(reading, SensorTypes), preds)
    ensures saved == Saved(reading.deviceId, Present(reading, SensorTypes), preds, confidenceThreshold)
    ensures resp.correlations == Correlations(reading)
    ensures (resp.overall, resp.overallConfidence) == OverallAssessment(resp.anomalies)
    ensures forall i :: 0 <= i < |preds| ==> Answer(preds[i], tm.ml != null, Floor(tm))
  {
    var fs;
    fs, preds := PredictFields(tm, reading);
    var anomalies;
    anomalies, saved := RecordResults(reading.deviceId, fs, preds, confidenceThreshold);
    var overall := OverallAssessment(anomalies);
    resp := DetectionResponse(anomalies, Correlations(reading), overall.0, overall.1);
  }

  /** The loop of `detect_anomalies` over the four fields: a prediction for each one present. */
  method PredictFields(tm: TrainingManager, reading: SensorReading) returns (fs: seq<(string, real)>, preds: seq<Prediction>)
    requires tm.Valid()
    modifies tm.Repr - {tm}
    ensures tm.Valid()
    ensures fs == Present(reading, SensorTypes) && |preds| == |fs|
    ensures forall i :: 0 <= i < |preds| ==> Answer(preds[i], tm.ml != null, Floor(tm))
  {
    fs, preds := [], [];
    for i := 0 to |SensorTypes|
      invariant tm.Valid()
      invariant fs == Present(reading, SensorTypes[..i]) && |preds| == |fs|
      invariant forall j :: 0 <= j < |preds| ==> Answer(preds[j], tm.ml != null, Floor(tm))
    {
      var name := SensorTypes[i];
      assert SensorTypes[..i + 1][..i] == SensorTypes[..i];
      var value := FieldValue(reading, name);
      if value.Some? {
        var p := PredictField(tm, reading, name, value.value);
        fs := fs + [(name, value.value)];
        preds := preds + [p];
      }
    }
    assert SensorTypes[..|SensorTypes|] == SensorTypes;
  }

  /** The manager's answer for one field of the reading. */
  method PredictField(tm: TrainingManager, reading: SensorReading, name: string, value: real) returns (p: Prediction)
    requires tm.Valid()
    modifies tm.Repr - {tm}
    ensures tm.Valid()
    ensures Answer(p, tm.ml != null, Floor(tm))
  {
    p := tm.Predict(reading.deviceId, name, FieldReading(reading, value));
  }

  /** The appends of `detect_anomalies`: a result for every prediction, a stored record for the gated ones. */
  method RecordResults(deviceId: string, fs: seq<(string, real)>, preds: seq<Prediction>, threshold: real)
    returns (anomalies: seq<AnomalyResult>, saved: seq<MlAnomalyRecord>)
    requires |fs| == |preds|
    ensures anomalies == Results(fs, preds)
    ensures saved == Saved(deviceId, fs, preds, threshold)
  {
    anomalies, saved := [], [];
    for i := 0 to |fs|
      invariant anomalies == Results(fs[..i], preds[..i])
      invariant saved == Saved(deviceId, fs[..i], preds[..i], threshold)
    {
      assert fs[..i + 1][..i] == fs[..i] && preds[..i + 1][..i] == preds[..i];
      anomalies := anomalies + [AnomalyOf(fs[i].0, preds[i])];
      if Persisted(preds[i], threshold) {
        saved := saved + [RecordOf(deviceId, fs[i], preds[i])];
      }
    }
    assert fs[..|fs|] == fs && preds[..|preds|] == preds;
  }

  /** Every stored record is a non-normal result, and every gated result is stored. */
  lemma {:induction false} SavedExactlyGated(deviceId: string, fs: seq<(string, real)>, preds: seq<Prediction>, t: real)
    requires |fs| == |preds|
    ensures forall m :: m in Saved(deviceId, fs, preds, t) ==> m.severity != Normal && m.deviceId == deviceId
    ensures forall i :: 0 <= i < |fs| && Persisted(preds[i], t) ==> RecordOf(deviceId, fs[i], preds[i]) in Saved(deviceId, fs, preds, t)
  {
    if fs != [] {
      var n := |fs| - 1;
      SavedExactlyGated(deviceId, fs[..n], preds[..n], t);
      forall i | 0 <= i < n && Persisted(preds[i], t)
        ensures RecordOf(deviceId, fs[i], preds[i]) in Saved(deviceId, fs, preds, t)
      {
        assert fs[..n][i] == fs[i] && preds[..n][i] == preds[i];
      }
    }
  }

  /**
   * The service and the orchestrator read the same confidence threshold, so
   * a non-normal result is stored unless its confidence equals the threshold
   * exactly; before `initialize` nothing is stored.
   */
  lemma GateUnderFloor(deviceId: string, fs: seq<(string, real)>, preds: seq<Prediction>, t: real)
    requires |fs| == |preds|
    requires forall i :: 0 <= i < |preds| ==> Answer(preds[i], true, t)
    ensures forall i :: 0 <= i < |fs| && preds[i].category != Normal && preds[i].confidence != t ==>
      RecordOf(deviceId, fs[i], preds[i]) in Saved(deviceId, fs, preds, t)
  {
    SavedExactlyGated(deviceId, fs, preds, t);
  }

  /** Before `initialize` every answer is the normal error prediction, so nothing is stored. */
  lemma {:induction false} NothingSavedBeforeInitialize(deviceId: string, fs: seq<(string, real)>, preds: seq<Prediction>, t: real)
    requires |fs| == |preds|
    requires forall i :: 0 <= i < |preds| ==> Answer(preds[i], false, t)
    ensures Saved(deviceId, fs, preds, t) == []
  {
    if fs != [] {
      var n := |fs| - 1;
      assert forall i :: 0 <= i < n ==> preds[..n][i] == preds[i];
      NothingSavedBeforeInitialize(deviceId, fs[..n], preds[..n], t);
    }
  }

  /** The results name the present fields, in order, with their predictions' categories and confidences. */
  lemma {:induction false} ResultsFollowFields(fs: seq<(string, real)>, preds: seq<Prediction>)
    requires |fs| == |preds|
    ensures forall i :: 0 <= i < |fs| ==>
      Results(fs, preds)[i].sensorType == fs[i].0
      && Results(fs, preds)[i].category == preds[i].category
      && Results(fs, preds)[i].confidence == preds[i].confidence
  {
    if fs != [] {
      var n := |fs| - 1;
      ResultsFollowFields(fs[..n], preds[..n]);
      assert forall i :: 0 <= i < n ==> fs[..n][i] == fs[i] && preds[..n][i] == preds[i];
    }
  }

  /** With every field present, the results come in the order pm2_5, pm10, dBA, vibration. */
  lemma AllFieldsPresent(r: SensorReading)
    requires r.pm25.Some? && r.pm10.Some? && r.dba.Some? && r.vibration.Some?
    ensures Present(r, SensorTypes) == [("pm2_5", r.pm25.value), ("pm10", r.pm10.value),
                                       ("dBA", r.dba.value), ("vibration", r.vibration.value)]
  {
    var names := SensorTypes;
    var one := [("pm2_5", r.pm25.value)];
    var two := one + [("pm10", r.pm10.value)];
    var three := two + [("dBA", r.dba.value)];
    assert Present(r, names[..1]) == one by {
      assert names[..1][..0] == [] && names[..1][0] == "pm2_5";
    }
    assert Present(r, names[..2]) == two by {
      assert names[..2][..1] == names[..1] && names[..2][1] == "pm10";
    }
    assert Present(r, names[..3]) == three by {
      assert names[..3][..2] == names[..2] && names[..3][2] == "dBA";
    }
    assert Present(r, names) == three + [("vibration", r.vibration.value)] by {
      assert names[..3] == names[..|names| - 1] && names[3] == "vibration";
    }
  }
}

=== FILE: stl.dfy ===
/**
 * The seasonal-trend (STL) detector: it decomposes a sensor's history into
 * trend, seasonal and residual components, keeps a rolling window of recent
 * readings, and classifies a new reading by decomposing that window.
 */
module Stl {
  import opened Common
  import opened MlTypes
  import opened BaseDetector

  /**
   * The detector's configuration. The three window lengths are the
   * decomposition's parameters; the decomposition itself is the `Library`
   * parameter of the operations that need it.
   */
  datatype Config = Config(
    period: nat,
    seasonalWindow: int,
    trendWindow: int,
    lowPassWindow: int,
    residualThreshold: real,
    trendThreshold: real,
    minReadings: int,
    seasonalPeriods: int)

  const DefaultConfig := Config(24, 7, 25, 25, 2.0, 0.1, 100, 2)

  /** Configurations the model covers: a positive period and positive thresholds. */
  predicate ValidConfig(c: Config)
  {
    c.period > 0 && c.residualThreshold > 0.0 && c.trendThreshold > 0.0
  }

  /** The configuration as the detector's `config` dictionary, under the source's key names. */
  function ConfigDict(c: Config): (d: Dict)
    ensures d.Keys == {"period", "seasonal_window", "trend_window", "low_pass_window",
                       "residual_threshold", "trend_threshold", "min_readings", "seasonal_periods"}
    ensures d["period"] == VNum(c.period as real) && d["seasonal_window"] == VNum(c.seasonalWindow as real)
    ensures d["trend_window"] == VNum(c.trendWindow as real) && d["low_pass_window"] == VNum(c.lowPassWindow as real)
    ensures d["residual_threshold"] == VNum(c.residualThreshold) && d["trend_threshold"] == VNum(c.trendThreshold)
    ensures d["min_readings"] == VNum(c.minReadings as real) && d["seasonal_periods"] == VNum(c.seasonalPeriods as real)
  {
    map["period" := VNum(c.period as real), "seasonal_window" := VNum(c.seasonalWindow as real),
        "trend_window" := VNum(c.trendWindow as real), "low_pass_window" := VNum(c.lowPassWindow as real),
        "residual_threshold" := VNum(c.residualThreshold), "trend_threshold" := VNum(c.trendThreshold),
        "min_readings" := VNum(c.minReadings as real), "seasonal_periods" := VNum(c.seasonalPeriods as real)]
  }

  /** The dictionary carries the whole configuration: distinct configurations give distinct dictionaries. */
  lemma ConfigDictInjective(c1: Config, c2: Config)
    requires ConfigDict(c1) == ConfigDict(c2)
    ensures c1 == c2
  {
  }

  datatype ComponentStats = ComponentStats(mean: real, std: real, min: real, max: real)

  /** The per-sensor statistics (`sensor_stats`). */
  datatype Stats = Stats(
    trend: ComponentStats,
    seasonal: ComponentStats,
    residual: ComponentStats,
    overallMean: real,
    overallStd: real)

  /**
   * An entry of `sensor_models`: the rolling window of a trained sensor, or the
   * bare `True` that the inherited `load_model` writes over it after a load.
   */
  datatype Entry =
    | Marker
    | Window(lastValues: seq<real>, lastTimestamps: seq<Value>, totalReadings: int)

  /** A rolling window holds one timestamp per value and at most two periods of readings. */
  predicate EntryOk(c: Config, e: Entry)
  {
    e.Window? ==> |e.lastValues| == |e.lastTimestamps| <= 2 * c.period
  }

  function ComponentStatsOf(lib: Library, xs: seq<real>): (s: ComponentStats)
    requires |xs| > 0
    ensures s.min <= s.mean <= s.max
  {
    MeanBetweenMinAndMax(xs);
    ComponentStats(Mean(xs), lib.std(xs), MinOf(xs), MaxOf(xs))
  }

  /** A decomposition whose three components are non-empty, so their statistics exist. */
  predicate Usable(d: Option<Components>)
  {
    d.Some? && |d.value.trend| > 0 && |d.value.seasonal| > 0 && |d.value.resid| > 0
  }

  /** Whether `fit` accepts a list of readings. */
  predicate FitAccepts(c: Config, lib: Library, readings: seq<Value>)
  {
    ValidateInput(lib, readings)
    && |readings| >= c.minReadings
    && |readings| >= c.period * c.seasonalPeriods
    && Usable(lib.decompose(ValuesOf(lib, readings)))
  }

  /** The statistics `fit` stores: those of each component and of the whole history. */
  function TrainedStats(c: Config, lib: Library, readings: seq<Value>): (s: Stats)
    requires FitAccepts(c, lib, readings)
    ensures s.overallMean == Mean(ValuesOf(lib, readings))
    ensures s.overallStd == lib.std(ValuesOf(lib, readings))
    ensures var d := lib.decompose(ValuesOf(lib, readings)).value;
      s.trend == ComponentStatsOf(lib, d.trend) && s.seasonal == ComponentStatsOf(lib, d.seasonal)
      && s.residual == ComponentStatsOf(lib, d.resid)
    ensures s.trend.min <= s.trend.mean <= s.trend.max && s.seasonal.min <= s.seasonal.mean <= s.seasonal.max
    ensures s.residual.min <= s.residual.mean <= s.residual.max
  {
    var vs := ValuesOf(lib, readings);
    var d := lib.decompose(vs).value;
    Stats(ComponentStatsOf(lib, d.trend), ComponentStatsOf(lib, d.seasonal), ComponentStatsOf(lib, d.resid),
          Mean(vs), lib.std(vs))
  }

  /** The window `fit` stores: the newest period of readings. */
  function TrainedEntry(c: Config, lib: Library, readings: seq<Value>): (e: Entry)
    requires ValidConfig(c) && ValidateInput(lib, readings)
    ensures EntryOk(c, e) && e.Window?
    ensures e.lastValues == LastN(ValuesOf(lib, readings), c.period) && e.totalReadings == |readings|
  {
    Window(LastN(ValuesOf(lib, readings), c.period), LastN(TimestampsOf(lib, readings), c.period), |readings|)
  }

  /** `_update_window`: append the reading and drop the oldest once over two periods. */
  function UpdatedWindow(c: Config, e: Entry, value: real, ts: Value): Entry
    requires e.Window?
  {
    var vs := e.lastValues + [value];
    var tss := e.lastTimestamps + [ts];
    var full := |vs| > 2 * c.period;
    Window(if full then vs[1..] else vs, if full && tss != [] then tss[1..] else tss, e.totalReadings + 1)
  }

  datatype Verdict = Verdict(category: Category, confidence: real, score: real, details: map<string, Value>)

  function ZOf(x: real, s: ComponentStats): (z: real)
    ensures z >= 0.0
  {
    Abs((x - s.mean) / Max(s.std, 0.000001))
  }

  /** The z-score of the decomposition's latest residual against the trained residual statistics. */
  function ResidualZ(d: Components, s: Stats): real
    requires d.resid != []
  {
    ZOf(d.resid[|d.resid| - 1], s.residual)
  }

  /** `trend_slope`: the fitted slope of the newest ten trend values. */
  function TrendSlope(lib: Library, trend: seq<real>): real
    requires |trend| >= 10
  {
    lib.slope(trend[|trend| - 10..])
  }

  /** `trend_change`: the slope relative to the mean of the whole trend. */
  function TrendChange(lib: Library, trend: seq<real>): real
    requires |trend| >= 10
  {
    Abs(TrendSlope(lib, trend)) / Max(Abs(Mean(trend)), 0.000001)
  }

  /** The drift test: at least ten trend values whose change exceeds the trend threshold. */
  predicate Trending(c: Config, lib: Library, trend: seq<real>)
  {
    |trend| >= 10 && TrendChange(lib, trend) > c.trendThreshold
  }

  /** The z-score of the latest seasonal value against the trained seasonal statistics. */
  function SeasonalZ(d: Components, s: Stats): real
    requires d.seasonal != []
  {
    ZOf(d.seasonal[|d.seasonal| - 1], s.seasonal)
  }

  /** The seasonal test: at least one period of seasonal values, the latest beyond the residual threshold. */
  predicate SeasonalOutlier(c: Config, d: Components, s: Stats)
  {
    |d.seasonal| >= c.period && |d.seasonal| > 0 && SeasonalZ(d, s) > c.residualThreshold
  }

  /** The recent window is long enough and decomposes with a latest residual: the ladder runs. */
  predicate Decomposed(c: Config, lib: Library, recent: seq<real>)
  {
    |recent| >= c.period && lib.decompose(recent).Some? && lib.decompose(recent).value.resid != []
  }

  /** The keys every analysis reports. */
  function BaseDetails(value: real, s: Stats): map<string, Value>
  {
    map["value" := VNum(value), "overall_mean" := VNum(s.overallMean), "overall_std" := VNum(s.overallStd)]
  }

  /** The seasonal step and the final normal answer, adding to `details`. */
  function SeasonalVerdict(c: Config, d: Components, s: Stats, details: map<string, Value>): Verdict
    requires ValidConfig(c)
  {
    var seasonalKeys := if |d.seasonal| >= c.period && |d.seasonal| > 0 then
      details["seasonal" := VNum(d.seasonal[|d.seasonal| - 1])]["seasonal_z_score" := VNum(SeasonalZ(d, s))]
      else details;
    if SeasonalOutlier(c, d, s) then
      var score := Min(SeasonalZ(d, s) / c.residualThreshold, 1.0);
      Verdict(Noise, 0.5, score, seasonalKeys["anomaly_score" := VNum(score)])
    else Verdict(Normal, 0.8, 0.0, seasonalKeys["anomaly_score" := VNum(0.0)])
  }

  /** The trend step: drift when the trend changes too fast, otherwise the seasonal step. */
  function TrendVerdict(c: Config, lib: Library, d: Components, s: Stats, details: map<string, Value>): Verdict
    requires ValidConfig(c)
  {
    var trendKeys := if |d.trend| >= 10 then
      details["trend_slope" := VNum(TrendSlope(lib, d.trend))]["trend_change" := VNum(TrendChange(lib, d.trend))]
      else details;
    if Trending(c, lib, d.trend) then
      var score := Min(TrendChange(lib, d.trend) / c.trendThreshold, 1.0);
      Verdict(Drift, 0.6, score, trendKeys["anomaly_score" := VNum(score)])
    else SeasonalVerdict(c, d, s, trendKeys)
  }

  /** The residual steps: alert or noise on a large residual, otherwise the trend step. */
  function ResidualVerdict(c: Config, lib: Library, value: real, d: Components, s: Stats): Verdict
    requires ValidConfig(c) && d.resid != []
  {
    var rz := ResidualZ(d, s);
    var rt := c.residualThreshold;
    var details := BaseDetails(value, s)["residual" := VNum(d.resid[|d.resid| - 1])]["residual_z_score" := VNum(rz)];
    if rz > rt * 2.0 then
      var score := Min(rz / (rt * 2.0), 1.0);
      Verdict(Alert, 0.9, score, details["anomaly_score" := VNum(score)])
    else if rz > rt then
      var score := Min(rz / rt, 1.0);
      Verdict(Noise, 0.7, score, details["anomaly_score" := VNum(score)])
    else TrendVerdict(c, lib, d, s, details)
  }

  /**
   * `_analyze_components` on the updated window: None when the latest
   * residual does not exist (the call raises). A short window and a failed
   * decomposition are normal without an anomaly score; otherwise the
   * residual, trend and seasonal tests run in that order.
   */
  function Analyze(c: Config, lib: Library, value: real, recent: seq<real>, s: Stats): (r: Option<Verdict>)
    requires ValidConfig(c)
    ensures r.None? <==> |recent| >= c.period && lib.decompose(recent).Some? && lib.decompose(recent).value.resid == []
    ensures r.Some? ==> 0.0 <= r.value.score <= 1.0
    ensures r.Some? ==> "value" in r.value.details && r.value.details["value"] == VNum(value)
    ensures |recent| < c.period ==>
      r.Some? && r.value.category == Normal && r.value.confidence == 0.5 && r.value.score == 0.0
      && "anomaly_score" !in r.value.details
    ensures |recent| >= c.period && lib.decompose(recent).None? ==>
      r.Some? && r.value.category == Normal && r.value.confidence == 0.3 && r.value.score == 0.0
      && "anomaly_score" !in r.value.details
  {
    if |recent| < c.period then Some(Verdict(Normal, 0.5, 0.0, BaseDetails(value, s)))
    else match lib.decompose(recent)
      case None => Some(Verdict(Normal, 0.3, 0.0, BaseDetails(value, s)))
      case Some(d) =>
        if d.resid == [] then None
        else
          Some(ResidualVerdict(c, lib, value, d, s))
  }

  /**
   * The ladder of a decomposed window: alert above twice the residual
   * threshold, noise above it, then drift on a fast trend, seasonal noise on
   * a seasonal outlier, and normal otherwise, each with its confidence; the
   * score is reported as `anomaly_score` and is 0 for normal.
   */
  lemma AnalyzeLadder(c: Config, lib: Library, value: real, recent: seq<real>, s: Stats)
    requires ValidConfig(c) && Decomposed(c, lib, recent)
    ensures var r := Analyze(c, lib, value, recent, s);
      r.Some? && "anomaly_score" in r.value.details && r.value.details["anomaly_score"] == VNum(r.value.score)
    ensures var v := Analyze(c, lib, value, recent, s).value;
      var d := lib.decompose(recent).value; var rz := ResidualZ(d, s); var rt := c.residualThreshold;
      && "residual_z_score" in v.details && v.details["residual_z_score"] == VNum(rz)
      && (v.category == Alert <==> rz > rt * 2.0)
      && (v.category == Noise && v.confidence == 0.7 <==> rt < rz <= rt * 2.0)
      && (v.category == Drift <==> rz <= rt && Trending(c, lib, d.trend))
      && (v.category == Noise && v.confidence == 0.5 <==>
            rz <= rt && !Trending(c, lib, d.trend) && SeasonalOutlier(c, d, s))
      && (v.category == Normal <==> rz <= rt && !Trending(c, lib, d.trend) && !SeasonalOutlier(c, d, s))
    ensures var v := Analyze(c, lib, value, recent, s).value;
      && (v.category == Alert ==> v.confidence == 0.9)
      && (v.category == Noise ==> v.confidence == 0.7 || v.confidence == 0.5)
      && (v.category == Drift ==> v.confidence == 0.6)
      && (v.category == Normal ==> v.confidence == 0.8 && v.score == 0.0)
  {
    var d := lib.decompose(recent).value;
    assert Analyze(c, lib, value, recent, s) == Some(ResidualVerdict(c, lib, value, d, s));
  }

  /**
   * The keys the later steps of a decomposed window add: the trend step's
   * slope and change once the trend has ten values, and the seasonal step's
   * latest value and z-score once it has a period of values.
   */
  lemma AnalyzeDetails(c: Config, lib: Library, value: real, recent: seq<real>, s: Stats)
    requires ValidConfig(c) && Decomposed(c, lib, recent)
    ensures var v := Analyze(c, lib, value, recent, s).value; var d := lib.decompose(recent).value;
      && (ResidualZ(d, s) <= c.residualThreshold && |d.trend| >= 10 ==>
            "trend_slope" in v.details && v.details["trend_slope"] == VNum(TrendSlope(lib, d.trend))
            && "trend_change" in v.details && v.details["trend_change"] == VNum(TrendChange(lib, d.trend)))
      && (ResidualZ(d, s) <= c.residualThreshold && !Trending(c, lib, d.trend) && |d.seasonal| >= c.period ==>
            "seasonal" in v.details && v.details["seasonal"] == VNum(d.seasonal[|d.seasonal| - 1])
            && "seasonal_z_score" in v.details && v.details["seasonal_z_score"] == VNum(SeasonalZ(d, s)))
  {
    var d := lib.decompose(recent).value;
    assert Analyze(c, lib, value, recent, s) == Some(ResidualVerdict(c, lib, value, d, s));
  }

  /**
   * What `predict` returns and the models it leaves: the window is updated
   * before the analysis, so a failing analysis still leaves the new reading in it.
   */
  function PredictOutcome(c: Config, lib: Library, models: map<string, Entry>, stats: map<string, Stats>,
                          sid: string, reading: Value): (Prediction, map<string, Entry>)
    requires ValidConfig(c)
  {
    if sid !in models then (FallbackPrediction("Model not trained"), models)
    else match ValueOf(reading)
      case None => (FallbackPrediction("Prediction error"), models)
      case Some(value) =>
        if !("timestamp" in reading.entries) || sid !in stats || models[sid].Marker? then
          (FallbackPrediction("Prediction error"), models)
        else
          var e' := UpdatedWindow(c, models[sid], value, reading.entries["timestamp"]);
          match Analyze(c, lib, value, e'.lastValues, stats[sid])
          case None => (FallbackPrediction("Prediction error"), models[sid := e'])
          case Some(v) => (Prediction(v.category, v.confidence, v.score, v.details), models[sid := e'])
  }

  class StlDetector {
    const lib: Library
    const config: Config
    /** `sensor_models`: its keys are the registered sensors. */
    var models: map<string, Entry>
    /** `sensor_stats`. */
    var stats: map<string, Stats>

    ghost predicate Valid()
      reads this
    {
      ValidConfig(config) && forall k :: k in models ==> EntryOk(config, models[k])
    }

    constructor (lib: Library, config: Config)
      requires ValidConfig(config)
      ensures Valid() && this.lib == lib && this.config == config
      ensures models == map[] && stats == map[]
    {
      this.lib := lib;
      this.config := config;
      models := map[];
      stats := map[];
    }

    /** `fit`: on accepted readings, store the window and the component statistics. */
    method Fit(sid: string, readings: seq<Value>) returns (ok: bool)
      requires Valid()
      modifies this
      ensures Valid()
      ensures ok == FitAccepts(config, lib, readings)
      ensures ok ==> (models == old(models)[sid := TrainedEntry(config, lib, readings)]
                      && stats == old(stats)[sid := TrainedStats(config, lib, readings)])
      ensures !ok ==> models == old(models) && stats == old(stats)
    {
      if !FitAccepts(config, lib, readings) {
        return false;
      }
      models := models[sid := TrainedEntry(config, lib, readings)];
      stats := stats[sid := TrainedStats(config, lib, readings)];
      ok := true;
    }

    /** `predict`: update the window, then analyse a decomposition of it. */
    method Predict(sid: string, reading: Value) returns (p: Prediction)
      requires Valid()
      modifies this
      ensures Valid() && stats == old(stats) && models.Keys == old(models).Keys
      ensures (p, models) == PredictOutcome(config, lib, old(models), old(stats), sid, reading)
    {
      if sid !in models {
        return FallbackPrediction("Model not trained");
      }
      var v := ValueOf(reading);
      if v.None? || !("timestamp" in reading.entries) || sid !in stats || models[sid].Marker? {
        return FallbackPrediction("Prediction error");
      }
      var value := v.value;
      var e' := UpdatedWindow(config, models[sid], value, reading.entries["timestamp"]);
      models := models[sid := e'];
      var verdict := Analyze(config, lib, value, e'.lastValues, stats[sid]);
      if verdict.None? {
        return FallbackPrediction("Prediction error");
      }
      p := Prediction(verdict.value.category, verdict.value.confidence, verdict.value.score, verdict.value.details);
    }

    /** `save_model`: needs a registered sensor with a window and statistics. */
    method SaveModel(sid: string, writeSucceeds: bool) returns (ok: bool, implCalled: bool)
      ensures implCalled <==> sid in models
      ensures ok <==> sid in models && models[sid].Window? && sid in stats && writeSucceeds
    {
      implCalled := sid in models;
      ok := implCalled && models[sid].Window? && sid in stats && writeSucceeds;
    }

    /**
     * `load_model`: `file` holds the saved statistics, None when the file is
     * missing or unreadable. The window the implementation restores is
     * overwritten by the registration marker of the inherited `load_model`.
     */
    method LoadModel(sid: string, file: Option<map<string, Stats>>) returns (ok: bool)
      requires Valid()
      modifies this
      ensures Valid()
      ensures ok == file.Some?
      ensures models == if ok then old(models)[sid := Marker] else old(models)
      ensures stats == if ok && sid in file.value then old(stats)[sid := file.value[sid]] else old(stats)
    {
      if file.None? {
        return false;
      }
      if sid in file.value {
        stats := stats[sid := file.value[sid]];
      }
      models := models[sid := Marker];
      ok := true;
    }

    /** Removal of the sensor from `sensor_models`, as the orchestrator's `remove_sensor` does. */
    method Unregister(sid: string)
      requires Valid()
      modifies this
      ensures Valid() && stats == old(stats)
      ensures models == old(models) - {sid}
    {
      models := models - {sid};
    }

    function ModelInfo(sid: string): (r: Option<BaseDetector.ModelInfo>)
      reads this
      ensures r.Some? <==> sid in models
      ensures r.Some? ==> r.value.config == ConfigDict(config)
    {
      GetModelInfo(models.Keys, "STLDetector", ConfigDict(config), sid)
    }
  }

  // -----------------------------------------------------------------------
  // Properties

  /** The window update appends the reading and keeps at most two periods of the newest readings. */
  lemma WindowSlides(c: Config, e: Entry, value: real, ts: Value)
    requires ValidConfig(c) && e.Window? && EntryOk(c, e)
    ensures var e' := UpdatedWindow(c, e, value, ts);
      EntryOk(c, e') && e'.lastValues == LastN(e.lastValues + [value], 2 * c.period)
      && e'.totalReadings == e.totalReadings + 1
  {
  }

  /**
   * Every threshold the ladder tests is exceeded in the branch that reports it,
   * so the capped ratio is always 1 there: the score is 1 exactly for the
   * non-normal categories and 0 for normal ones.
   */
  lemma ScoreIsAllOrNothing(c: Config, lib: Library, models: map<string, Entry>, stats: map<string, Stats>,
                            sid: string, reading: Value)
    requires ValidConfig(c)
    ensures var p := PredictOutcome(c, lib, models, stats, sid, reading).0;
      (p.category == Normal ==> p.anomalyScore == 0.0) && (p.category != Normal ==> p.anomalyScore == 1.0)
  {
    if sid in models && ValueOf(reading).Some? && "timestamp" in reading.entries && sid in stats && models[sid].Window? {
      var value := ValueOf(reading).value;
      var e' := UpdatedWindow(c, models[sid], value, reading.entries["timestamp"]);
      var recent := e'.lastValues;
      if Decomposed(c, lib, recent) {
        var d := lib.decompose(recent).value;
        var rz := ResidualZ(d, stats[sid]);
        var rt := c.residualThreshold;
        RatioAboveOne(rz, rt * 2.0);
        RatioAboveOne(rz, rt);
        if |d.trend| >= 10 {
          RatioAboveOne(TrendChange(lib, d.trend), c.trendThreshold);
        }
        if SeasonalOutlier(c, d, stats[sid]) {
          RatioAboveOne(SeasonalZ(d, stats[sid]), rt);
        }
      }
    }
  }

  lemma RatioAboveOne(x: real, t: real)
    requires t > 0.0
    ensures x > t ==> Min(x / t, 1.0) == 1.0
  {
    if x > t {
      assert (x / t) * t == x;
      assert (x / t - 1.0) * t > 0.0;
    }
  }

  /**
   * After a successful `load_model`, every prediction for that sensor is the
   * fallback: the registration marker replaced the restored window.
   */
  lemma PredictAfterLoadFallsBack(c: Config, lib: Library, models: map<string, Entry>, stats: map<string, Stats>,
                                  sid: string, reading: Value)
    requires ValidConfig(c)
    ensures var p := PredictOutcome(c, lib, models[sid := Marker], stats, sid, reading).0;
      IsFallback(p) && p.category == Normal && p.confidence == 0.1
  {
  }

  /** An untrained sensor gets the fallback and nothing changes. */
  lemma UntrainedFallsBack(c: Config, lib: Library, models: map<string, Entry>, stats: map<string, Stats>,
                           sid: string, reading: Value)
    requires ValidConfig(c) && sid !in models
    ensures var (p, models') := PredictOutcome(c, lib, models, stats, sid, reading);
      IsFallback(p) && models' == models
  {
  }
}

=== FILE: training.dfy ===
/**
 * The training manager of the ML service: scheduler flags, projection of
 * stored sensor rows into training readings, periodic training of the four
 * measured quantities of every device, and key-based access to the
 * orchestrator's predictions and sensor information.
 *
 * The database is not modelled: the rows it returns are parameters, and a
 * `save_model_metadata` call is recorded by appending to `metadata`.
 */
module Training {
  import opened Common
  import opened MlTypes
  import opened Orchestrator

  /** A row of `get_sensor_data`: column name to value. */
  type Row = map<string, Value>

  /** The quantities `train_sensor_models` trains, in this order. */
  const SensorTypes: seq<string> := ["pm2_5", "pm10", "dBA", "vibration"]

  /** The accuracy recorded for every trained model. */
  const RecordedAccuracy: real := 0.85

  /** The arguments of one `save_model_metadata` call (its `config` entry is always empty). */
  datatype ModelMetadata = ModelMetadata(
    deviceId: string,
    sensorType: string,
    modelType: string,
    accuracy: real,
    readingsCount: nat)

  /** The orchestrator key of a device's quantity. */
  function SensorKey(deviceId: string, sensorType: string): (key: string)
    ensures |key| == |deviceId| + 1 + |sensorType|
    ensures key[..|deviceId|] == deviceId && key[|deviceId|] == '_' && key[|deviceId| + 1..] == sensorType
  {
    deviceId + "_" + sensorType
  }

  /** The trained quantities are told apart by their last character. */
  lemma SensorKeyInjective(d1: string, t1: string, d2: string, t2: string)
    requires t1 in SensorTypes && t2 in SensorTypes
    requires SensorKey(d1, t1) == SensorKey(d2, t2)
    ensures d1 == d2 && t1 == t2
  {
    var key := SensorKey(d1, t1);
    assert key[|key| - 1] == t1[|t1| - 1] && key[|key| - 1] == t2[|t2| - 1];
    assert t1 == t2;
    assert d1 == key[..|d1|] && d2 == key[..|d2|];
  }

  // ---------------------------------------------------------------------
  // Projection of rows into training readings

  /** A row contributes to the quantity's training data when the column is present and not None. */
  predicate Keeps(row: Row, field: string)
  {
    field in row && row[field] != VNone
  }

  /** The training reading made from a kept row. */
  function ReadingOf(row: Row, field: string): Value
    requires Keeps(row, field) && "timestamp" in row
  {
    VDict(map["timestamp" := row["timestamp"], "value" := row[field]])
  }

  /**
   * The training data of `train_single_model`, row by row: None when a kept
   * row has no `timestamp` (the lookup raises and the call gives up).
   */
  function Projected(rows: seq<Row>, field: string): Option<seq<Value>>
  {
    if rows == [] then Some([])
    else
      var row := rows[|rows| - 1];
      match Projected(rows[..|rows| - 1], field)
      case None => None
      case Some(acc) =>
        if !Keeps(row, field) then Some(acc)
        else if "timestamp" !in row then None
        else Some(acc + [ReadingOf(row, field)])
  }

  /** The rows a quantity keeps, in order. */
  function KeptRows(rows: seq<Row>, field: string): (kept: seq<Row>)
    ensures |kept| <= |rows|
    ensures forall r :: r in kept ==> r in rows && Keeps(r, field)
  {
    if rows == [] then []
    else
      var rest := KeptRows(rows[..|rows| - 1], field);
      if Keeps(rows[|rows| - 1], field) then rest + [rows[|rows| - 1]] else rest
  }

  /** Every kept row carries a timestamp. */
  predicate Timestamped(rows: seq<Row>, field: string)
  {
    forall i :: 0 <= i < |rows| && Keeps(rows[i], field) ==> "timestamp" in rows[i]
  }

  /** The readings of rows that are all kept and timestamped. */
  function Readings(kept: seq<Row>, field: string): (r: seq<Value>)
    requires forall i :: 0 <= i < |kept| ==> Keeps(kept[i], field) && "timestamp" in kept[i]
    ensures |r| == |kept|
    ensures forall i :: 0 <= i < |kept| ==> r[i] == ReadingOf(kept[i], field)
  {
    if kept == [] then [] else Readings(kept[..|kept| - 1], field) + [ReadingOf(kept[|kept| - 1], field)]
  }

  /** The projection succeeds exactly when every kept row carries a timestamp. */
  lemma {:induction false} ProjectionSucceedsWhenTimestamped(rows: seq<Row>, field: string)
    ensures Projected(rows, field).Some? <==> Timestamped(rows, field)
    decreases |rows|
  {
    if rows != [] {
      var init := rows[..|rows| - 1];
      ProjectionSucceedsWhenTimestamped(init, field);
      assert forall i :: 0 <= i < |init| ==> init[i] == rows[i];
    }
  }

  /** The projection is filter-then-map: one reading per kept row, in order. */
  lemma {:induction false} ProjectionIsFilterThenMap(rows: seq<Row>, field: string)
    requires Projected(rows, field).Some?
    ensures forall r :: r in KeptRows(rows, field) ==> "timestamp" in r
    ensures Projected(rows, field).value == Readings(KeptRows(rows, field), field)
    decreases |rows|
  {
    if rows != [] {
      var init := rows[..|rows| - 1];
      ProjectionIsFilterThenMap(init, field);
      var kept, keptInit := KeptRows(rows, field), KeptRows(init, field);
      assert kept == keptInit || kept == keptInit + [rows[|rows| - 1]];
      assert forall r :: r in kept ==> r in keptInit || r == rows[|rows| - 1];
      if kept != keptInit {
        assert kept[..|kept| - 1] == keptInit;
      }
    }
  }

  /** The projection keeps at most one reading per row, each with exactly the two keys. */
  lemma {:induction false} ProjectionShape(rows: seq<Row>, field: string)
    requires Projected(rows, field).Some?
    ensures |Projected(rows, field).value| <= |rows|
    ensures forall v :: v in Projected(rows, field).value ==>
      v.VDict? && v.entries.Keys == {"timestamp", "value"} && v.entries["value"] != VNone
  {
    ProjectionIsFilterThenMap(rows, field);
    var kept := KeptRows(rows, field);
    forall v | v in Projected(rows, field).value
      ensures v.VDict? && v.entries.Keys == {"timestamp", "value"} && v.entries["value"] != VNone
    {
      var i :| 0 <= i < |kept| && v == Readings(kept, field)[i];
      assert kept[i] in kept;
    }
  }

  /** The row loop of `train_single_model`. */
  method ProjectRows(rows: seq<Row>, field: string) returns (data: Option<seq<Value>>)
    ensures data == Projected(rows, field)
  {
    var acc: seq<Value> := [];
    var i := 0;
    while i < |rows|
      invariant 0 <= i <= |rows|
      invariant Projected(rows[..i], field) == Some(acc)
    {
      var row := rows[i];
      assert rows[..i + 1][..i] == rows[..i];
      if Keeps(row, field) {
        if "timestamp" !in row {
          ProjectionFailurePersists(rows, field, i + 1);
          return None;
        }
        acc := acc + [ReadingOf(row, field)];
      }
      i := i + 1;
    }
    assert rows[..|rows|] == rows;
    data := Some(acc);
  }

  /** Once a prefix fails to project, every longer prefix fails too. */
  lemma {:induction false} ProjectionFailurePersists(rows: seq<Row>, field: string, i: nat)
    requires i <= |rows| && Projected(rows[..i], field).None?
    ensures Projected(rows, field).None?
    decreases |rows| - i
  {
    if i < |rows| {
      assert rows[..i + 1][..i] == rows[..i];
      ProjectionFailurePersists(rows, field, i + 1);
    } else {
      assert rows[..i] == rows;
    }
  }

  // ---------------------------------------------------------------------
  // What training records

  /** `train_single_model` reaches the `fit` call: the projection succeeded with enough readings. */
  predicate Attempts(minData: int, field: string, rows: seq<Row>)
  {
    Projected(rows, field).Some? && |Projected(rows, field).value| >= minData
  }

  /** The metadata one `train_single_model` call saves with an orchestrator of this configuration. */
  function SingleOutcome(c: Config, lib: Library, minData: int, deviceId: string, field: string, rows: seq<Row>): seq<ModelMetadata>
  {
    if Attempts(minData, field, rows) && FitSucceeds(c, lib, Projected(rows, field).value, None) then
      var data := Projected(rows, field).value;
      [ModelMetadata(deviceId, field, KindName(TargetKind(c, lib, data, None).value), RecordedAccuracy, |data|)]
    else []
  }

  /** The metadata saved by training the quantities `fields` in order. */
  function FieldsOutcome(c: Config, lib: Library, minData: int, deviceId: string, fields: seq<string>, rows: seq<Row>): seq<ModelMetadata>
  {
    if fields == [] then []
    else
      FieldsOutcome(c, lib, minData, deviceId, fields[..|fields| - 1], rows)
      + SingleOutcome(c, lib, minData, deviceId, fields[|fields| - 1], rows)
  }

  /** The metadata `train_sensor_models` saves for one device. */
  function DeviceOutcome(c: Config, lib: Library, minData: int, deviceId: string, rows: seq<Row>): seq<ModelMetadata>
  {
    if |rows| < minData then [] else FieldsOutcome(c, lib, minData, deviceId, SensorTypes, rows)
  }

  /**
   * Metadata is saved only for a successful fit: it names the device and a
   * trained quantity, the chosen detector kind, accuracy 0.85 and at least
   * the minimum number of readings; each quantity is saved at most once.
   */
  lemma {:induction false} FieldsOutcomeEntries(c: Config, lib: Library, minData: int, deviceId: string, fields: seq<string>, rows: seq<Row>)
    ensures |FieldsOutcome(c, lib, minData, deviceId, fields, rows)| <= |fields|
    ensures forall e :: e in FieldsOutcome(c, lib, minData, deviceId, fields, rows) ==>
      e.deviceId == deviceId && e.sensorType in fields && e.accuracy == RecordedAccuracy
      && e.readingsCount >= minData && e.modelType in {"zscore", "stl", "lstm"}
      && Attempts(minData, e.sensorType, rows)
      && FitSucceeds(c, lib, Projected(rows, e.sensorType).value, None)
    decreases |fields|
  {
    if fields != [] {
      var init := fields[..|fields| - 1];
      FieldsOutcomeEntries(c, lib, minData, deviceId, init, rows);
      assert forall t :: t in init ==> t in fields;
    }
  }

  // ---------------------------------------------------------------------
  // The manager

  /** The answer of `predict` when the orchestrator call raises. */
  function ErrorPrediction(error: string): (p: Prediction)
    ensures p.category == Normal && p.confidence == 0.1 && p.anomalyScore == 0.0
    ensures p.details == map["error" := VStr(error)]
  {
    Prediction(Normal, 0.1, 0.0, map["error" := VStr(error)])
  }

  /** The error text when `predict` is called before `initialize`. */
  const UninitialisedError := "'NoneType' object has no attribute 'predict'"

  class TrainingManager {
    /** `MIN_TRAINING_DATA` from the environment. */
    const minTrainingData: int
    /** `ml_detector`: null until `initialize`. */
    var ml: MLDetector?
    var isRunning: bool
    /** Whether `training_task` holds a task. */
    var hasTask: bool
    /** The `save_model_metadata` calls made so far, in order. */
    var metadata: seq<ModelMetadata>

    /** The manager, its orchestrator and the orchestrator's detectors. */
    ghost var Repr: set<object>

    ghost predicate Valid()
      reads this, Repr
    {
      this in Repr && (ml != null ==> ml in Repr && ml.Repr() <= Repr && ml.Valid())
    }

    constructor (minTrainingData: int)
      ensures Valid()
      ensures this.minTrainingData == minTrainingData
      ensures ml == null && !isRunning && !hasTask && metadata == []
    {
      this.minTrainingData := minTrainingData;
      ml := null;
      isRunning := false;
      hasTask := false;
      metadata := [];
      Repr := {this};
    }

    /**
     * `initialize`: a new orchestrator with the environment's settings; the
     * ensemble settings keep their defaults.
     */
    method Initialize(lib: Library, defaultDetector: string, autoSelect: bool, confidenceThreshold: real)
      modifies this
      ensures Valid() && fresh(Repr - {this})
      ensures ml != null && ml.lib == lib
      ensures ml.config == Config(defaultDetector, autoSelect, minTrainingData, confidenceThreshold,
                                  DefaultConfig.ensembleMode, DefaultConfig.ensembleWeights)
      ensures ml.sensorConfigs == map[]
      ensures isRunning == old(isRunning) && hasTask == old(hasTask) && metadata == old(metadata)
    {
      var config := Config(defaultDetector, autoSelect, minTrainingData, confidenceThreshold,
                           DefaultConfig.ensembleMode, DefaultConfig.ensembleWeights);
      ml := new MLDetector(lib, config);
      Repr := {this, ml} + ml.Repr();
    }

    /** `start_training_scheduler`: a second start changes nothing. */
    method StartScheduler()
      modifies this
      ensures isRunning
      ensures old(isRunning) ==> hasTask == old(hasTask)
      ensures !old(isRunning) ==> hasTask
      ensures ml == old(ml) && metadata == old(metadata)
    {
      if isRunning {
        return;
      }
      isRunning := true;
      hasTask := true;
    }

    /** `stop_training_scheduler`: clears the flag; the cancelled task stays referenced. */
    method StopScheduler()
      modifies this
      ensures !isRunning
      ensures hasTask == old(hasTask)
      ensures ml == old(ml) && metadata == old(metadata)
    {
      if !isRunning {
        return;
      }
      isRunning := false;
    }

    /**
     * `train_single_model`: project the rows, give up below the minimum,
     * otherwise fit the key `device_type` and, after a successful fit, save
     * the metadata of the sensor's information.
     */
    method TrainSingleModel(deviceId: string, sensorType: string, rows: seq<Row>, now: string)
      requires Valid()
      modifies Repr
      ensures Valid() && ml == old(ml) && isRunning == old(isRunning) && hasTask == old(hasTask)
      ensures fresh(Repr - old(Repr))
      ensures metadata == old(metadata) +
        (if ml == null then [] else SingleOutcome(ml.config, ml.lib, minTrainingData, deviceId, sensorType, rows))
      ensures ml != null && !Attempts(minTrainingData, sensorType, rows) ==> unchanged(ml) && unchanged(ml.Repr())
      ensures ml != null ==>
        ml.sensorConfigs.Keys == old(ml.sensorConfigs.Keys) +
          (if SingleOutcome(ml.config, ml.lib, minTrainingData, deviceId, sensorType, rows) == [] then {}
           else {SensorKey(deviceId, sensorType)})
    {
      var data := ProjectRows(rows, sensorType);
      if data.None? || |data.value| < minTrainingData || ml == null {
        return;
      }
      FitAndRecord(deviceId, sensorType, data.value, now);
    }

    /** The part of `train_single_model` from the `fit` call on. */
    method FitAndRecord(deviceId: string, sensorType: string, data: seq<Value>, now: string)
      requires Valid() && ml != null
      modifies Repr
      ensures Valid() && ml == old(ml) && isRunning == old(isRunning) && hasTask == old(hasTask)
      ensures fresh(Repr - old(Repr))
      ensures metadata == old(metadata) +
        (if FitSucceeds(ml.config, ml.lib, data, None) then
           [ModelMetadata(deviceId, sensorType, KindName(TargetKind(ml.config, ml.lib, data, None).value), RecordedAccuracy, |data|)]
         else [])
      ensures ml.sensorConfigs.Keys == old(ml.sensorConfigs.Keys) +
        (if FitSucceeds(ml.config, ml.lib, data, None) then {SensorKey(deviceId, sensorType)} else {})
    {
      var key := SensorKey(deviceId, sensorType);
      var ok := FitSensor(key, data, now);
      if ok {
        RecordMetadata(deviceId, sensorType, key, |data|);
      }
    }

    /** Append the metadata entry, with the detector type `get_sensor_info` reports, when the sensor is configured. */
    method RecordMetadata(deviceId: string, sensorType: string, key: string, count: nat)
      requires Valid() && ml != null
      modifies this`metadata
      ensures Valid()
      ensures metadata == old(metadata) +
        (if key in ml.sensorConfigs
         then [ModelMetadata(deviceId, sensorType, KindName(ml.sensorConfigs[key].kind), RecordedAccuracy, count)]
         else [])
    {
      var info := ml.GetSensorInfo(key);
      if info.Some? {
        metadata := metadata + [ModelMetadata(deviceId, sensorType, info.value.detectorType, RecordedAccuracy, count)];
      }
    }

    /** The orchestrator's `fit` with the key; the detectors it creates join the footprint. */
    method FitSensor(key: string, data: seq<Value>, now: string) returns (ok: bool)
      requires Valid() && ml != null
      modifies Repr
      ensures Valid() && ml == old(ml) && isRunning == old(isRunning) && hasTask == old(hasTask)
      ensures metadata == old(metadata) && fresh(Repr - old(Repr))
      ensures ok == FitSucceeds(ml.config, ml.lib, data, None)
      ensures ml.sensorConfigs.Keys == old(ml.sensorConfigs.Keys) + (if ok then {key} else {})
      ensures ok ==> key in ml.sensorConfigs && ml.sensorConfigs[key].kind == TargetKind(ml.config, ml.lib, data, None).value
    {
      ok := ml.Fit(key, data, None, now);
      Repr := Repr + ml.Repr();
    }

    /** `train_sensor_models`: the four quantities in order, when the device has enough rows. */
    method TrainSensorModels(deviceId: string, rows: seq<Row>, now: string)
      requires Valid()
      modifies Repr
      ensures Valid() && ml == old(ml) && isRunning == old(isRunning) && hasTask == old(hasTask)
      ensures fresh(Repr - old(Repr))
      ensures metadata == old(metadata) +
        (if ml == null then [] else DeviceOutcome(ml.config, ml.lib, minTrainingData, deviceId, rows))
      ensures ml != null ==> old(ml.sensorConfigs.Keys) <= ml.sensorConfigs.Keys
      ensures ml != null && |rows| < minTrainingData ==> ml.sensorConfigs == old(ml.sensorConfigs)
    {
      if |rows| < minTrainingData {
        return;
      }
      TrainFields(SensorTypes, deviceId, rows, now);
    }

    /** The loop of `train_sensor_models` over the quantities `fields`. */
    method TrainFields(fields: seq<string>, deviceId: string, rows: seq<Row>, now: string)
      requires Valid()
      modifies Repr
      ensures Valid() && ml == old(ml) && isRunning == old(isRunning) && hasTask == old(hasTask)
      ensures fresh(Repr - old(Repr))
      ensures metadata == old(metadata) +
        (if ml == null then [] else FieldsOutcome(ml.config, ml.lib, minTrainingData, deviceId, fields, rows))
      ensures ml != null ==> old(ml.sensorConfigs.Keys) <= ml.sensorConfigs.Keys
    {
      var i := 0;
      while i < |fields|
        invariant 0 <= i <= |fields|
        invariant Valid() && ml == old(ml) && isRunning == old(isRunning) && hasTask == old(hasTask)
        invariant fresh(Repr - old(Repr))
        invariant ml == null ==> metadata == old(metadata)
        invariant ml != null ==>
          metadata == old(metadata) + FieldsOutcome(ml.config, ml.lib, minTrainingData, deviceId, fields[..i], rows)
        invariant ml != null ==> old(ml.sensorConfigs.Keys) <= ml.sensorConfigs.Keys
      {
        TrainField(fields, i, deviceId, rows, now, old(metadata));
        i := i + 1;
      }
      assert fields[..|fields|] == fields;
    }

    /** One iteration of the loop of `train_sensor_models`: the quantity `fields[i]`. */
    method TrainField(fields: seq<string>, i: nat, deviceId: string, rows: seq<Row>, now: string, ghost base: seq<ModelMetadata>)
      requires Valid() && i < |fields|
      requires ml == null ==> metadata == base
      requires ml != null ==> metadata == base + FieldsOutcome(ml.config, ml.lib, minTrainingData, deviceId, fields[..i], rows)
      modifies Repr
      ensures Valid() && ml == old(ml) && isRunning == old(isRunning) && hasTask == old(hasTask)
      ensures fresh(Repr - old(Repr))
      ensures ml == null ==> metadata == base
      ensures ml != null ==> metadata == base + FieldsOutcome(ml.config, ml.lib, minTrainingData, deviceId, fields[..i + 1], rows)
      ensures ml != null ==> old(ml.sensorConfigs.Keys) <= ml.sensorConfigs.Keys
    {
      ghost var before := metadata;
      TrainSingleModel(deviceId, fields[i], rows, now);
      if ml != null {
        ghost var done := FieldsOutcome(ml.config, ml.lib, minTrainingData, deviceId, fields[..i], rows);
        ghost var added := SingleOutcome(ml.config, ml.lib, minTrainingData, deviceId, fields[i], rows);
        assert before == base + done && metadata == before + added;
        FieldsOutcomeStep(ml.config, ml.lib, minTrainingData, deviceId, fields, i, rows);
        AppendAssociates(base, done, added);
      }
    }

    /** `train_all_models`: every device the database reports, with the rows it returns for that device. */
    method TrainAllModels(devices: seq<(string, seq<Row>)>, now: string)
      requires Valid()
      modifies Repr
      ensures Valid() && ml == old(ml) && isRunning == old(isRunning) && hasTask == old(hasTask)
      ensures fresh(Repr - old(Repr))
      ensures metadata == old(metadata) + (if ml == null then [] else AllOutcome(ml.config, ml.lib, minTrainingData, devices))
    {
      var i := 0;
      while i < |devices|
        invariant 0 <= i <= |devices|
        invariant Valid() && ml == old(ml) && isRunning == old(isRunning) && hasTask == old(hasTask)
        invariant fresh(Repr - old(Repr))
        invariant ml == null ==> metadata == old(metadata)
        invariant ml != null ==> metadata == old(metadata) + AllOutcome(ml.config, ml.lib, minTrainingData, devices[..i])
      {
        ghost var before := metadata;
        TrainSensorModels(devices[i].0, devices[i].1, now);
        if ml != null {
          ghost var done := AllOutcome(ml.config, ml.lib, minTrainingData, devices[..i]);
          ghost var added := DeviceOutcome(ml.config, ml.lib, minTrainingData, devices[i].0, devices[i].1);
          assert before == old(metadata) + done && metadata == before + added;
          AllOutcomeStep(ml.config, ml.lib, minTrainingData, devices, i);
          AppendAssociates(old(metadata), done, added);
        }
        i := i + 1;
      }
      assert devices[..|devices|] == devices;
    }

    /** `retrain_model`: false without enough rows, otherwise one `train_single_model` and true. */
    method RetrainModel(deviceId: string, sensorType: string, rows: seq<Row>, now: string) returns (ok: bool)
      requires Valid()
      modifies Repr
      ensures Valid() && ml == old(ml) && isRunning == old(isRunning) && hasTask == old(hasTask)
      ensures fresh(Repr - old(Repr))
      ensures ok <==> |rows| >= minTrainingData
      ensures metadata == old(metadata) +
        (if !ok || ml == null then [] else SingleOutcome(ml.config, ml.lib, minTrainingData, deviceId, sensorType, rows))
    {
      if |rows| < minTrainingData {
        return false;
      }
      TrainSingleModel(deviceId, sensorType, rows, now);
      ok := true;
    }

    /** `get_model_info`: the orchestrator's information under the sensor key, None before `initialize`. */
    function GetModelInfo(deviceId: string, sensorType: string): (r: Option<SensorInfo>)
      reads this, Repr
      requires Valid()
      ensures ml == null ==> r.None?
      ensures ml != null ==> (r.Some? <==> SensorKey(deviceId, sensorType) in ml.sensorConfigs)
      ensures r.Some? ==> r.value.sensorId == SensorKey(deviceId, sensorType)
    {
      if ml == null then None else ml.GetSensorInfo(SensorKey(deviceId, sensorType))
    }

    /** `predict`: the orchestrator's prediction under the sensor key, or the error answer before `initialize`. */
    method Predict(deviceId: string, sensorType: string, reading: Value) returns (p: Prediction)
      requires Valid()
      modifies Repr - {this}
      ensures Valid()
      ensures ml == null ==> p == ErrorPrediction(UninitialisedError)
      ensures ml != null ==> p == old(ml.Outcome(SensorKey(deviceId, sensorType), reading))
    {
      if ml == null {
        return ErrorPrediction(UninitialisedError);
      }
      p := ml.Predict(SensorKey(deviceId, sensorType), reading);
    }
  }

  /** The metadata `train_all_models` saves for the devices in order. */
  function AllOutcome(c: Config, lib: Library, minData: int, devices: seq<(string, seq<Row>)>): seq<ModelMetadata>
  {
    if devices == [] then []
    else
      var last := devices[|devices| - 1];
      AllOutcome(c, lib, minData, devices[..|devices| - 1]) + DeviceOutcome(c, lib, minData, last.0, last.1)
  }

  lemma FieldsOutcomeStep(c: Config, lib: Library, minData: int, deviceId: string, fields: seq<string>, i: nat, rows: seq<Row>)
    requires i < |fields|
    ensures FieldsOutcome(c, lib, minData, deviceId, fields[..i + 1], rows)
      == FieldsOutcome(c, lib, minData, deviceId, fields[..i], rows) + SingleOutcome(c, lib, minData, deviceId, fields[i], rows)
  {
    assert fields[..i + 1][..i] == fields[..i];
  }

  lemma AllOutcomeStep(c: Config, lib: Library, minData: int, devices: seq<(string, seq<Row>)>, i: nat)
    requires i < |devices|
    ensures AllOutcome(c, lib, minData, devices[..i + 1])
      == AllOutcome(c, lib, minData, devices[..i]) + DeviceOutcome(c, lib, minData, devices[i].0, devices[i].1)
  {
    assert devices[..i + 1][..i] == devices[..i];
  }
}

=== FILE: zscore.dfy ===
/**
 * The Z-score detector: per-sensor rolling statistics, a reading's distance
 * from the mean in standard deviations, and a ladder that turns that
 * distance and the recent window into a category.
 */
module ZScore {
  import opened Common
  import opened MlTypes
  import opened BaseDetector

  datatype Config = Config(
    windowSize: nat,
    zThreshold: real,
    driftThreshold: real,
    noiseThreshold: real,
    minReadings: int)

  const DefaultConfig := Config(50, 3.0, 0.1, 0.05, 10)

  /** Configurations the model covers: a non-empty window and a positive outlier threshold. */
  predicate ValidConfig(c: Config)
  {
    c.windowSize > 0 && c.zThreshold > 0.0
  }

  /** The configuration as the detector's `config` dictionary, under the source's key names. */
  function ConfigDict(c: Config): (d: Dict)
    ensures d.Keys == {"window_size", "z_threshold", "drift_threshold", "noise_threshold", "min_readings"}
    ensures d["window_size"] == VNum(c.windowSize as real) && d["z_threshold"] == VNum(c.zThreshold)
    ensures d["drift_threshold"] == VNum(c.driftThreshold) && d["noise_threshold"] == VNum(c.noiseThreshold)
    ensures d["min_readings"] == VNum(c.minReadings as real)
  {
    map["window_size" := VNum(c.windowSize as real), "z_threshold" := VNum(c.zThreshold),
        "drift_threshold" := VNum(c.driftThreshold), "noise_threshold" := VNum(c.noiseThreshold),
        "min_readings" := VNum(c.minReadings as real)]
  }

  /** The dictionary carries the whole configuration: distinct configurations give distinct dictionaries. */
  lemma ConfigDictInjective(c1: Config, c2: Config)
    requires ConfigDict(c1) == ConfigDict(c2)
    ensures c1 == c2
  {
  }

  /** The statistics kept for one sensor. */
  datatype Stats = Stats(
    mean: real,
    std: real,
    min: real,
    max: real,
    lastValues: seq<real>,
    lastTimestamps: seq<Value>,
    totalReadings: int)

  /** The rolling window holds one timestamp per value and never more than the window size. */
  predicate WindowOk(c: Config, s: Stats)
  {
    |s.lastValues| == |s.lastTimestamps| <= c.windowSize
  }

  /** Whether `fit` accepts a list of readings. */
  predicate FitAccepts(c: Config, lib: Library, readings: seq<Value>)
  {
    ValidateInput(lib, readings) && |readings| >= c.minReadings
  }

  /** The statistics `fit` stores: whole-history moments and the newest window of readings. */
  function TrainedStats(c: Config, lib: Library, readings: seq<Value>): (s: Stats)
    requires ValidConfig(c) && ValidateInput(lib, readings)
    ensures WindowOk(c, s) && |s.lastValues| == Min(|readings| as real, c.windowSize as real) as int
    ensures s.lastValues == LastN(ValuesOf(lib, readings), c.windowSize)
    ensures s.totalReadings == |readings|
    ensures s.min <= s.mean <= s.max
  {
    var vs := ValuesOf(lib, readings);
    MeanBetweenMinAndMax(vs);
    Stats(Mean(vs), lib.std(vs), MinOf(vs), MaxOf(vs),
          LastN(vs, c.windowSize), LastN(TimestampsOf(lib, readings), c.windowSize), |vs|)
  }

  /** `_update_stats`: append the reading, drop the oldest once over the window, recompute. */
  function UpdatedStats(c: Config, lib: Library, s: Stats, value: real, ts: Value): Stats
    requires ValidConfig(c)
  {
    var vs := s.lastValues + [value];
    var tss := s.lastTimestamps + [ts];
    var full := |vs| > c.windowSize;
    var vs' := if full then vs[1..] else vs;
    var tss' := if full && tss != [] then tss[1..] else tss;
    s.(mean := Mean(vs'), std := lib.std(vs'), lastValues := vs', lastTimestamps := tss',
       totalReadings := s.totalReadings + 1)
  }

  /** Distance of a value from the mean in standard deviations; 0 when the deviation is not positive. */
  function ZScoreOf(value: real, s: Stats): (z: real)
    ensures z >= 0.0
    ensures s.std <= 0.0 ==> z == 0.0
  {
    if s.std > 0.0 then Abs((value - s.mean) / s.std) else 0.0
  }

  /** The anomaly score `min(z / z_threshold, 1.0)`: in [0, 1], 1 exactly from the threshold on, 0 exactly for a zero z-score. */
  function Score(c: Config, z: real): (r: real)
    requires ValidConfig(c) && z >= 0.0
    ensures 0.0 <= r <= 1.0
    ensures r == 1.0 <==> z >= c.zThreshold
    ensures r == 0.0 <==> z == 0.0
  {
    Min(z / c.zThreshold, 1.0)
  }

  datatype Verdict = Verdict(category: Category, confidence: real, details: map<string, Value>)

  /** Neither outlier test fires: `z` is within the threshold and within twice it. */
  predicate WithinThreshold(c: Config, z: real)
  {
    z <= c.zThreshold && z <= c.zThreshold * 2.0
  }

  /** `drift_ratio`: the mean of the newest ten values against the stored mean, relative to it. */
  function DriftRatio(s: Stats): real
    requires |s.lastValues| >= 10
  {
    var n := |s.lastValues|;
    Abs(Mean(s.lastValues[n - 10..]) - s.mean) / Max(Abs(s.mean), 0.000001)
  }

  /** The drift test: at least ten values and a drift ratio above the drift threshold. */
  predicate Drifting(c: Config, s: Stats)
  {
    |s.lastValues| >= 10 && DriftRatio(s) > c.driftThreshold
  }

  /** The deviation of the newest five values. */
  function RecentStd(lib: Library, s: Stats): real
    requires |s.lastValues| >= 5
  {
    lib.std(s.lastValues[|s.lastValues| - 5..])
  }

  /** The variance test: at least five values whose deviation exceeds the stored one by the noise margin. */
  predicate Jittery(c: Config, lib: Library, s: Stats)
  {
    |s.lastValues| >= 5 && RecentStd(lib, s) > s.std * (1.0 + c.noiseThreshold)
  }

  /** `_classify_reading` against the statistics after the update. */
  function Classify(c: Config, lib: Library, value: real, z: real, s: Stats): (v: Verdict)
    ensures v.category == Alert <==> z > c.zThreshold * 2.0
    ensures v.category == Alert ==> v.confidence == 0.9
    ensures v.category == Noise && v.confidence == 0.7 <==> c.zThreshold < z <= c.zThreshold * 2.0
    ensures v.category == Drift <==> WithinThreshold(c, z) && Drifting(c, s)
    ensures v.category == Drift ==> v.confidence == 0.6 && "drift_ratio" in v.details && v.details["drift_ratio"] == VNum(DriftRatio(s))
    ensures v.category == Noise && v.confidence == 0.5 <==> WithinThreshold(c, z) && !Drifting(c, s) && Jittery(c, lib, s)
    ensures v.category == Noise && v.confidence == 0.5 ==> "noise_std" in v.details && v.details["noise_std"] == VNum(RecentStd(lib, s))
    ensures v.category == Noise ==> v.confidence == 0.7 || v.confidence == 0.5
    ensures v.category == Normal <==> WithinThreshold(c, z) && !Drifting(c, s) && !Jittery(c, lib, s)
    ensures v.category == Normal ==> v.confidence == 0.8
    ensures "z_score" in v.details && v.details["z_score"] == VNum(z)
  {
    var details := map["z_score" := VNum(z), "mean" := VNum(s.mean), "std" := VNum(s.std), "value" := VNum(value)];
    if z > c.zThreshold * 2.0 then Verdict(Alert, 0.9, details)
    else if z > c.zThreshold then Verdict(Noise, 0.7, details)
    else if Drifting(c, s) then Verdict(Drift, 0.6, details["drift_ratio" := VNum(DriftRatio(s))])
    else if Jittery(c, lib, s) then Verdict(Noise, 0.5, details["noise_std" := VNum(RecentStd(lib, s))])
    else Verdict(Normal, 0.8, details)
  }

  /**
   * What `predict` returns and the statistics it leaves: the fallback for an
   * unregistered sensor or a reading it cannot use, otherwise the verdict on
   * the updated statistics with the score `min(z / threshold, 1)`.
   */
  function PredictOutcome(c: Config, lib: Library, registered: set<string>, stats: map<string, Stats>,
                          sid: string, reading: Value): (Prediction, map<string, Stats>)
    requires ValidConfig(c)
  {
    if sid !in registered then (FallbackPrediction("Model not trained"), stats)
    else match ValueOf(reading)
      case None => (FallbackPrediction("Prediction error"), stats)
      case Some(value) =>
        if !("timestamp" in reading.entries) || sid !in stats then (FallbackPrediction("Prediction error"), stats)
        else
          var s := stats[sid];
          var z := ZScoreOf(value, s);
          var s' := UpdatedStats(c, lib, s, value, reading.entries["timestamp"]);
          var v := Classify(c, lib, value, z, s');
          (Prediction(v.category, v.confidence, Score(c, z), v.details), stats[sid := s'])
  }

  class ZScoreDetector {
    const lib: Library
    const config: Config
    /** The sensors with a trained or loaded model (`sensor_models`). */
    var registered: set<string>
    /** Per-sensor statistics (`sensor_stats`). */
    var stats: map<string, Stats>

    ghost predicate Valid()
      reads this
    {
      ValidConfig(config) && forall k :: k in stats ==> WindowOk(config, stats[k])
    }

    constructor (lib: Library, config: Config)
      requires ValidConfig(config)
      ensures Valid() && this.lib == lib && this.config == config
      ensures registered == {} && stats == map[]
    {
      this.lib := lib;
      this.config := config;
      registered := {};
      stats := map[];
    }

    /** `fit`: on accepted readings, store the trained statistics and register the sensor. */
    method Fit(sid: string, readings: seq<Value>) returns (ok: bool)
      requires Valid()
      modifies this
      ensures Valid()
      ensures ok == FitAccepts(config, lib, readings)
      ensures ok ==> (registered == old(registered) + {sid}
                      && stats == old(stats)[sid := TrainedStats(config, lib, readings)])
      ensures !ok ==> registered == old(registered) && stats == old(stats)
    {
      if !ValidateInput(lib, readings) || |readings| < config.minReadings {
        return false;
      }
      Store(sid, TrainedStats(config, lib, readings));
      ok := true;
    }

    /** The end of a successful `fit`: the statistics are stored and the sensor registered. */
    method Store(sid: string, s: Stats)
      requires Valid() && WindowOk(config, s)
      modifies this
      ensures Valid()
      ensures registered == old(registered) + {sid} && stats == old(stats)[sid := s]
    {
      stats := stats[sid := s];
      registered := registered + {sid};
    }

    /** `_update_stats` on the stored statistics of one sensor. */
    method UpdateStats(sid: string, value: real, ts: Value)
      requires Valid() && sid in stats
      modifies this
      ensures Valid() && registered == old(registered)
      ensures stats == old(stats)[sid := UpdatedStats(config, lib, old(stats)[sid], value, ts)]
    {
      var s := stats[sid];
      WindowSlides(config, lib, s, value, ts);
      stats := stats[sid := UpdatedStats(config, lib, s, value, ts)];
    }

    /** `predict`: the z-score on the statistics before the update, the category on those after it. */
    method Predict(sid: string, reading: Value) returns (p: Prediction)
      requires Valid()
      modifies this
      ensures Valid() && registered == old(registered)
      ensures (p, stats) == PredictOutcome(config, lib, old(registered), old(stats), sid, reading)
    {
      if sid !in registered {
        return FallbackPrediction("Model not trained");
      }
      var v := ValueOf(reading);
      if v.None? || !("timestamp" in reading.entries) || sid !in stats {
        return FallbackPrediction("Prediction error");
      }
      var value := v.value;
      var z := ZScoreOf(value, stats[sid]);
      UpdateStats(sid, value, reading.entries["timestamp"]);
      var verdict := Classify(config, lib, value, z, stats[sid]);
      p := Prediction(verdict.category, verdict.confidence, Score(config, z), verdict.details);
    }

    /** `save_model`: the implementation runs only for a registered sensor and needs its statistics. */
    method SaveModel(sid: string, writeSucceeds: bool) returns (ok: bool, implCalled: bool)
      ensures implCalled <==> sid in registered
      ensures ok <==> sid in registered && sid in stats && writeSucceeds
    {
      implCalled := sid in registered;
      ok := implCalled && sid in stats && writeSucceeds;
    }

    /**
     * `load_model`: `file` is the unpickled model file, None when it is missing
     * or unreadable; a successful load registers the sensor and takes the
     * sensor's statistics from the file when it holds them.
     */
    method LoadModel(sid: string, file: Option<map<string, Stats>>) returns (ok: bool)
      requires Valid()
      requires file.Some? && sid in file.value ==> WindowOk(config, file.value[sid])
      modifies this
      ensures Valid()
      ensures ok == file.Some?
      ensures registered == if ok then old(registered) + {sid} else old(registered)
      ensures stats == if ok && sid in file.value then old(stats)[sid := file.value[sid]] else old(stats)
    {
      if file.None? {
        return false;
      }
      if sid in file.value {
        stats := stats[sid := file.value[sid]];
      }
      registered := registered + {sid};
      ok := true;
    }

    /** Removal of the sensor from `sensor_models`, as the orchestrator's `remove_sensor` does. */
    method Unregister(sid: string)
      requires Valid()
      modifies this
      ensures Valid() && stats == old(stats)
      ensures registered == old(registered) - {sid}
    {
      registered := registered - {sid};
    }

    function ModelInfo(sid: string): (r: Option<BaseDetector.ModelInfo>)
      reads this
      ensures r.Some? <==> sid in registered
      ensures r.Some? ==> r.value.config == ConfigDict(config)
    {
      GetModelInfo(registered, "ZScoreDetector", ConfigDict(config), sid)
    }
  }

  // -----------------------------------------------------------------------
  // Properties

  /** The update appends the reading, keeps the newest `window_size` entries and counts it. */
  lemma WindowSlides(c: Config, lib: Library, s: Stats, value: real, ts: Value)
    requires ValidConfig(c) && WindowOk(c, s)
    ensures var s' := UpdatedStats(c, lib, s, value, ts);
      WindowOk(c, s')
      && s'.lastValues == LastN(s.lastValues + [value], c.windowSize)
      && s'.lastValues[|s'.lastValues| - 1] == value
      && s'.totalReadings == s.totalReadings + 1
  {
  }

  /** An untrained sensor gets the fallback and nothing changes. */
  lemma UntrainedFallsBack(c: Config, lib: Library, registered: set<string>, stats: map<string, Stats>,
                           sid: string, reading: Value)
    requires ValidConfig(c) && sid !in registered
    ensures var (p, stats') := PredictOutcome(c, lib, registered, stats, sid, reading);
      IsFallback(p) && p.category == Normal && p.confidence == 0.1 && stats' == stats
  {
  }

  /** The anomaly score lies in [0, 1]. */
  lemma ScoreInUnitInterval(c: Config, lib: Library, registered: set<string>, stats: map<string, Stats>,
                            sid: string, reading: Value)
    requires ValidConfig(c)
    ensures var p := PredictOutcome(c, lib, registered, stats, sid, reading).0;
      0.0 <= p.anomalyScore <= 1.0
  {
    if sid in registered && ValueOf(reading).Some? && "timestamp" in reading.entries && sid in stats {
      var z := ZScoreOf(ValueOf(reading).value, stats[sid]);
      assert PredictOutcome(c, lib, registered, stats, sid, reading).0.anomalyScore == Score(c, z);
    }
  }

  /** A sensor whose stored deviation is zero scores 0 and is never an outlier (alert or 0.7 noise). */
  lemma ZeroDeviationNeverOutlier(c: Config, lib: Library, registered: set<string>, stats: map<string, Stats>,
                                  sid: string, reading: Value)
    requires ValidConfig(c) && sid in stats && stats[sid].std == 0.0
    ensures var p := PredictOutcome(c, lib, registered, stats, sid, reading).0;
      p.anomalyScore == 0.0 && p.category != Alert && !(p.category == Noise && p.confidence == 0.7)
  {
    if sid in registered && ValueOf(reading).Some? && "timestamp" in reading.entries {
      var value := ValueOf(reading).value;
      var s' := UpdatedStats(c, lib, stats[sid], value, reading.entries["timestamp"]);
      assert ZScoreOf(value, stats[sid]) == 0.0;
      var v := Classify(c, lib, value, 0.0, s');
      assert v.category != Alert && !(v.category == Noise && v.confidence == 0.7);
    }
  }

  /**
   * For a fixed value and state, a larger z-score never gives a less severe
   * category (normal < drift < noise < alert).
   */
  lemma ClassifyMonotone(c: Config, lib: Library, value: real, z1: real, z2: real, s: Stats)
    requires ValidConfig(c) && 0.0 <= z1 <= z2
    ensures Rank(Classify(c, lib, value, z1, s).category) <= Rank(Classify(c, lib, value, z2, s).category)
  {
  }
}
